=== FILE: README.md ===
# Finite-capacity grains: a Dafny model

This project models the exact-arithmetic core of the "finite-capacity system
manual" scripts. In those scripts every quantity is a count of indivisible
*grains* (or *lumps*) out of a finite capacity, the *vantage*. The model
proves what the scripts promise about those counts.

- **Adaptive quadtree** (modules `Blocks`, `Adapt`, `Flow`). This is the
  probability mass model of `quantum_check_final.py`, in both the scripts
  copy and the root copy.
  - A block is a rectangle of integer cells with an exact probability and a
    vantage.
  - The operations are sum, scale, normalise and vantage refinement;
    split, merge and the adaptive driver over them; edge adjacency; and the
    snapshot-based flow step with an open or closed boundary.
  - `real` stands for Python's `Fraction`.
- **Exact rationals** (modules `Grains`, `RawFractions`, `BoundedDsl`,
  `IntMath`).
  - The self-reducing `Grain`/`FiniteFraction` classes, with Euclid's
    `gcd`.
  - The unnormalised `Grain`/`Lump` pairs of the Gauss–Jordan and geometry
    scripts, with their `simplify`, `abs`, L1 distance and polygon
    perimeter.
  - The bounded-denominator `FiniteDSL`/`LumpsDSL`.
- **Algorithms on rationals** (modules `GaussJordan`, `Numerics`).
  - Both shapes of `gauss_jordan_solve`.
  - The trapezoid rule, forward differences, the explicit heat step and the
    1-D diffusion run.
- **Integer `k/M` square-root searchers** (modules `SqrtSearch`,
  `HillClimb`, `Newton`, `Layers`, `StuckWalk`, `CollapseWalk`).
  - Each searches for `k/M` with `k² ≈ N·M²`.
  - They use a deterministic ±1 hill climb, a slope-guided step, a layered
    search, and two random-step walks whose draw is a parameter.
  - Each expands its vantage `M` when stuck.
- **Grain bookkeeping** (modules `GrainStore`, `Cumulative`, `Signals`,
  `PageRank`, `Mesh`, `Lumps`).
  - The clamped probability store with cumulative-sum sampling.
  - Signal/feature compatibility.
  - The PageRank outlink grain table, draw and normalisation.
  - The 8-way grid mesh.
  - The integer `k/ncap` arithmetic of `LumpsValue`.

## Modelling conventions

- Python raises exceptions; the model returns `Result` values. Each kind of
  exception is a constructor of `Wrappers.Error`.
- Where a script draws a random number, the draw is a parameter. The
  parameter is constrained only to the range the draw comes from. A loop
  that draws once per pass takes an oracle `pick(pass, total)`.
- Python's `//` on negative operands floors. It is modelled by
  `IntMath.FloorDiv` wherever the operands can be negative.
- The process-wide dictionary `Mu` is passed in and returned as a map.
- Copies of one algorithm that differ in a detail share one model. A flag in
  the parameters picks the detail:
  - `guardMinus` in `HillClimb`;
  - `keepNegative` in `Newton`;
  - `halfEven` in `StuckWalk`;
  - `clampNegative` in `CollapseWalk`.

  Lemmas show that from `k ≥ 0` the copies take the same steps, wherever
  that holds.

## Model

| member | source | states |
|---|---|---|
| `Blocks.Refine` | scripts/quantum_check_final.py:84-97 | The vantage never decreases. It grows exactly when the probability is neither 0 nor 1 and lies below 1/vantage. When it jumps past vantage+1, the new vantage is the least denominator at which a positive probability is worth one grain. |
| `Blocks.SetProbability` | scripts/quantum_check_final.py:99-101 | Sets the probability and keeps the rectangle, the kind of node and the children. The new vantage is `Blocks.Refine` of the new probability and the old vantage, the rule of `refine_vantage_if_needed_2d`. It never shrinks, and it grows exactly when the probability is neither 0 nor 1 and below 1/vantage. |
| `Blocks.Leaves` | quantum_check_final.py:100-108 | Collects only leaves. The pre-order, children-in-list-order traversal is the definition. |
| `Blocks.SumIsLeafTotal` | scripts/quantum_check_final.py:60-67 | The recursive tree sum equals the total of the leaf probabilities in `get_leaves_2d` order. Internal nodes' own `prob` fields never count. |
| `Blocks.Scale` | scripts/quantum_check_final.py:69-76 | Rectangles, tree structure and internal nodes are unchanged by scaling; only leaf probabilities and vantages change. |
| `Blocks.ScaleTotal` | scripts/quantum_check_final.py:69-76 | Scaling multiplies the tree sum by the factor. |
| `Blocks.ScaleLeafwise` | quantum_check_final.py:46-73 | Every leaf probability is multiplied by the factor. Each new leaf is the old leaf re-set through set_probability_2d: same rectangle, vantage refined for the new probability. |
| `Blocks.Normalize` | scripts/quantum_check_final.py:78-82 | A tree with total ≤ 0 or = 1 is returned unchanged. Otherwise every leaf probability, in leaf order, is divided by the total, and each leaf is re-set through set_probability_2d. A tree with positive total ends with total exactly 1. The shape is kept. |
| `Blocks.NormalizeIdempotent` | quantum_check_final.py:75-79 | Normalising twice gives what normalising once gave. |
| `Blocks.SetLeafProbs` | scripts/quantum_check_final.py:239-240 | Writing a list of new leaf values back, in leaf order, changes only the leaves. Each leaf gets its value through set_probability_2d (its vantage refined), and nothing else changes. |
| `Adapt.QuadrantCases` | scripts/quantum_check_final.py:128-143 | The surviving quadrants are all four when width and height are both ≥ 2. Otherwise they are bottom-left/bottom-right, bottom-left/top-left, or bottom-left alone, in source order. |
| `Adapt.Split` | scripts/quantum_check_final.py:118-146 | Internal nodes, leaves of area ≤ 1 and empty rectangles are unchanged. Any other leaf becomes a node with prob 0 and the same vantage. It has 2 to 4 leaf children (4 exactly when width and height are ≥ 2), each holding prob/4 and the parent's vantage. |
| `Adapt.SplitTiles` | quantum_check_final.py:114-143 | The children of a split are non-empty, inside the parent, pairwise disjoint and cover every cell of the parent. |
| `Adapt.SplitConservesIff` | scripts/quantum_check_final.py:131-146 | A split keeps the tree total exactly when all four quadrants survive or the probability is 0. |
| `Adapt.SplitKeepsNonNegative` | scripts/quantum_check_final.py:138-146 | With non-negative probabilities a split keeps them non-negative and never increases the total. |
| `Adapt.SplitKeepsValid` | scripts/quantum_check_final.py:118-146 | Splitting a leaf of a well-kept tree gives a well-kept tree: internal nodes hold no probability and have 2–4 tiling children. |
| `Adapt.Merge` | scripts/quantum_check_final.py:148-155 | Merging gives a leaf with the same rectangle and vantage, whose probability is the subtree sum. A leaf is unchanged. |
| `Adapt.Adapt` | scripts/quantum_check_final.py:157-173 | The rectangle is kept. Well-kept and non-negative trees stay so, without gaining mass. A leaf of area > 1 with prob ≥ the split threshold becomes `Split` of itself; any other leaf is returned unchanged. An internal node first adapts its children. It is merged into a leaf holding their new total (same rectangle and vantage) exactly when that total is below the merge threshold. Otherwise it is kept with the adapted children. |
| `Adapt.AdaptAll` | quantum_check_final.py:154-172 | Entry i of the result is child i adapted on its own, in order. Length and rectangles are kept, well-kept and non-negative children stay so, and the total never increases. |
| `Flow.NeighborSymmetric` | scripts/quantum_check_final.py:179-194 | `is_neighbor_2d` is symmetric. |
| `Flow.NeighborIrreflexive` | quantum_check_final.py:178-195 | No well-formed block is its own neighbour. |
| `Flow.NeighborMeansTouchingCells` | scripts/quantum_check_final.py:184-192 | For well-formed rectangles, being neighbours means being disjoint with some cell of one sharing an edge with some cell of the other. |
| `Flow.FindNeighbors` | scripts/quantum_check_final.py:196-208 | The neighbour lists equal the reference map NeighborMap, which lists exactly the neighbouring leaves. They are symmetric, have no self entries and only name existing leaves. |
| `Flow.NeighborMapFacts` | quantum_check_final.py:197-209 | The adjacency built by the double loop is symmetric, irreflexive and names only neighbouring leaves. |
| `Flow.Distribute` | scripts/quantum_check_final.py:230-234 | Sending `portion` to each listed neighbour adds `portion` once per occurrence, so the total grows by exactly count × portion. |
| `Flow.FlowValues` | quantum_check_final.py:211-249 | The new values are those of the snapshot-based reference definition. With a closed boundary the total is unchanged. With an open boundary it drops by exactly alpha·prob summed over the leaves without neighbours. |
| `Flow.FlowStep` | scripts/quantum_check_final.py:210-240 | The tree keeps its shape. Every leaf gets the value the snapshot-based flow assigns it. The tree total is conserved (closed) or loses exactly the outflow of the neighbourless leaves (open). |
| `IntMath.GcdDivides` | scripts/grains_arithmetic.py:15-18 | Euclid's `gcd` of two non-negative numbers, not both zero, divides both. |
| `IntMath.GcdIsGreatest` | scripts/grains_arithmetic.py:15-18 | Every common divisor is at most Euclid's `gcd`. |
| `IntMath.GcdCommutes` | scripts/gauss_jordan.py:16-19 | Euclid's `gcd` does not depend on the order of its arguments. |
| `IntMath.Bezout` | scripts/grains_arithmetic.py:15-18 | Euclid's `gcd` is an integer combination of its arguments. |
| `IntMath.ReducedCoprime` | scripts/grains_mixed_demo.py:30-39 | Dividing both parts by their gcd leaves coprime parts. |
| `IntMath.CoprimeFractionUnique` | scripts/grains_unified_demo.py:67-73 | Two lowest-terms fractions with positive denominators and equal cross products have equal parts. |
| `IntMath.FloorDiv` | scripts/gauss_jordan.py:26 | Python's `//` is the floor of the exact quotient. |
| `IntMath.Lcm` | scripts/grains_dsl_with_omega.py:50 | `(a*b)//gcd(a,b)` is a positive common multiple. |
| `IntMath.LcmIsLeast` | scripts/grains_dsl_with_omega.py:50 | No positive common multiple is smaller than it. |
| `Grains.Make` | scripts/grains_mixed_demo.py:30-39 | Fails with ValueError exactly on a zero denominator. Otherwise it stores the value num/den in lowest terms with a positive denominator. |
| `Grains.MakeReduced` | scripts/grains_unified_demo.py:24-38 | Constructing a grain from the parts of a grain gives back the same grain: the stored form is a normal form. |
| `Grains.ValueDeterminesParts` | scripts/grains_arithmetic.py:29-40 | Two constructed fractions with the same value have the same numerator and denominator. |
| `Grains.FromInt` | scripts/PDE_1.py:28-38 | `Grain(k)` stands for the integer k. |
| `Grains.CrossMultiply` | scripts/grains_mixed_demo.py:68-75 | Cross-multiplying compares values, both for equality and for `<`. |
| `Grains.Add` | scripts/grains_mixed_demo.py:45-51 | Addition is exact. |
| `Grains.Sub` | scripts/grains_mixed_demo.py:52-54 | Subtraction as add-the-negation is exact. |
| `Grains.SubDirect` | scripts/grains_arithmetic.py:56-62 | `FiniteFraction` subtraction of cross products is exact. |
| `Grains.SubAgrees` | scripts/grains_arithmetic.py:56-62 | Both ways of subtracting give the same stored parts. |
| `Grains.Mul` | scripts/grains_mixed_demo.py:55-59 | Multiplication is exact. |
| `Grains.Div` | scripts/grains_mixed_demo.py:60-65 | Fails with ZeroDivisionError exactly when the divisor's value is zero. Otherwise it gives the exact quotient. |
| `Grains.ComparisonsAgree` | scripts/grains_mixed_demo.py:68-84 | `==`, `!=`, `<`, `<=`, `>` and `>=` agree with the order of the rational values. |
| `Grains.StructuralEqualityIsValueEquality` | scripts/grains_unified_demo.py:67-73 | Comparing the stored parts is the same as comparing the values. |
| `Grains.PolygonPerimeter` | scripts/grains_arithmetic.py:79-86 | The perimeter is n_sides times the side. |
| `Grains.CirclePerimeter` | scripts/grains_arithmetic.py:88-104 | Fails with ZeroDivisionError exactly for zero sides. Otherwise it is exactly 2·radius. |
| `RawFractions.Reduce` | scripts/gauss_jordan.py:25-26 | Dividing by `gcd(abs(num), abs(den))` fails with ZeroDivisionError exactly for 0/0. Otherwise it gives lowest terms with the same ratio and the same signs of both parts. |
| `RawFractions.ReduceNonZero` | gauss_jordan.py:21-22 | On a nonzero denominator the reduction succeeds, with a nonzero denominator and the value num/den. |
| `RawFractions.Add` | scripts/gauss_jordan.py:21-26 | On nonzero denominators the sum is exact and in lowest terms. A failure only comes from a zero denominator. |
| `RawFractions.Sub` | scripts/gauss_jordan.py:28-33 | On nonzero denominators the difference is exact and in lowest terms. |
| `RawFractions.Mul` | scripts/gauss_jordan.py:35-40 | On nonzero denominators the product is exact and in lowest terms. |
| `RawFractions.LumpDiv` | gauss_jordan.py:38-46 | Fails with ZeroDivisionError exactly when the computed denominator `d1*n2` is zero. Otherwise it gives the exact quotient in lowest terms. |
| `RawFractions.Div` | scripts/gauss_jordan.py:42-49 | Fails with ZeroDivisionError exactly when the divisor is zero. Otherwise it gives the exact quotient in lowest terms. |
| `RawFractions.DivChecksAgree` | gauss_jordan.py:43-44 | On well-formed operands the denominator check and the divisor check reject the same divisions and agree on every result. |
| `RawFractions.Simplify` | scripts/grains_geometry.py:17-23 | `simplify` gives lowest terms and keeps the value. |
| `RawFractions.SimplifyIdempotent` | grains_geometry.py:19-25 | Simplifying twice gives what simplifying once gave. |
| `RawFractions.ReduceLowest` | scripts/grains_geometry.py:17-23 | A pair already in lowest terms is left as it is. |
| `RawFractions.FractionAbs` | scripts/grains_geometry.py:59-60 | `abs` gives non-negative parts and the absolute value. |
| `RawFractions.L1Distance` | scripts/grains_geometry.py:79-85 | The distance is the L1 distance of the points' values. |
| `RawFractions.L1DistanceProperties` | grains_geometry.py:81-87 | The distance is non-negative, zero from a point to itself, and symmetric down to the stored parts. |
| `RawFractions.PolygonPerimeter` | scripts/grains_geometry.py:88-103 | The perimeter is 0 (as 0/1) below two points. Otherwise it is the sum of all n edges, including the closing edge, and it is never negative. |
| `BoundedDsl.MakeAsWritten` | scripts/grains_dsl_with_omega.py:25-45 | The constructor as written fails only with ValueError. It fails exactly when the denominator is zero or is positive and above Ω times gcd(num, den), so every negative denominator is accepted. What it accepts is the `_simplify` form: reduced, the denominator's sign kept, den ≤ Ω, and the value kept. |
| `BoundedDsl.Make` | grains_dsl_with_omega.py:10-30 | With the magnitude checked, the constructor fails exactly on a zero denominator or a reduced denominator of magnitude above Ω. It keeps the value. |
| `BoundedDsl.MakeKeepsAdmissible` | scripts/grains_dsl_with_omega.py:42-45 | Every bounded value has a denominator of magnitude at most Ω and is its own normal form. |
| `BoundedDsl.UnifyAsWritten` | scripts/grains_dsl_with_omega.py:47-54 | `unify` as written fails with ValueError exactly when the product of the denominators is positive and their lcm exceeds Ω. Otherwise it returns the lcm, carrying the sign of that product. |
| `BoundedDsl.Unify` | grains_dsl_with_omega.py:32-39 | With the magnitude checked, `unify` fails with ValueError exactly when the lcm exceeds Ω. It returns a common multiple of both denominators. |
| `BoundedDsl.UnifyIsLeast` | scripts/grains_dsl_with_omega.py:50 | The unified denominator is no larger than any positive common multiple. |
| `BoundedDsl.AddAsWritten` | scripts/grains_dsl_with_omega.py:56-60 | `__add__` as written fails only with ValueError, and exactly when `unify` does: a positive common denominator above Ω. Otherwise it gives the exact sum, with a negative denominator exactly when the operands' denominators have opposite signs. |
| `BoundedDsl.Add` | grains_dsl_with_omega.py:41-45 | With the magnitude checked, addition fails exactly when the common denominator would exceed Ω. Otherwise it gives the exact sum. |
| `BoundedDsl.AddCommutes` | scripts/grains_dsl_with_omega.py:56-60 | Addition is commutative down to the stored parts and the failure. |
| `BoundedDsl.NegativeDenominatorEscapes` | scripts/grains_dsl_with_omega.py:42-54 | Two admissible values, 1/−199 and 1/200, add under the signed checks to a fraction whose denominator exceeds Ω. The magnitude checks reject that sum. |
| `GaussJordan.PivotRow` | gauss_jordan.py:68-75 | The pivot is row i when its entry is nonzero. Otherwise it is the first row below i with a nonzero entry in column i, and every row strictly between them has a zero there. If none exists, the whole column from row i down is zero. |
| `GaussJordan.SolveEliminateAll` | scripts/gauss_jordan.py:57-94 | With all pivots found, the result solves A·x = b and A is nonsingular. A column without a pivot surfaces as ZeroDivisionError, and then A is singular. |
| `GaussJordan.SolveForwardBack` | scripts/grains_mixed_demo.py:90-132 | The result solves A·x = b for a nonsingular A. A column without a pivot raises ValueError, and then A is singular. |
| `GaussJordan.IdentitySolves` | gauss_jordan.py:92-94 | When row operations have reduced the left block to the identity, the last column solves the original system. |
| `GaussJordan.NoPivotSingular` | scripts/gauss_jordan.py:70-82 | If column i has no nonzero entry from row i down while the earlier columns are unit vectors, A has a nonzero kernel vector. |
| `GaussJordan.TriangularSingular` | scripts/grains_unified_demo.py:92-133 | A forward pass that finds no pivot in column i of an upper unit triangle means A is singular. |
| `Numerics.PanelsAsEndpoints` | scripts/grains_mixed_demo.py:188-202 | The sum of n trapezoid panels equals the scripts' endpoint form (h/2)·(f(a)+f(b)+2·Σ interior f). |
| `Numerics.PanelsExactOnLines` | scripts/grains_unified_demo.py:187-206 | The trapezoid rule integrates straight lines exactly. |
| `Numerics.Trapezoid` | scripts/grains_unified_demo.py:187-206 | Fails with ZeroDivisionError exactly for zero steps. For n > 0 it is the sum of n panels of width (b−a)/n ending exactly at b. For n < 0 it is the single endpoint term the empty loop leaves. |
| `Numerics.TrapezoidSquarePlusOne` | scripts/grains_mixed_demo.py:183-202 | Fails with ValueError when b < a and with ZeroDivisionError for zero steps (when a ≤ b). For n > 0 it is the panel sum of x²+1, which is at least b−a. |
| `Numerics.ForwardDiff` | scripts/grains_mixed_demo.py:216-227 | Fails with ZeroDivisionError exactly when dx is 0 and there are two or more values. Otherwise it gives len−1 values (none for an empty list), each with d·dx = y[i+1]−y[i]. |
| `Numerics.DifferencesTelescope` | scripts/grains_unified_demo.py:220-229 | The forward differences times dx add up to last − first. |
| `Numerics.HeatStep` | scripts/grains_mixed_demo.py:244-257 | Fails with IndexError exactly on an empty list. Otherwise the result keeps the length, zeroes both ends, and computes each interior value from the old array only. |
| `Numerics.RelaxedWithin` | scripts/grains_mixed_demo.py:244-257 | For 0 ≤ alpha ≤ 1/2, a step keeps every value inside any range [lo, hi] that contains 0 (discrete maximum principle). |
| `Numerics.StepsWithin` | scripts/PDE_1.py:125-136 | Any number of such steps stays in the range. |
| `Numerics.Evolve` | scripts/PDE_1.py:125-136 | The time loop applies the step n_steps times, and none for n_steps ≤ 0. |
| `Numerics.Initial` | scripts/PDE_1.py:120-122 | The initial profile has n cells, all within [0, 10]. |
| `Numerics.DiffusionSetup` | scripts/PDE_1.py:110-125 | Fails for n_cells ≤ 0: ValueError for 0 (`Grain(1, 0)`) and IndexError below. Otherwise cell i is centred at (2i+1)/(2n), the profile is the initial spike, and the factor is D·dt·n². |
| `Numerics.Diffusion1DAsWritten` | scripts/PDE_1.py:92-138 | The run as written applies the step with coefficient −factor. |
| `Numerics.AntiDiffusionGrows` | scripts/PDE_1.py:128-136 | With 3 cells, D = 1 and dt = 1/36, one as-written step turns [0, 10, 0] into [0, 15, 0], which leaves [0, 10]. |
| `Numerics.Diffusion1D` | scripts/PDE_1.py:92-138 | The corrected run applies the step with coefficient +factor. Whenever factor ≤ 1/2, `StepsWithin` keeps it within [0, 10]. |
| `GrainStore.SetProbability` | scripts/grain_probability.py:18-27 | Fails with ValueError exactly for k < 0 or k > capacity. Otherwise it stores k under (a, e, x), changes no other key, and keeps a valid store valid. |
| `GrainStore.UpdateProbability` | scripts/grain_probability.py:80-87 | Stores old+delta clamped into [0, capacity], reading an absent key as 0. No other key changes. |
| `GrainStore.UpdateKeepsValid` | scripts/grain_probability.py:80-87 | Updates keep every count within capacity, and an update by 0 changes no count. |
| `GrainStore.StoreCounts` | scripts/grain_probability.py:43-46 | Fails with ValueError exactly when some count is out of range. Otherwise it stores every count under its pattern, touches no other observer/environment, and returns the total. |
| `GrainStore.PartialSums` | scripts/grain_probability.py:48-53 | Each pattern is paired with the running total up to and including it. |
| `GrainStore.CreateDistribution` | scripts/grain_probability.py:37-62 | The partial sums are the running totals in insertion order, are non-decreasing, and end at the total. The failure case is that of `StoreCounts`. |
| `GrainStore.SampleSlot` | scripts/grain_probability.py:64-78 | A draw in [0, total) always picks a pattern. Pattern i is picked by exactly the draws in its slot, which is as wide as its count. |
| `Cumulative.FirstAbove` | scripts/grain_probability.py:74-78 | The first index whose running total exceeds the draw, or none when no total does. |
| `Cumulative.DrawnHasGrains` | scripts/grain_probability.py:74-76 | The pattern a draw lands on has a positive count. |
| `Signals.IsCompatible` | scripts/signals.py:37-43 | Holds exactly when the pattern's features are a subset of the environment's signals, with missing entries read as empty. A pattern without features is compatible with every environment. |
| `Signals.UpdateEnvTransition` | scripts/signals.py:45-57 | Each listed pattern gets its old count under the new environment when compatible, and 0 otherwise. No other key changes. The new keys are exactly the listed patterns under (a, new_e). |
| `Signals.TransitionKeepsValid` | scripts/signals.py:52-57 | A transition keeps every count of a valid store within capacity. |
| `Signals.CompatibleMonotone` | scripts/signals.py:41-43 | Compatibility survives adding signals or removing features. |
| `PageRank.Share` | scripts/page_rank_fin.py:27 | `max(1, capacity // len)` is at least 1. It is capacity // len when capacity ≥ len and 1 otherwise. |
| `PageRank.BuildRow` | scripts/page_rank_fin.py:19-35 | A node without outlinks gets a self-loop holding all the capacity. Otherwise the row holds each outlink once, in first-occurrence order: `each` grains apiece, plus any positive leftover on the first outlink. |
| `PageRank.RowTotal` | scripts/page_rank_fin.py:27-35 | Every weight of a row with outlinks is at least one grain, and the row holds `each` grains per distinct outlink plus the leftover when it is positive, a positive total. |
| `PageRank.RowTotalDistinct` | scripts/page_rank_fin.py:27-35 | For distinct outlinks a row holds exactly max(capacity, number of outlinks) grains, so exactly the capacity when there are no more outlinks than grains. |
| `PageRank.BuildTransition` | scripts/page_rank_fin.py:9-37 | Every node of the graph gets its row, in graph order. |
| `PageRank.RowsStayInGraph` | scripts/page_rank_fin.py:19-35 | In a graph whose outlinks name graph nodes, every row only names graph nodes. |
| `PageRank.DrawNext` | scripts/page_rank_fin.py:39-57 | Gives the first key whose running sum exceeds the draw. A zero total falls back to the chosen key, with IndexError on an empty row. A negative total surfaces as ValueError. |
| `PageRank.DrawFollowsSlot` | scripts/page_rank_fin.py:50-55 | Key i is drawn by exactly the draws in its slot, which is as wide as its weight. |
| `PageRank.DrawFollowsLinks` | scripts/page_rank_fin.py:39-57 | A draw on a built row follows an outlink of the node, or stays at a node without outlinks. |
| `PageRank.VisitsAddUp` | scripts/page_rank_fin.py:100-101 | On a walk over the graph's nodes, the visit counts add up to the walk's length. |
| `PageRank.Normalize` | scripts/page_rank_fin.py:101-103 | Each rank is its count divided by the total. A zero total fails with ZeroDivisionError. |
| `PageRank.NormalizedSumsToOne` | scripts/page_rank_fin.py:100-103 | The normalised ranks sum to 1. |
| `PageRank.WalkRanks` | scripts/page_rank_fin.py:100-103 | A non-empty walk gives ranks that are visits/steps and sum to 1. |
| `Mesh.Neighbors` | scripts/2d_3d_mesh.py:42-53 | The neighbour list of a node holds exactly its in-grid cells at Chebyshev distance 1, at most 8 of them. |
| `Mesh.ReachedMembers` | scripts/2d_3d_mesh.py:43-53 | A cell is collected from a direction list exactly when it lies in the grid and its offset from the node is one of the directions. |
| `Mesh.ReachedAdjacent` | scripts/2d_3d_mesh.py:43-53 | Every cell the direction list reaches is an adjacent in-grid cell. |
| `Mesh.AdjacentReached` | scripts/2d_3d_mesh.py:43-53 | Every adjacent in-grid cell is reached by some direction. |
| `Mesh.NeighborsSymmetric` | scripts/2d_3d_mesh.py:42-53 | Mesh adjacency is symmetric and has no self-loops. |
| `Mesh.InteriorHasEight` | scripts/2d_3d_mesh.py:42-53 | A node away from the border has exactly 8 neighbours. |
| `Mesh.Build` | scripts/2d_3d_mesh.py:28-55 | The mesh is nx rows of ny nodes (none for non-positive sizes). Node (i, j) sits at (i/1, j/1) and links exactly its adjacent in-grid cells. |
| `Lumps.Unify` | scripts/PDE_3.py:61-80 | Different scales fail with ValueError, and equal vantages are returned unchanged. Otherwise both values move to the larger vantage. The one that had it keeps its count and the other is rescaled with floor division; a zero vantage there fails with ZeroDivisionError. |
| `Lumps.UnifyApproximates` | scripts/PDE_3.py:72-80 | With positive vantages each unified value is the original rounded down by less than one lump. On nested vantages it is the original exactly. |
| `Lumps.UnifyCanLose` | scripts/PDE_3.py:74-76 | Unifying 1/2 with 0/3 turns 1/2 into 1/3: vantages that do not nest lose value. |
| `Lumps.Add` | scripts/PDE_3.py:82-84 | The sum is taken at the common vantage with the first scale, and fails exactly when unify does. |
| `Lumps.Sub` | scripts/PDE_3.py:86-88 | The difference is taken at the common vantage, and fails exactly when unify does. |
| `Lumps.AddSubExact` | scripts/PDE_3.py:82-88 | On nested vantages sums and differences are exact. |
| `Lumps.Refine` | scripts/PDE_3.py:90-96 | Refining multiplies the vantage and the count by the factor and keeps the value. A zero vantage fails with ZeroDivisionError. |
| `Lumps.Mul` | scripts/PDE_3.py:98-134 | The product has the squared common vantage and squared scale, and is the product of the unified values. |
| `Lumps.MulExact` | scripts/PDE_3.py:110-134 | On nested vantages the product is exact. |
| `SqrtSearch.GrainsError` | scripts/grain_agg_sqrtn.py:1-7 | The error is zero exactly when k² = N·M². |
| `SqrtSearch.ErrorMeasuresDistance` | grain_agg_sqrtn.py:3-9 | The error is M² times the distance of (k/M)² from N. |
| `SqrtSearch.TryStep` | scripts/grain_agg_sqrtn.py:13-22 | The step is refused, keeping k, when k+step < 0. The reported error is that of the returned k, so k never goes negative. |
| `SqrtSearch.ClampIsTryStep` | scripts/simplified.py:92-94 | From k ≥ 0, clamping a ±1 candidate at 0 proposes the same k as `try_step`. |
| `SqrtSearch.ClampedCapacity` | scripts/simplified.py:121 | The expanded vantage is M·F capped at the capacity. |
| `SqrtSearch.NearestRescale` | scripts/simplified.py:123-125 | `(k*M + old_M//2)//old_M` is the nearest integer to k·M/old_M, rounding ties up, and is non-negative for k ≥ 0. |
| `SqrtSearch.RescaleIsNearest` | scripts/simplified.py:119-126 | The rescaled k/M is within half a lump of the old k/old_M. |
| `SqrtSearch.RoundHalfEven` | simplified.py:84-98 | Rounds p/d to the nearest integer, ties to even. |
| `SqrtSearch.Rescale` | scripts/grain_agg_sqrtn.py:76-84 | `round(k * newM / M)`, taken on the exact quotient, is within half a lump of k·newM/M. |
| `SqrtSearch.NearestUnique` | scripts/grain_agg.py:79-101 | Off a tie, at most one integer lies within half a step. |
| `SqrtSearch.RoundingsAgreeOffTies` | scripts/grains_approximation.py:105-118 | Half-even and half-up rounding agree except at ties. |
| `SqrtSearch.RescaleByFactor` | scripts/grain_agg_sqrtn.py:76-81 | When the vantage grows by an exact factor, rescaling multiplies k exactly by it. |
| `SqrtSearch.ExactExpansion` | scripts/finite_newton.py:54-57 | Multiplying k and M by F keeps k/M and multiplies the error by F². |
| `HillClimb.BestStep` | scripts/grain_agg_sqrtn.py:50-67 | The choice is k or k±1, and it moves exactly when a neighbour is strictly better. It is then no worse than either neighbour that `try_step` allows. |
| `HillClimb.MinusGuardRedundant` | scripts/grain_agg.py:63-75 | The extra `new_k_minus >= 0` guard never changes the chosen step. |
| `HillClimb.ExpansionGrows` | scripts/grain_agg_sqrtn.py:76-78 | Expanding below the capacity gives a vantage that is at least M and at most the capacity, and strictly larger when F ≥ 2. |
| `HillClimb.Iterate` | scripts/grain_agg_sqrtn.py:47-95 | One pass steps by ±1 with a strictly smaller error exactly when k is not a local minimum. Otherwise it stops at capacity or expands (clamped) and rescales. After a step it returns exactly when the error reaches 0. M never exceeds the capacity through expansion. |
| `HillClimb.Approximate` | scripts/grain_agg_sqrtn.py:24-99 | The reported error is that of the returned k/M. Exact means k² = N·M². A capacity stop is a local minimum at M ≥ capacity. At most ALLOWED_ITER passes run. M stays within [M₀, capacity] once expanded. Without expansion the error never rises. k ≥ 0 is kept. |
| `HillClimb.ApproximateSqrt2` | scripts/grain_agg-kopia.py:28-108 | The same for N = 2: an exact result has k² = 2·M², and a capacity stop is a local minimum. |
| `Newton.Candidate` | scripts/finite_newton.py:20-40 | The candidate is k−1 when the slope err(k+1)−err(k) is positive and k+1 otherwise. When that step is negative, the scripts copy resets it to k, while the root copy keeps the negative value. Each of the four cases is stated separately. |
| `Newton.SlopePicksBestStep` | scripts/finite_newton.py:33-47 | From k ≥ 0 the slope's candidate improves exactly when some neighbour does, and it is then the neighbour the two-sided search picks. |
| `Newton.NegativeCandidateHarmless` | finite_newton.py:28-41 | The root copy's unreset negative candidate is never accepted, so both copies take the same steps from k ≥ 0. |
| `Newton.Iterate` | scripts/finite_newton.py:30-65 | An improving candidate is taken with nothing else changed. Otherwise the pass stops at capacity, or multiplies k and M by F, keeping k/M and multiplying the error by F². Outside the capacity stop it returns exactly when the error is 0. |
| `Newton.Approximate` | scripts/finite_newton.py:3-67 | The reported error is that of k/M. Exact means zero error. A capacity stop from k ≥ 0 is a local minimum at M ≥ capacity. The pass count is bounded, and without expansion M and the error never grow. |
| `Layers.EvalForward` | scripts/square_roots.py:19-32 | `diff/denom` is exactly \|(k/M)² − tn/td\| for td > 0 and M ≠ 0. |
| `Layers.UpdateForward` | scripts/square_roots.py:43-64 | The result is k, k+1, or k−1 (only for k > 0). `changed` holds exactly when a strictly better neighbour exists, and the result is no worse than either neighbour tried. |
| `Layers.UpdateIsHillClimb` | scripts/square_roots.py:35-64 | For an integer target the measured diff is the grains error and the update takes the hill climber's step. |
| `Layers.ExpandForward` | scripts/square_roots.py:67-72 | Expansion keeps k/M and scales the diff by F² for every target. |
| `Layers.ToleranceMeans` | scripts/square_roots.py:101 | `diff * tolerance < denom` holds exactly when \|x² − target\| < 1/tolerance. |
| `Layers.Run` | scripts/square_roots.py:94-113 | On convergence, the result is within the tolerance. Otherwise all passes were used. M is M₀·10^expansions, and k ≥ 0 is kept. |
| `StuckWalk.Weights` | scripts/simplified.py:84-87 | Fair weights are used as they are. |
| `StuckWalk.ResetUnreachable` | scripts/simplified.py:84-87 | Fair weights add up to at least 2, so the reset for a zero total never fires. |
| `StuckWalk.Rescaled` | simplified.py:84-98 | Either copy's rescale is within half a lump of k·newM/oldM. |
| `StuckWalk.Iterate` | scripts/simplified.py:80-135 | The direction is up exactly for draws below the upward weight. An improving clamped step is kept, resets the failure count and raises its weight (at most 100). A failure below the threshold lowers its weight (at least 1). At the threshold the pass stops at capacity or expands, clamped, resets weights to 5/5 and rescales k. The weights stay in [1, 100]. |
| `StuckWalk.Approximate` | scripts/simplified.py:43-140 | The reported error is that of k/M, and exact means zero error. A capacity stop happens at M ≥ capacity after the threshold of failures. The pass count is bounded, and M stays within [M₀, capacity] once expanded. The weights stay fair and k ≥ 0 is kept. |
| `CollapseWalk.Candidate` | scripts/grains_approximation.py:80-86 | The candidate is k+step. A negative one is replaced by k in the scripts copy and by 0 in the root copy. |
| `CollapseWalk.CandidatesAgree` | grains_approximation.py:50-57 | From k ≥ 0 both copies propose the same candidate. |
| `CollapseWalk.Iterate` | scripts/grains_approximation.py:69-123 | An improving step raises its weight (at most 10), and a failing one lowers it. Weights summing to < 2 stop the run at capacity, or multiply M and k by F with the error scaled by F² and weights reset to 5/5. Healthy weights stay healthy. |
| `CollapseWalk.Approximate` | scripts/grains_approximation.py:30-127 | The reported error is that of k/M, and exact means zero error. A capacity stop comes from collapsed weights at M ≥ capacity. Otherwise the weights are healthy, and the pass count is bounded. |

## Left out

- I/O and display are not modelled: printing, `__repr__`, `to_float`/`to_decimal`, `print_tree_2d`, the `main()` functions, and the module-level example runs.
- Floating point is not modelled.
  - `grains_decimal`/`lumps_decimal` and the float parts of scripts/PDE_3.py are left out: `encode`, `to_float`, `usage_fraction`, `lumps_scalar`, `refine_if_tiny`, `heat_step`.
  - `scale` is a `real`. `Lumps.Unify` compares it for equality, `Lumps.Value` multiplies by it, and `Lumps.Mul` squares it exactly. The floating-point rounding of the script's `a_u.scale*a_u.scale` (scripts/PDE_3.py:125) is not modelled.
- Python's `round(k * newM / M)` divides in floating point. The model rounds the exact quotient, half to even. Float rounding error is not modelled.
- Random draws are parameters, not sampled:
  - `random.randint` in the walks, the sampler and the PageRank draw;
  - `random.choice` in the PageRank fallback and teleport.
- The PageRank walk loop (`grains_coded_pagerank`, lines 59-99) is left out. One draw on a row, the visit counts of a given walk, and the final normalisation are modelled.
- TypeError on float or non-int operands, and the `int(...)` coercion of int operands, are not modelled: Dafny's types exclude those inputs.
- The `Grain(1, 0)` and negative-size paths of `grains_diffusion_1D` raise; they are modelled as errors, not as partial results.
- FiniteMathConcurrency.py, the resource-monitor scripts and the root PDE_1.py are not part of this model. They are concurrency and timing simulations, `psutil` queries, and numpy/matplotlib code.
- `get_probability` is not modelled; it is a float display.
- The `best_err` tracking in scripts/simplified.py is not modelled. The function never returns it.
- The module-wide `Mu`, `feature_map` and `SignalSet` dictionaries are passed as explicit maps. Process-wide mutation is not modelled.
- `HillClimb.Approximate`: requires M₀ > 0 and factor ≥ 1. A zero vantage would make `round(k * newM / M)` raise ZeroDivisionError, and that path is not modelled.
- `HillClimb.ApproximateSqrt2`: requires M₀ > 0 and factor ≥ 1, as `HillClimb.Approximate` does. With `INITIAL_M = 0` (scripts/grain_agg-kopia.py:48, 89) the script raises ZeroDivisionError at `round(k * newM / M)`, and that path is not modelled.
- `StuckWalk.Approximate`: requires M₀ > 0 and factor ≥ 1. The rescale divides by the old M, so the ZeroDivisionError path is not modelled.
- `CollapseWalk.Approximate`: requires M₀ > 0 and factor ≥ 1, for the same reason.
- `Layers.Run`: states nothing about the passes' errors decreasing. Between expansions the diff measure is compared only at one vantage.
- `Mesh.Coord`: the `Grain` class of scripts/2d_3d_mesh.py is carried as this plain pair, and a grain's references to its neighbouring `Grain` objects become indices into the grid. Its zero-denominator ValueError is not modelled: the mesh only builds denominators of 1.
- `Mesh.Neighbors`: states which cells are neighbours, not their direction-list order. The order is the definition of `Mesh.Reached`: the directions are tried in the script's order.
- `Blocks.Leaves`: its contract only says every entry is a leaf. The pre-order, bottom-left to top-right order is its definition, and `Blocks.SumIsLeafTotal` and `Flow.FlowStep` are stated against that order.
- `GaussJordan.SolveEliminateAll`: requires a square system, n rows of n entries and n right-hand sides. Python's `zip` truncation and the IndexError of ragged input are not modelled.
- `GaussJordan.SolveForwardBack`: requires a square system, for the same reason.
- `GrainStore.StoreCounts`: requires distinct names. The source receives the pattern counts as a dictionary, whose keys are distinct.
- `GrainStore.CreateDistribution`: requires distinct names, for the same reason.
- `Blocks.Vantage`: vantages are positive integers. A vantage of 0 makes `Fraction(1, block.vantage)` raise ZeroDivisionError (scripts/quantum_check_final.py:91), and a negative vantage gives a negative refinement threshold. Neither path is modelled; every call site passes a positive vantage.
- `Flow.Boundary`: the `boundary` string becomes a two-value datatype. The script tests only `boundary == 'closed'`, so `Open` stands for every other string, whatever the default. The default is `'open'` in scripts/quantum_check_final.py:210 and `'closed'` in the root copy, quantum_check_final.py:211. Both demos pass `'open'` explicitly. The string itself and the default argument are not carried.
- Default arguments and module constants become explicit parameters of the model. Examples: `n_cells`, `D`, `dt` and `n_steps` of `grains_diffusion_1D`; `capacity` and `factor`; `split_thresh` and `merge_thresh`; `INITIAL_K`, `INITIAL_M`, `MAX_CAPACITY`, `EXPANSION_FACTOR`, `ALLOWED_ITER` and `STUCK_THRESHOLD`. A few defaults are also kept as named constants (`Blocks.DefaultVantage`, `Adapt.DefaultSplitThreshold`, `Adapt.DefaultMergeThreshold`); a caller passes them explicitly.
- `GaussJordan` models each matrix entry by its value. Every fraction operation the loops use is exact (`Grains`, `RawFractions`), so this loses nothing except the stored parts.

## Findings

| source | as written | input that shows it | evidently intended | confidence | as-written member | corrected member |
|---|---|---|---|---|---|---|
| scripts/PDE_1.py:128-136 | each step sets `u_new[i] = u[i] - factor * laplacian` | 3 cells, D = 1, dt = 1/36 (factor 1/4): [0, 10, 0] becomes [0, 15, 0] after one step | `u_t = D u_xx` calls for `u[i] + factor * laplacian`; then every step with factor ≤ 1/2 stays within the initial range | medium, not executed | `Numerics.Diffusion1DAsWritten` (counterexample `Numerics.AntiDiffusionGrows`) | `Numerics.Diffusion1D` (bound `Numerics.StepsWithin`) |
| scripts/grains_dsl_with_omega.py:42-54 | `_check_capacity` and `unify` compare the signed denominator with Ω | `FiniteDSL(1, -199) + FiniteDSL(1, 200)` is accepted, with denominator −39800 | no stored denominator exceeds Ω in magnitude | high, not executed | `BoundedDsl.AddAsWritten` (counterexample `BoundedDsl.NegativeDenominatorEscapes`) | `BoundedDsl.Add` |

=== FILE: bounded_dsl.dfy ===
/** `FiniteDSL` (scripts/grains_dsl_with_omega.py) and its copy `LumpsDSL`
    (grains_dsl_with_omega.py): fractions reduced by `math.gcd`, whose sign
    is not normalised, with a global bound Ω on denominators enforced by
    the constructor and by `unify`.

    As written, both checks compare the signed denominator with Ω, so a
    negative denominator of any magnitude passes. The `...AsWritten`
    members model that; `Make`, `Unify` and `Add` bound the magnitude,
    which is what "never exceed this finite bound" asks for. */
module BoundedDsl {
  import opened Wrappers
  import opened IntMath
  import opened RawFractions

  /** `GLOBAL_MAX`, the bound Ω. */
  const GlobalMax: int := 20000

  /** What the bounded constructor guarantees. */
  predicate Admissible(f: Raw)
  {
    f.den != 0 && Lowest(f) && Abs(f.den) <= GlobalMax
  }

  type Dsl = f: Raw | Admissible(f) witness Raw(0, 1)

  /** Dividing both parts by a positive common divisor leaves the
      denominator's magnitude above Ω exactly when `|den| > Ω * g`. */
  lemma ReducedMagnitude(den: int, g: int, r: int)
    requires g > 0 && den == r * g
    ensures Abs(r) > GlobalMax <==> Abs(den) > GlobalMax * g
  {
    AbsMul(r, g);
    ScaledComparison(Abs(r), GlobalMax, g);
  }

  lemma ScaledComparison(a: int, m: int, g: int)
    requires g > 0
    ensures a > m <==> a * g > m * g
  {
    if a > m {
      MulMonotone(g, m + 1, a);
      assert g * (m + 1) == m * g + g;
    } else {
      MulMonotone(g, a, m);
    }
  }

  /** The constructor as written: zero denominator, then `_simplify`, then
      `den > GLOBAL_MAX`. Every negative denominator is accepted. */
  function MakeAsWritten(num: int, den: int): (r: Result<NonZero>)
    ensures r.Err? ==> r.error == ValueError
    ensures den == 0 ==> r.Err?
    ensures den < 0 ==> r.Ok?
    ensures den != 0 && Abs(den) <= GlobalMax ==> r.Ok?
    ensures r.Ok? ==> Lowest(r.value) && r.value.den <= GlobalMax
    ensures r.Ok? ==> Value(r.value) == num as real / den as real
    // it fails exactly on a zero or a positive over-large denominator
    ensures r.Err? <==> den == 0 || den > GlobalMax * PyGcd(num, den)
    // the stored form is `_simplify`'s, whose denominator keeps its sign
    ensures r.Ok? ==> Reduce(num, den) == Ok(r.value) && (r.value.den < 0 <==> den < 0)
  {
    if den == 0 then Err(ValueError)
    else
      ReduceNonZero(num, den);
      var f := Reduce(num, den).value;
      ReduceFacts(num, den, PyGcd(num, den));
      ReducedMagnitude(den, PyGcd(num, den), f.den);
      MulMonotone(GlobalMax, 1, PyGcd(num, den));
      if f.den > GlobalMax then Err(ValueError) else Ok(f)
  }

  /** The constructor with the magnitude checked: it fails exactly when the
      denominator is zero or its lowest-terms magnitude exceeds Ω. */
  function Make(num: int, den: int): (r: Result<Dsl>)
    ensures r.Err? ==> r.error == ValueError
    ensures r.Err? <==> den == 0 || Abs(den) > GlobalMax * PyGcd(num, den)
    ensures den != 0 && Abs(den) <= GlobalMax ==> r.Ok?
    ensures r.Ok? ==> Value(r.value) == num as real / den as real
  {
    if den == 0 then Err(ValueError)
    else
      ReduceNonZero(num, den);
      var f := Reduce(num, den).value;
      ReduceFacts(num, den, PyGcd(num, den));
      ReducedMagnitude(den, PyGcd(num, den), f.den);
      MulMonotone(GlobalMax, 1, PyGcd(num, den));
      if Abs(f.den) > GlobalMax then Err(ValueError) else Ok(f)
  }

  /** Every bounded value has a denominator of magnitude at most Ω, and
      constructing it again gives it back. */
  lemma MakeKeepsAdmissible(f: Dsl)
    ensures Abs(f.den) <= GlobalMax
    ensures Make(f.num, f.den) == Ok(f)
  {
    ReduceLowest(f);
  }

  /** `(self.den * other.den) // math.gcd(self.den, other.den)`. */
  function CommonDen(x: NonZero, y: NonZero): int
  {
    GcdPositive(Abs(x.den), Abs(y.den));
    FloorDiv(x.den * y.den, PyGcd(x.den, y.den))
  }

  /** `unify` as written: the signed common denominator is compared with Ω. */
  function UnifyAsWritten(x: NonZero, y: NonZero): (r: Result<int>)
    ensures r.Err? ==> r.error == ValueError
    ensures r.Ok? ==> r.value <= GlobalMax && Abs(r.value) == Lcm(Abs(x.den), Abs(y.den))
    ensures Lcm(Abs(x.den), Abs(y.den)) <= GlobalMax ==> r.Ok?
    // only a positive common denominator can be rejected
    ensures r.Err? <==> x.den * y.den > 0 && Lcm(Abs(x.den), Abs(y.den)) > GlobalMax
    // the common denominator carries the sign of the product of the two
    ensures r.Ok? ==> r.value != 0 && (r.value > 0 <==> x.den * y.den > 0)
  {
    SignedLcm(x.den, y.den);
    CommonDenSign(x, y);
    var l := CommonDen(x, y);
    if l > GlobalMax then Err(ValueError) else Ok(l)
  }

  /** `(a * b) // gcd(a, b)` is nonzero and has the sign of `a * b`. */
  lemma CommonDenSign(x: NonZero, y: NonZero)
    ensures CommonDen(x, y) != 0
    ensures CommonDen(x, y) > 0 <==> x.den * y.den > 0
  {
    SignedLcm(x.den, y.den);
    ProductOverGcdSign(x.den, y.den, PyGcd(x.den, y.den), CommonDen(x, y));
  }

  lemma ProductOverGcdSign(a: int, b: int, g: int, l: int)
    requires a != 0 && b != 0 && g > 0 && a % g == 0 && b % g == 0 && l == a * (b / g)
    ensures l != 0 && (l > 0 <==> a * b > 0)
  {
    var p, q := a / g, b / g;
    assert a == p * g && b == q * g;
    ScaledProduct(a, b, p, q, g);
    NonZeroProduct(a, b);
    MulAwayFromZero(l, g);
  }

  /** `unify` with the magnitude checked: the common denominator is a
      multiple of both denominators whose magnitude is their lcm, and the
      call fails exactly when that lcm exceeds Ω. */
  function Unify(x: Dsl, y: Dsl): (r: Result<int>)
    ensures r.Err? ==> r.error == ValueError
    ensures r.Err? <==> Lcm(Abs(x.den), Abs(y.den)) > GlobalMax
    ensures r.Ok? ==> Abs(r.value) == Lcm(Abs(x.den), Abs(y.den)) <= GlobalMax
    ensures r.Ok? ==> r.value % x.den == 0 && r.value % y.den == 0
  {
    SignedLcm(x.den, y.den);
    var l := CommonDen(x, y);
    var g := PyGcd(x.den, y.den);
    MultipleOf(x.den, y.den / g);
    MultipleOf(y.den, x.den / g);
    if Abs(l) > GlobalMax then Err(ValueError) else Ok(l)
  }

  lemma MultipleOf(d: int, k: int)
    requires d != 0
    ensures (d * k) % d == 0 && (k * d) % d == 0
  {
    var x := k * d;
    var q, r := x / d, x % d;
    assert x == q * d + r && 0 <= r < Abs(d);
    assert (k - q) * d == r;
    AbsMul(k - q, d);
    if k != q {
      MulAwayFromZero(Abs(k - q), Abs(d));
    }
    assert d * k == k * d;
  }

  /** No positive common multiple of the two denominators is smaller than
      the one `unify` returns. */
  lemma UnifyIsLeast(x: Dsl, y: Dsl, c: int)
    requires Unify(x, y).Ok?
    requires c > 0 && Divides(Abs(x.den), c) && Divides(Abs(y.den), c)
    ensures Abs(Unify(x, y).value) <= c
  {
    LcmIsLeast(Abs(x.den), Abs(y.den), c);
  }

  /** The numerator over the common denominator:
      `self.num * (lcm // self.den) + other.num * (lcm // other.den)`. */
  function Numerator(x: NonZero, y: NonZero, l: int): int
  {
    x.num * FloorDiv(l, x.den) + y.num * FloorDiv(l, y.den)
  }

  /** `__add__` as written: unify, then construct, both with the signed check. */
  function AddAsWritten(x: NonZero, y: NonZero): (r: Result<NonZero>)
    ensures r.Err? ==> r.error == ValueError
    ensures r.Ok? ==> Value(r.value) == Value(x) + Value(y)
    ensures Lcm(Abs(x.den), Abs(y.den)) <= GlobalMax ==> r.Ok?
    // the construction never rejects what `unify` let through
    ensures r.Err? <==> x.den * y.den > 0 && Lcm(Abs(x.den), Abs(y.den)) > GlobalMax
    // a sum of operands with opposite signs keeps a negative denominator
    ensures r.Ok? ==> (r.value.den < 0 <==> x.den * y.den < 0)
  {
    var l :- UnifyAsWritten(x, y);
    SumOverCommonDen(x, y);
    CommonDenSign(x, y);
    var n := Numerator(x, y, l);
    SimplifiedBelow(n, l);
    MakeAsWritten(n, l)
  }

  /** A positive denominator at most Ω stays at most Ω once simplified. */
  lemma SimplifiedBelow(num: int, den: int)
    requires den != 0 && den <= GlobalMax
    ensures den <= GlobalMax * PyGcd(num, den)
  {
    GcdPositive(Abs(num), Abs(den));
    MulMonotone(GlobalMax, 1, PyGcd(num, den));
  }

  /** Over `unify`'s common denominator the numerator gives the exact sum. */
  lemma SumOverCommonDen(x: NonZero, y: NonZero)
    ensures CommonDen(x, y) != 0
    ensures Numerator(x, y, CommonDen(x, y)) as real / CommonDen(x, y) as real == Value(x) + Value(y)
  {
    SignedLcm(x.den, y.den);
    var g := PyGcd(x.den, y.den);
    var p, q := y.den / g, x.den / g;
    var l := CommonDen(x, y);
    assert l == x.den * p == q * y.den;
    assert p != 0 && q != 0;
    FloorDivExact(p, x.den);
    assert x.den * p == p * x.den;
    FloorDivExact(q, y.den);
    CommonDenominatorSum(x.num, x.den, y.num, y.den, p, q, l);
  }

  lemma CommonDenominatorSum(a: int, b: int, c: int, d: int, p: int, q: int, l: int)
    requires b != 0 && d != 0 && p != 0 && q != 0 && l == b * p && l == q * d
    ensures l != 0
    ensures (a * p + c * q) as real / l as real == a as real / b as real + c as real / d as real
  {
    NonZeroProduct(b, p);
    CastProduct(b, p);
    CastProduct(q, d);
    CastProduct(a, p);
    CastProduct(c, q);
    SumOfScaled(a as real, b as real, c as real, d as real, p as real, q as real, l as real);
  }

  lemma NonZeroProduct(x: int, y: int)
    requires x != 0 && y != 0
    ensures x * y != 0
  {
    MulAwayFromZero(y, Abs(x));
    assert x * y == y * Abs(x) || x * y == -(y * Abs(x));
  }

  /** `a/b + c/d` over the common denominator `l = b·p = q·d`. */
  lemma SumOfScaled(A: real, B: real, C: real, D: real, P: real, Q: real, L: real)
    requires B != 0.0 && D != 0.0 && P != 0.0 && Q != 0.0 && L == B * P && L == Q * D
    ensures (A * P + C * Q) / L == A / B + C / D
  {
    assert (A * P) / (B * P) == A / B;
    assert (C * Q) / (Q * D) == C / D;
  }

  /** `__add__` with the magnitude checks: fails exactly when the common
      denominator would exceed Ω, otherwise gives the exact sum. */
  function Add(x: Dsl, y: Dsl): (r: Result<Dsl>)
    ensures r.Err? ==> r.error == ValueError
    ensures r.Err? <==> Lcm(Abs(x.den), Abs(y.den)) > GlobalMax
    ensures r.Ok? ==> Value(r.value) == Value(x) + Value(y)
  {
    var l :- Unify(x, y);
    SumOverCommonDen(x, y);
    Make(Numerator(x, y, l), l)
  }

  /** Addition is commutative, down to the stored parts. */
  lemma AddCommutes(x: Dsl, y: Dsl)
    ensures Add(x, y) == Add(y, x)
  {
    GcdCommutes(Abs(x.den), Abs(y.den));
    assert x.den * y.den == y.den * x.den;
    assert CommonDen(x, y) == CommonDen(y, x);
  }

  /** The signed checks let a sum of two admissible values escape the bound:
      `1/(-199) + 1/200` has common denominator `-39800`, which is not above
      Ω, so the result `1/(-39800)` is built. The bounded `Add` refuses it. */
  lemma NegativeDenominatorEscapes()
    ensures Admissible(Raw(1, -199)) && Admissible(Raw(1, 200))
    ensures AddAsWritten(Raw(1, -199), Raw(1, 200)).Ok?
    ensures Abs(AddAsWritten(Raw(1, -199), Raw(1, 200)).value.den) > GlobalMax
    ensures Add(Raw(1, -199), Raw(1, 200)) == Err(ValueError)
  {
    var x, y := Raw(1, -199), Raw(1, 200);
    assert Gcd(1, 199) == 1 by { assert Gcd(1, 199) == Gcd(199, 1) == Gcd(1, 0); }
    assert Gcd(1, 200) == 1 by { assert Gcd(1, 200) == Gcd(200, 1) == Gcd(1, 0); }
    assert Gcd(199, 200) == 1 by {
      assert Gcd(199, 200) == Gcd(200, 199) == Gcd(199, 1) == Gcd(1, 0);
    }
    assert CommonDen(x, y) == -39800;
    assert UnifyAsWritten(x, y) == Ok(-39800);
    assert FloorDiv(-39800, -199) == 200;
    assert FloorDiv(-39800, 200) == -199;
    assert Numerator(x, y, -39800) == 1;
    assert Gcd(1, 39800) == 1 by { assert Gcd(1, 39800) == Gcd(39800, 1) == Gcd(1, 0); }
    ReduceLowest(Raw(1, -39800));
    assert AddAsWritten(x, y) == Ok(Raw(1, -39800));
    assert Lcm(199, 200) == 39800 by {
      SignedLcm(-199, 200);
    }
  }
}

=== FILE: collapse_walk.dfy ===
/** `grains_random_step_sqrtN` of scripts/grains_approximation.py and its
    root copy `lumps_random_step_sqrtN`: step weights live in `[0, 10]`; an
    improving step raises its weight (at most 10), a failing one lowers it
    (at least 0); when the weights together fall below two, the vantage is
    multiplied by the expansion factor, unclamped, while it is below the
    capacity, and the run stops otherwise. The random draw
    `randint(0, total_p − 1)` is a parameter. */
module CollapseWalk {
  import opened Wrappers
  import opened IntMath
  import opened SqrtSearch

  /** `clampNegative` selects the root copy's `new_k = 0` for a negative
      candidate; the scripts copy uses `grains_try_step`, which keeps `k`. */
  datatype Params = Params(n: int, cap: int, factor: int, allowed: int, clampNegative: bool)

  datatype Walk = Walk(s: Search, pPlus: int, pMinus: int)

  /** The starting weights, the weights after a degenerate reset, and
      `capacity_probs`. */
  const Start: int := 5
  const Reset: int := 1
  const CapacityProbs: int := 10

  /** Weights in `[0, 10]` that together leave room for a draw of either
      direction: the state at the head of every pass. */
  predicate Healthy(w: Walk)
  {
    0 <= w.pPlus <= CapacityProbs && 0 <= w.pMinus <= CapacityProbs && w.pPlus + w.pMinus >= 2
  }

  /** The weights a draw is taken against: 1 and 1 when both are zero. */
  function Weights(w: Walk): (r: (int, int))
    ensures Healthy(w) ==> r == (w.pPlus, w.pMinus)
  {
    if w.pPlus + w.pMinus == 0 then (Reset, Reset) else (w.pPlus, w.pMinus)
  }

  /** The candidate `k` for a step. */
  function Candidate(p: Params, k: int, m: int, step: int): (c: int)
    ensures k + step >= 0 ==> c == k + step
    ensures k + step < 0 ==> c == if p.clampNegative then 0 else k
  {
    if p.clampNegative then (if k + step < 0 then 0 else k + step)
    else TryStep(k, m, step, p.n).0
  }

  /** From `k ≥ 0` the two copies propose the same candidate. */
  lemma CandidatesAgree(p: Params, k: int, m: int, step: int)
    requires k >= 0 && (step == 1 || step == -1)
    ensures Candidate(p, k, m, step) == Candidate(p.(clampNegative := !p.clampNegative), k, m, step)
  {
    ClampIsTryStep(k, m, step, p.n);
  }

  function Min(a: int, b: int): int
  {
    if a < b then a else b
  }

  /** One pass of the loop body for the draw `draw`. */
  function Iterate(p: Params, w: Walk, draw: int): (r: (Walk, Option<Outcome>))
    requires w.s.m > 0 && p.factor >= 1 && w.s.err == GrainsError(w.s.k, w.s.m, p.n)
    requires 0 <= draw < Weights(w).0 + Weights(w).1
    ensures var (t, stop) := r;
      && t.s.iterations == w.s.iterations + 1
      && t.s.err == GrainsError(t.s.k, t.s.m, p.n)
      && w.s.m <= t.s.m
      && stop != Some(Exhausted)
      && (w.s.k >= 0 ==> t.s.k >= 0)
      && (Healthy(w) && stop != Some(AtCapacity) ==> Healthy(t))
    // an improving step is kept and its weight raised
    ensures var (t, stop) := r; var up := draw < Weights(w).0;
      var c := Candidate(p, w.s.k, w.s.m, if up then 1 else -1);
      GrainsError(c, w.s.m, p.n) < w.s.err ==>
        && t.s == Search(c, w.s.m, GrainsError(c, w.s.m, p.n), w.s.expansions, w.s.iterations + 1)
        && (up ==> t.pPlus == Min(Weights(w).0 + 1, CapacityProbs) && t.pMinus == Weights(w).1)
        && (!up ==> t.pMinus == Min(Weights(w).1 + 1, CapacityProbs) && t.pPlus == Weights(w).0)
    // a failing step lowers its weight; a collapse expands or stops
    ensures var (t, stop) := r; var up := draw < Weights(w).0;
      var c := Candidate(p, w.s.k, w.s.m, if up then 1 else -1);
      var (pPlus', pMinus') := (
        if up && Weights(w).0 > 0 then Weights(w).0 - 1 else Weights(w).0,
        if !up && Weights(w).1 > 0 then Weights(w).1 - 1 else Weights(w).1);
      GrainsError(c, w.s.m, p.n) >= w.s.err ==>
        && (pPlus' + pMinus' >= 2 ==> t == Walk(w.s.(iterations := w.s.iterations + 1), pPlus', pMinus'))
        && (pPlus' + pMinus' < 2 && w.s.m >= p.cap <==> stop == Some(AtCapacity))
        && (pPlus' + pMinus' < 2 && w.s.m < p.cap ==>
              && t.s.m == w.s.m * p.factor
              && t.s.k == w.s.k * p.factor
              && t.s.err == p.factor * p.factor * w.s.err
              && t.s.expansions == w.s.expansions + 1
              && t.pPlus == Start && t.pMinus == Start)
    ensures var (t, stop) := r;
      stop == Some(AtCapacity) ==> w.s.m >= p.cap && t.pPlus + t.pMinus < 2 && t.s.m == w.s.m
    ensures var (t, stop) := r;
      stop != Some(AtCapacity) ==> (stop == Some(Exact) <==> t.s.err == 0)
  {
    var (pPlus, pMinus) := Weights(w);
    var s := w.s;
    var it := s.iterations + 1;
    var up := draw < pPlus;
    var c := Candidate(p, s.k, s.m, if up then 1 else -1);
    var e := GrainsError(c, s.m, p.n);
    if e < s.err then
      var t := Walk(Search(c, s.m, e, s.expansions, it),
                    if up then Min(pPlus + 1, CapacityProbs) else pPlus,
                    if up then pMinus else Min(pMinus + 1, CapacityProbs));
      (t, if e == 0 then Some(Exact) else None)
    else
      var pPlus' := if up && pPlus > 0 then pPlus - 1 else pPlus;
      var pMinus' := if !up && pMinus > 0 then pMinus - 1 else pMinus;
      if pPlus' + pMinus' >= 2 then
        (Walk(s.(iterations := it), pPlus', pMinus'), if s.err == 0 then Some(Exact) else None)
      else if s.m < p.cap then
        var newM := s.m * p.factor;
        MulMonotone(s.m, 1, p.factor);
        RescaleByFactor(s.k, s.m, p.factor);
        ExactExpansion(s.k, s.m, p.n, p.factor);
        ProductSign(s.k, p.factor);
        var newK := Rescale(s.k, s.m, newM);
        var err := GrainsError(newK, newM, p.n);
        (Walk(Search(newK, newM, err, s.expansions + 1, it), Start, Start),
         if err == 0 then Some(Exact) else None)
      else
        (Walk(s.(iterations := it), pPlus', pMinus'), Some(AtCapacity))
  }

  /** `grains_random_step_sqrtN` from `(INITIAL_K, INITIAL_M)`; `pick(i, t)`
      is the draw of pass `i` from `[0, t)`. */
  method Approximate(p: Params, k0: int, m0: int, pick: (nat, int) -> int)
    returns (w: Walk, outcome: Outcome)
    requires m0 > 0 && p.factor >= 1
    requires forall i: nat, t: int :: 0 < t ==> 0 <= pick(i, t) < t
    ensures w.s.err == GrainsError(w.s.k, w.s.m, p.n)
    ensures outcome == Exact ==> w.s.err == 0
    ensures outcome == AtCapacity ==> w.s.m >= p.cap && w.pPlus + w.pMinus < 2
    ensures outcome != AtCapacity ==> Healthy(w)
    ensures outcome == Exhausted ==> w.s.iterations >= p.allowed
    ensures w.s.iterations <= if p.allowed > 0 then p.allowed else 0
    ensures m0 <= w.s.m
    ensures k0 >= 0 ==> w.s.k >= 0
  {
    w := Walk(Search(k0, m0, GrainsError(k0, m0, p.n), 0, 0), Start, Start);
    while w.s.iterations < p.allowed
      invariant w.s.err == GrainsError(w.s.k, w.s.m, p.n)
      invariant m0 <= w.s.m
      invariant w.s.iterations <= if p.allowed > 0 then p.allowed else 0
      invariant Healthy(w)
      invariant k0 >= 0 ==> w.s.k >= 0
      decreases p.allowed - w.s.iterations
    {
      var draw := pick(w.s.iterations, w.pPlus + w.pMinus);
      var (t, stop) := Iterate(p, w, draw);
      w := t;
      if stop.Some? {
        return w, stop.value;
      }
    }
    return w, Exhausted;
  }
}

=== FILE: cumulative.dfy ===
/** Sampling by cumulative sums, shared by `sample_from_distribution`
    (scripts/grain_probability.py) and `grains_draw_next_node`
    (scripts/page_rank_fin.py): a draw `d` in `[0, total)` selects the first
    entry whose running total exceeds `d`. */
module Cumulative {
  import opened Wrappers
  import opened IntMath

  /** Running totals `c[0], c[0] + c[1], ...`. */
  function Running(counts: seq<int>): (s: seq<int>)
    ensures |s| == |counts|
    ensures forall i :: 0 <= i < |s| ==> s[i] == SumInts(counts[..i + 1])
  {
    if |counts| == 0 then []
    else
      var init := counts[..|counts| - 1];
      assert counts[..|counts|] == counts;
      PrefixOfPrefix(counts, |counts| - 1);
      Running(init) + [SumInts(counts)]
  }

  lemma PrefixOfPrefix(counts: seq<int>, n: nat)
    requires n <= |counts|
    ensures forall j :: 1 <= j <= n ==> SumInts(counts[..n][..j]) == SumInts(counts[..j])
  {
    forall j | 1 <= j <= n
      ensures SumInts(counts[..n][..j]) == SumInts(counts[..j])
    {
      assert counts[..n][..j] == counts[..j];
    }
  }

  /** Index of the first running total above `d`. */
  function FirstAbove(sums: seq<int>, d: int): (r: Option<nat>)
    ensures r.Some? ==> r.value < |sums| && d < sums[r.value]
    ensures r.Some? ==> forall j :: 0 <= j < r.value ==> sums[j] <= d
    ensures r.None? ==> forall j :: 0 <= j < |sums| ==> sums[j] <= d
  {
    if |sums| == 0 then None
    else if d < sums[0] then Some(0)
    else match FirstAbove(sums[1..], d)
      case None => None
      case Some(k) => Some(k + 1)
  }

  predicate NonNegative(counts: seq<int>)
  {
    forall j :: 0 <= j < |counts| ==> counts[j] >= 0
  }

  /** With non-negative counts the running totals never decrease. */
  lemma {:induction false} RunningMonotone(counts: seq<int>, i: nat, j: nat)
    requires NonNegative(counts) && i <= j <= |counts|
    ensures SumInts(counts[..i]) <= SumInts(counts[..j])
    decreases j - i
  {
    if i < j {
      RunningMonotone(counts, i, j - 1);
      assert counts[..j][..j - 1] == counts[..j - 1];
    }
  }

  /** A draw below the total always lands somewhere. */
  lemma DrawLands(counts: seq<int>, d: int)
    requires 0 <= d < SumInts(counts)
    ensures FirstAbove(Running(counts), d).Some?
  {
    assert counts[..|counts|] == counts;
    assert Running(counts)[|counts| - 1] == SumInts(counts);
  }

  /** Entry `i` is selected exactly by the draws in its slot
      `[c[0] + ... + c[i-1], c[0] + ... + c[i])`, whose width is `c[i]`:
      each entry is drawn with probability `c[i] / total`. */
  lemma SlotOfDraw(counts: seq<int>, d: int, i: nat)
    requires NonNegative(counts) && 0 <= d && i < |counts|
    ensures FirstAbove(Running(counts), d) == Some(i)
        <==> SumInts(counts[..i]) <= d < SumInts(counts[..i + 1])
    ensures SumInts(counts[..i + 1]) - SumInts(counts[..i]) == counts[i]
  {
    var s := Running(counts);
    assert counts[..i + 1][..i] == counts[..i];
    var r := FirstAbove(s, d);
    if r == Some(i) {
      if i > 0 {
        assert s[i - 1] <= d;
      }
    }
    if SumInts(counts[..i]) <= d < SumInts(counts[..i + 1]) {
      assert r.Some?;
      if r.value < i {
        RunningMonotone(counts, r.value + 1, i);
      }
    }
  }

  /** The selected entry has a positive count. */
  lemma DrawnHasGrains(counts: seq<int>, d: int)
    requires NonNegative(counts) && 0 <= d
    requires FirstAbove(Running(counts), d).Some?
    ensures counts[FirstAbove(Running(counts), d).value] > 0
  {
    var i := FirstAbove(Running(counts), d).value;
    SlotOfDraw(counts, d, i);
  }
}

=== FILE: gauss_jordan.dfy ===
/** Gauss-Jordan elimination over exact fractions, as the `gauss_jordan_solve`
    functions of scripts/gauss_jordan.py and gauss_jordan.py (pivot search,
    normalise, eliminate every other row) and of scripts/grains_mixed_demo.py
    and scripts/grains_unified_demo.py (forward elimination below the pivot,
    then back substitution). Every fraction operation those loops use is
    value-exact (see the Grains and RawFractions modules), so a matrix entry
    is modelled by its value. */
module GaussJordan {
  import opened Wrappers

  /** `row[0]*x[0] + ... + row[k-1]*x[k-1]`. */
  function Dot(row: seq<real>, x: seq<real>, k: nat): real
    requires k <= |row| && k <= |x|
  {
    if k == 0 then 0.0 else Dot(row, x, k - 1) + row[k - 1] * x[k - 1]
  }

  predicate IsSquare(A: seq<seq<real>>)
  {
    forall r :: 0 <= r < |A| ==> |A[r]| == |A|
  }

  /** The inputs the functions document: an N x N matrix and an N-vector. */
  predicate Square(A: seq<seq<real>>, b: seq<real>)
  {
    IsSquare(A) && |b| == |A|
  }

  /** `x` solves `A x = b`. */
  predicate Solves(A: seq<seq<real>>, b: seq<real>, x: seq<real>)
    requires Square(A, b)
  {
    |x| == |A| && forall r :: 0 <= r < |A| ==> Dot(A[r], x, |A|) == b[r]
  }

  /** `v` is a nonzero vector that `A` maps to zero. */
  predicate NullVector(A: seq<seq<real>>, v: seq<real>)
    requires IsSquare(A)
  {
    |v| == |A| && (exists c :: 0 <= c < |v| && v[c] != 0.0)
    && forall r :: 0 <= r < |A| ==> Dot(A[r], v, |A|) == 0.0
  }

  ghost predicate Singular(A: seq<seq<real>>)
    requires IsSquare(A)
  {
    exists v :: NullVector(A, v)
  }

  /** An augmented matrix: `n` rows of `n + 1` entries. */
  predicate Wf(M: seq<seq<real>>, n: nat)
  {
    |M| == n && forall r :: 0 <= r < n ==> |M[r]| == n + 1
  }

  /** `x` satisfies every row of `M` with the right-hand side scaled by `t`
      (`t == 1` is the system itself, `t == 0` its homogeneous part). */
  predicate Holds(M: seq<seq<real>>, n: nat, x: seq<real>, t: real)
    requires Wf(M, n) && |x| == n
  {
    forall r :: 0 <= r < n ==> Dot(M[r], x, n) == t * M[r][n]
  }

  /** Two augmented matrices with the same solutions, homogeneous or not. */
  ghost predicate Equivalent(M0: seq<seq<real>>, M: seq<seq<real>>, n: nat)
    requires Wf(M0, n) && Wf(M, n)
  {
    forall x: seq<real>, t: real :: |x| == n ==> (Holds(M0, n, x, t) <==> Holds(M, n, x, t))
  }

  /** `[row[:] + [bval] for row, bval in zip(A, b)]`. */
  function Augment(A: seq<seq<real>>, b: seq<real>): (M: seq<seq<real>>)
    requires Square(A, b)
    ensures Wf(M, |A|)
  {
    seq(|A|, r requires 0 <= r < |A| => A[r] + [b[r]])
  }

  /** `[row[n] for row in aug]`. */
  function LastColumn(M: seq<seq<real>>, n: nat): (x: seq<real>)
    requires Wf(M, n)
    ensures |x| == n
  {
    seq(n, r requires 0 <= r < n => M[r][n])
  }

  /** `for c in range(from, n + 1): row[c] = row[c] / p`. */
  function DivideRow(row: seq<real>, p: real, from: nat): seq<real>
    requires p != 0.0
  {
    seq(|row|, c requires 0 <= c < |row| => if c < from then row[c] else row[c] / p)
  }

  /** `for c in range(from, n + 1): row[c] = row[c] - f * piv[c]`. */
  function SubRow(row: seq<real>, piv: seq<real>, f: real, from: nat): seq<real>
    requires |piv| == |row|
  {
    seq(|row|, c requires 0 <= c < |row| => if c < from then row[c] else row[c] - f * piv[c])
  }

  function SwapRows(M: seq<seq<real>>, i: nat, k: nat): seq<seq<real>>
    requires i < |M| && k < |M|
  {
    M[i := M[k]][k := M[i]]
  }

  /** The pivot search: row `i` itself when its entry is nonzero, otherwise the
      first lower row with a nonzero entry in column `i`, otherwise `i`. */
  function PivotRow(M: seq<seq<real>>, n: nat, i: nat): (k: nat)
    requires Wf(M, n) && i < n
    ensures i <= k < n
    ensures M[i][i] != 0.0 ==> k == i
    ensures k > i ==> M[i][i] == 0.0 && M[k][i] != 0.0
    ensures forall r :: i < r < k ==> M[r][i] == 0.0
    ensures M[k][i] == 0.0 ==> forall r :: i <= r < n ==> M[r][i] == 0.0
  {
    if M[i][i] != 0.0 then i else FirstNonZeroBelow(M, n, i, i + 1)
  }

  function FirstNonZeroBelow(M: seq<seq<real>>, n: nat, i: nat, from: nat): (k: nat)
    requires Wf(M, n) && i < from <= n
    ensures k == i || (from <= k < n && M[k][i] != 0.0)
    ensures forall r :: from <= r < n && (k == i || r < k) ==> M[r][i] == 0.0
    decreases n - from
  {
    if from == n then i
    else if M[from][i] != 0.0 then from
    else FirstNonZeroBelow(M, n, i, from + 1)
  }

  /** Columns `lo .. hi-1` of `M` are unit vectors: column `j` is `e_j`. */
  predicate UnitCols(M: seq<seq<real>>, n: nat, lo: nat, hi: nat)
    requires Wf(M, n)
  {
    forall r, j :: 0 <= r < n && lo <= j < hi && j < n ==> M[r][j] == if r == j then 1.0 else 0.0
  }

  /** Columns `0 .. i-1` are unit vectors on and below the diagonal. */
  predicate UpperUnit(M: seq<seq<real>>, n: nat, i: nat)
    requires Wf(M, n)
  {
    forall r, j :: 0 <= j < i && j <= r < n ==> M[r][j] == if r == j then 1.0 else 0.0
  }

  // ---------------------------------------------------------------------
  // Facts about Dot.

  lemma {:induction false} DotAgree(u: seq<real>, v: seq<real>, x: seq<real>, k: nat)
    requires k <= |u| && k <= |v| && k <= |x|
    requires forall c :: 0 <= c < k ==> u[c] == v[c]
    ensures Dot(u, x, k) == Dot(v, x, k)
  {
    if k > 0 {
      DotAgree(u, v, x, k - 1);
    }
  }

  lemma {:induction false} DotCombination(u: seq<real>, v: seq<real>, w: seq<real>, x: seq<real>, a: real, b: real, k: nat)
    requires k <= |u| && k <= |v| && k <= |w| && k <= |x|
    requires forall c :: 0 <= c < k ==> w[c] == a * u[c] + b * v[c]
    ensures Dot(w, x, k) == a * Dot(u, x, k) + b * Dot(v, x, k)
  {
    if k > 0 {
      DotCombination(u, v, w, x, a, b, k - 1);
      CombineStep(Dot(u, x, k - 1), Dot(v, x, k - 1), Dot(w, x, k - 1), u[k - 1], v[k - 1], w[k - 1], x[k - 1], a, b);
    }
  }

  lemma CombineStep(du: real, dv: real, dw: real, uc: real, vc: real, wc: real, xc: real, a: real, b: real)
    requires dw == a * du + b * dv && wc == a * uc + b * vc
    ensures dw + wc * xc == a * (du + uc * xc) + b * (dv + vc * xc)
  {
    assert wc * xc == a * (uc * xc) + b * (vc * xc);
  }

  lemma {:induction false} DotZero(row: seq<real>, x: seq<real>, k: nat)
    requires k <= |row| && k <= |x|
    requires forall c :: 0 <= c < k ==> row[c] * x[c] == 0.0
    ensures Dot(row, x, k) == 0.0
  {
    if k > 0 {
      DotZero(row, x, k - 1);
    }
  }

  lemma {:induction false} DotOne(row: seq<real>, x: seq<real>, k: nat, p: nat)
    requires k <= |row| && k <= |x| && p < k
    requires forall c :: 0 <= c < k && c != p ==> row[c] * x[c] == 0.0
    ensures Dot(row, x, k) == row[p] * x[p]
  {
    if k - 1 == p {
      DotZero(row, x, k - 1);
    } else {
      DotOne(row, x, k - 1, p);
    }
  }

  lemma {:induction false} DotTwo(row: seq<real>, x: seq<real>, k: nat, p: nat, q: nat)
    requires k <= |row| && k <= |x| && p < q < k
    requires forall c :: 0 <= c < k && c != p && c != q ==> row[c] * x[c] == 0.0
    ensures Dot(row, x, k) == row[p] * x[p] + row[q] * x[q]
  {
    if k - 1 == q {
      DotOne(row, x, k - 1, p);
    } else {
      DotTwo(row, x, k - 1, p, q);
    }
  }

  // ---------------------------------------------------------------------
  // Row operations keep the solution set.

  /** A solution of the augmented matrix solves the system. */
  lemma AugmentSolves(A: seq<seq<real>>, b: seq<real>, x: seq<real>)
    requires Square(A, b) && |x| == |A| && Holds(Augment(A, b), |A|, x, 1.0)
    ensures Solves(A, b, x)
  {
    var n := |A|;
    forall r | 0 <= r < n
      ensures Dot(A[r], x, n) == b[r]
    {
      AugmentRow(A, b, x, r);
      assert Dot(Augment(A, b)[r], x, n) == 1.0 * Augment(A, b)[r][n];
    }
  }

  /** A homogeneous solution of the augmented matrix is one of `A`. */
  lemma AugmentKernel(A: seq<seq<real>>, b: seq<real>, v: seq<real>)
    requires Square(A, b) && |v| == |A| && Holds(Augment(A, b), |A|, v, 0.0)
    ensures forall r :: 0 <= r < |A| ==> Dot(A[r], v, |A|) == 0.0
  {
    var n := |A|;
    forall r | 0 <= r < n
      ensures Dot(A[r], v, n) == 0.0
    {
      AugmentRow(A, b, v, r);
      assert Dot(Augment(A, b)[r], v, n) == 0.0 * Augment(A, b)[r][n];
    }
  }

  lemma AugmentRow(A: seq<seq<real>>, b: seq<real>, x: seq<real>, r: nat)
    requires Square(A, b) && |x| == |A| && r < |A|
    ensures Dot(Augment(A, b)[r], x, |A|) == Dot(A[r], x, |A|)
    ensures Augment(A, b)[r][|A|] == b[r]
  {
    var row := Augment(A, b)[r];
    assert row == A[r] + [b[r]];
    DotAgree(row, A[r], x, |A|);
  }

  /** Replacing row `r` by `a * row r + b * row i` (with `a != 0`) keeps the solutions. */
  lemma RowCombine(M: seq<seq<real>>, n: nat, r: nat, i: nat, a: real, b: real, w: seq<real>)
    requires Wf(M, n) && r < n && i < n && |w| == n + 1
    requires a != 0.0 && (i != r || b == 0.0)
    requires forall c :: 0 <= c <= n ==> w[c] == a * M[r][c] + b * M[i][c]
    ensures Wf(M[r := w], n) && Equivalent(M, M[r := w], n)
  {
    forall x: seq<real>, t: real | |x| == n
      ensures Holds(M, n, x, t) <==> Holds(M[r := w], n, x, t)
    {
      RowCombineAt(M, n, r, i, a, b, w, x, t);
    }
  }

  lemma RowCombineAt(M: seq<seq<real>>, n: nat, r: nat, i: nat, a: real, b: real, w: seq<real>, x: seq<real>, t: real)
    requires Wf(M, n) && r < n && i < n && |w| == n + 1 && |x| == n
    requires a != 0.0 && (i != r || b == 0.0)
    requires forall c :: 0 <= c <= n ==> w[c] == a * M[r][c] + b * M[i][c]
    ensures Wf(M[r := w], n)
    ensures Holds(M, n, x, t) <==> Holds(M[r := w], n, x, t)
  {
    ReplaceRow(M, n, r, w, x, t);
    HoldsSplit(M, n, r, x, t);
    HoldsSplit(M[r := w], n, r, x, t);
    CombinedRowHolds(M[r], M[i], w, x, a, b, n, t);
    CombinedRowBack(M[r], M[i], w, x, a, b, n, t);
    if i != r && OthersHold(M, n, r, x, t) {
      OtherRow(M, n, r, i, x, t);
    }
  }

  /** Row `row` is satisfied with the right-hand side scaled by `t`. */
  predicate RowHolds(row: seq<real>, x: seq<real>, n: nat, t: real)
    requires |row| == n + 1 && |x| == n
  {
    Dot(row, x, n) == t * row[n]
  }

  /** Row `w == a * u + b * v` holds when `u` and `v` do. */
  lemma CombinedRowHolds(u: seq<real>, v: seq<real>, w: seq<real>, x: seq<real>, a: real, b: real, n: nat, t: real)
    requires |u| == n + 1 && |v| == n + 1 && |w| == n + 1 && |x| == n && a != 0.0
    requires forall c :: 0 <= c <= n ==> w[c] == a * u[c] + b * v[c]
    ensures RowHolds(u, x, n, t) && RowHolds(v, x, n, t) ==> RowHolds(w, x, n, t)
  {
    DotCombination(u, v, w, x, a, b, n);
    RowEquation(Dot(u, x, n), Dot(v, x, n), Dot(w, x, n), u[n], v[n], w[n], a, b, t);
  }

  /** Row `u` holds when `w == a * u + b * v` does and `v` holds or does not
      take part. */
  lemma CombinedRowBack(u: seq<real>, v: seq<real>, w: seq<real>, x: seq<real>, a: real, b: real, n: nat, t: real)
    requires |u| == n + 1 && |v| == n + 1 && |w| == n + 1 && |x| == n && a != 0.0
    requires forall c :: 0 <= c <= n ==> w[c] == a * u[c] + b * v[c]
    ensures (RowHolds(v, x, n, t) || b == 0.0) && RowHolds(w, x, n, t) ==> RowHolds(u, x, n, t)
  {
    DotCombination(u, v, w, x, a, b, n);
    RowEquation(Dot(u, x, n), Dot(v, x, n), Dot(w, x, n), u[n], v[n], w[n], a, b, t);
  }

  /** Every row but `r` is satisfied. */
  predicate OthersHold(M: seq<seq<real>>, n: nat, r: nat, x: seq<real>, t: real)
    requires Wf(M, n) && |x| == n
  {
    forall rr :: 0 <= rr < n && rr != r ==> Dot(M[rr], x, n) == t * M[rr][n]
  }

  lemma HoldsSplit(M: seq<seq<real>>, n: nat, r: nat, x: seq<real>, t: real)
    requires Wf(M, n) && r < n && |x| == n
    ensures Holds(M, n, x, t) <==> OthersHold(M, n, r, x, t) && Dot(M[r], x, n) == t * M[r][n]
  {
  }

  lemma OtherRow(M: seq<seq<real>>, n: nat, r: nat, i: nat, x: seq<real>, t: real)
    requires Wf(M, n) && i < n && i != r && |x| == n && OthersHold(M, n, r, x, t)
    ensures Dot(M[i], x, n) == t * M[i][n]
  {
  }

  /** Replacing row `r` leaves the other rows, and whether they hold, alone. */
  lemma ReplaceRow(M: seq<seq<real>>, n: nat, r: nat, w: seq<real>, x: seq<real>, t: real)
    requires Wf(M, n) && r < n && |w| == n + 1 && |x| == n
    ensures Wf(M[r := w], n) && M[r := w][r] == w
    ensures OthersHold(M, n, r, x, t) <==> OthersHold(M[r := w], n, r, x, t)
  {
    var M' := M[r := w];
    assert forall rr :: 0 <= rr < n && rr != r ==> M'[rr] == M[rr];
  }

  /** The scalar content of `RowCombine`: with `dw == a*du + b*dv` and the same
      relation on the right-hand sides, row `w` holds iff row `u` does, given `v` holds. */
  lemma RowEquation(du: real, dv: real, dw: real, u: real, v: real, w: real, a: real, b: real, t: real)
    requires a != 0.0 && dw == a * du + b * dv && w == a * u + b * v
    ensures du == t * u && dv == t * v ==> dw == t * w
    ensures (dv == t * v || b == 0.0) && dw == t * w ==> du == t * u
  {
    if (dv == t * v || b == 0.0) && dw == t * w {
      assert b * dv == b * (t * v);
      assert a * du == a * (t * u);
    }
  }

  lemma SwapEquivalent(M: seq<seq<real>>, n: nat, i: nat, k: nat)
    requires Wf(M, n) && i < n && k < n
    ensures Wf(SwapRows(M, i, k), n) && Equivalent(M, SwapRows(M, i, k), n)
  {
    var M' := SwapRows(M, i, k);
    forall x: seq<real>, t: real | |x| == n
      ensures Holds(M, n, x, t) <==> Holds(M', n, x, t)
    {
      SwapHolds(M, n, i, k, x, t);
      SwapHolds(M', n, i, k, x, t);
      assert SwapRows(M', i, k) == M;
    }
  }

  lemma SwapHolds(M: seq<seq<real>>, n: nat, i: nat, k: nat, x: seq<real>, t: real)
    requires Wf(M, n) && i < n && k < n && |x| == n
    ensures Wf(SwapRows(M, i, k), n)
    ensures Holds(M, n, x, t) ==> Holds(SwapRows(M, i, k), n, x, t)
  {
    var M' := SwapRows(M, i, k);
    forall r | 0 <= r < n
      ensures |M'[r]| == n + 1
    {
      var _ := SwappedRow(M, i, k, r);
    }
    if Holds(M, n, x, t) {
      forall r | 0 <= r < n
        ensures Dot(M'[r], x, n) == t * M'[r][n]
      {
        var s := SwappedRow(M, i, k, r);
        assert Dot(M[s], x, n) == t * M[s][n];
      }
    }
  }

  /** Row `r` after the swap is row `s` before it. */
  lemma SwappedRow(M: seq<seq<real>>, i: nat, k: nat, r: nat) returns (s: nat)
    requires i < |M| && k < |M| && r < |M|
    ensures |SwapRows(M, i, k)| == |M| && s < |M| && SwapRows(M, i, k)[r] == M[s]
  {
    s := if r == k then i else if r == i then k else r;
  }

  lemma EquivalentTrans(M0: seq<seq<real>>, M1: seq<seq<real>>, M2: seq<seq<real>>, n: nat)
    requires Wf(M0, n) && Wf(M1, n) && Wf(M2, n)
    requires Equivalent(M0, M1, n) && Equivalent(M1, M2, n)
    ensures Equivalent(M0, M2, n)
  {
  }

  // ---------------------------------------------------------------------
  // Reading off the answer.

  /** With the left block the identity, the last column solves the system. */
  lemma IdentitySolves(A: seq<seq<real>>, b: seq<real>, M: seq<seq<real>>)
    requires Square(A, b) && Wf(M, |A|) && Equivalent(Augment(A, b), M, |A|)
    requires UnitCols(M, |A|, 0, |A|)
    ensures Solves(A, b, LastColumn(M, |A|))
  {
    var n := |A|;
    var x := LastColumn(M, n);
    forall r | 0 <= r < n
      ensures Dot(M[r], x, n) == 1.0 * M[r][n]
    {
      DotOne(M[r], x, n, r);
    }
    assert Holds(M, n, x, 1.0);
    AugmentSolves(A, b, x);
  }

  /** The converse of `AugmentKernel`. */
  lemma KernelAugment(A: seq<seq<real>>, b: seq<real>, v: seq<real>)
    requires Square(A, b) && |v| == |A|
    requires forall r :: 0 <= r < |A| ==> Dot(A[r], v, |A|) == 0.0
    ensures Holds(Augment(A, b), |A|, v, 0.0)
  {
    var n := |A|;
    forall r | 0 <= r < n
      ensures Dot(Augment(A, b)[r], v, n) == 0.0 * Augment(A, b)[r][n]
    {
      AugmentRow(A, b, v, r);
    }
  }

  /** A system that reduces to the identity has only the zero kernel vector. */
  lemma IdentityNonsingular(A: seq<seq<real>>, b: seq<real>, M: seq<seq<real>>)
    requires Square(A, b) && Wf(M, |A|) && Equivalent(Augment(A, b), M, |A|)
    requires UnitCols(M, |A|, 0, |A|)
    ensures !Singular(A)
  {
    var n := |A|;
    if Singular(A) {
      var v :| NullVector(A, v);
      KernelAugment(A, b, v);
      assert Holds(M, n, v, 0.0);
      forall c | 0 <= c < n
        ensures v[c] == 0.0
      {
        DotOne(M[c], v, n, c);
        assert Dot(M[c], v, n) == 0.0 * M[c][n];
      }
      assert false;
    }
  }

  /** A zero homogeneous solution of `M` is one of `A`. */
  lemma KernelTransfers(A: seq<seq<real>>, b: seq<real>, M: seq<seq<real>>, v: seq<real>)
    requires Square(A, b) && Wf(M, |A|) && Equivalent(Augment(A, b), M, |A|)
    requires |v| == |A| && Holds(M, |A|, v, 0.0)
    requires exists c :: 0 <= c < |v| && v[c] != 0.0
    ensures Singular(A)
  {
    AugmentKernel(A, b, v);
    assert NullVector(A, v);
  }

  /** No pivot in column `i` while columns `0 .. i-1` are unit vectors: the
      vector `e_i - sum_{j<i} M[j][i] e_j` is a nonzero kernel vector. */
  lemma NoPivotSingular(A: seq<seq<real>>, b: seq<real>, M: seq<seq<real>>, i: nat)
    requires Square(A, b) && Wf(M, |A|) && Equivalent(Augment(A, b), M, |A|)
    requires i < |A| && UnitCols(M, |A|, 0, i)
    requires forall r :: i <= r < |A| ==> M[r][i] == 0.0
    ensures Singular(A)
  {
    var n := |A|;
    var v := seq(n, c requires 0 <= c < n => if c == i then 1.0 else if c < i then -M[c][i] else 0.0);
    forall r | 0 <= r < n
      ensures Dot(M[r], v, n) == 0.0 * M[r][n]
    {
      if r < i {
        DotTwo(M[r], v, n, r, i);
      } else {
        DotZero(M[r], v, n);
      }
    }
    assert v[i] != 0.0;
    KernelTransfers(A, b, M, v);
  }

  // ---------------------------------------------------------------------
  // scripts/gauss_jordan.py and gauss_jordan.py: eliminate in every row.

  /** State inside the elimination loop for pivot `i`, rows below `r` done. */
  predicate Eliminating(M: seq<seq<real>>, n: nat, i: nat, r: nat)
    requires Wf(M, n) && i < n
  {
    UnitCols(M, n, 0, i) && M[i][i] == 1.0
    && (forall c :: 0 <= c < i ==> M[i][c] == 0.0)
    && forall rr :: 0 <= rr < r && rr < n && rr != i ==> M[rr][i] == 0.0
  }

  lemma SwapKeepsUnitCols(M: seq<seq<real>>, n: nat, i: nat, k: nat)
    requires Wf(M, n) && i <= k < n && UnitCols(M, n, 0, i)
    ensures Wf(SwapRows(M, i, k), n) && UnitCols(SwapRows(M, i, k), n, 0, i)
  {
  }

  lemma NormalizeFull(M0: seq<seq<real>>, M: seq<seq<real>>, n: nat, i: nat)
    requires Wf(M0, n) && Wf(M, n) && i < n && Equivalent(M0, M, n)
    requires UnitCols(M, n, 0, i) && M[i][i] != 0.0
    ensures Wf(M[i := DivideRow(M[i], M[i][i], 0)], n)
    ensures Equivalent(M0, M[i := DivideRow(M[i], M[i][i], 0)], n)
    ensures Eliminating(M[i := DivideRow(M[i], M[i][i], 0)], n, i, 0)
  {
    var p := M[i][i];
    var w := DivideRow(M[i], p, 0);
    RowCombine(M, n, i, i, 1.0 / p, 0.0, w);
    EquivalentTrans(M0, M, M[i := w], n);
  }

  lemma EliminateStep(M0: seq<seq<real>>, M: seq<seq<real>>, n: nat, i: nat, r: nat)
    requires Wf(M0, n) && Wf(M, n) && i < n && r < n && r != i
    requires Equivalent(M0, M, n) && Eliminating(M, n, i, r)
    ensures Wf(M[r := SubRow(M[r], M[i], M[r][i], i)], n)
    ensures Equivalent(M0, M[r := SubRow(M[r], M[i], M[r][i], i)], n)
    ensures Eliminating(M[r := SubRow(M[r], M[i], M[r][i], i)], n, i, r + 1)
  {
    var f := M[r][i];
    var w := SubRow(M[r], M[i], f, i);
    RowCombine(M, n, r, i, 1.0, -f, w);
    EquivalentTrans(M0, M, M[r := w], n);
  }

  /** `gauss_jordan_solve` of scripts/gauss_jordan.py (and of gauss_jordan.py):
      a pivot that no lower row can replace reaches `grains_div` as a zero
      divisor and raises ZeroDivisionError, which happens exactly on a
      singular matrix; otherwise the last column solves the system. */
  method SolveEliminateAll(A: seq<seq<real>>, b: seq<real>) returns (res: Result<seq<real>>)
    requires Square(A, b)
    ensures res.Ok? ==> Solves(A, b, res.value) && !Singular(A)
    ensures res.Err? ==> res.error == ZeroDivisionError && Singular(A)
  {
    var n := |A|;
    var M := Augment(A, b);
    ghost var M0 := M;
    var i := 0;
    while i < n
      invariant 0 <= i <= n && Wf(M, n)
      invariant Equivalent(M0, M, n) && UnitCols(M, n, 0, i)
    {
      var k := PivotRow(M, n, i);
      SwapKeepsUnitCols(M, n, i, k);
      SwapEquivalent(M, n, i, k);
      EquivalentTrans(M0, M, SwapRows(M, i, k), n);
      M := SwapRows(M, i, k);
      var pivot := M[i][i];
      if pivot == 0.0 {
        NoPivotSingular(A, b, M, i);
        return Err(ZeroDivisionError);
      }
      NormalizeFull(M0, M, n, i);
      M := M[i := DivideRow(M[i], pivot, 0)];
      var r := 0;
      while r < n
        invariant 0 <= r <= n && Wf(M, n)
        invariant Equivalent(M0, M, n) && Eliminating(M, n, i, r)
      {
        if r != i {
          EliminateStep(M0, M, n, i, r);
          M := M[r := SubRow(M[r], M[i], M[r][i], i)];
        }
        r := r + 1;
      }
      i := i + 1;
    }
    IdentitySolves(A, b, M);
    IdentityNonsingular(A, b, M);
    return Ok(LastColumn(M, n));
  }

  // ---------------------------------------------------------------------
  // scripts/grains_mixed_demo.py and scripts/grains_unified_demo.py:
  // eliminate below the pivot, then substitute back.

  /** Forward elimination for pivot `i`: rows `i+1 .. r-1` already cleared. */
  predicate Forward(M: seq<seq<real>>, n: nat, i: nat, r: nat)
    requires Wf(M, n) && i < n
  {
    UpperUnit(M, n, i) && M[i][i] == 1.0
    && forall rr :: i < rr < r && rr < n ==> M[rr][i] == 0.0
  }

  lemma SwapKeepsUpperUnit(M: seq<seq<real>>, n: nat, i: nat, k: nat)
    requires Wf(M, n) && i <= k < n && UpperUnit(M, n, i)
    ensures Wf(SwapRows(M, i, k), n) && UpperUnit(SwapRows(M, i, k), n, i)
  {
  }

  lemma NormalizeForward(M0: seq<seq<real>>, M: seq<seq<real>>, n: nat, i: nat)
    requires Wf(M0, n) && Wf(M, n) && i < n && Equivalent(M0, M, n)
    requires UpperUnit(M, n, i) && M[i][i] != 0.0
    ensures Wf(M[i := DivideRow(M[i], M[i][i], i)], n)
    ensures Equivalent(M0, M[i := DivideRow(M[i], M[i][i], i)], n)
    ensures Forward(M[i := DivideRow(M[i], M[i][i], i)], n, i, i + 1)
  {
    var p := M[i][i];
    var w := DivideRow(M[i], p, i);
    RowCombine(M, n, i, i, 1.0 / p, 0.0, w);
    EquivalentTrans(M0, M, M[i := w], n);
  }

  lemma ForwardStep(M0: seq<seq<real>>, M: seq<seq<real>>, n: nat, i: nat, r: nat)
    requires Wf(M0, n) && Wf(M, n) && i < r < n
    requires Equivalent(M0, M, n) && Forward(M, n, i, r)
    ensures Wf(M[r := SubRow(M[r], M[i], M[r][i], i)], n)
    ensures Equivalent(M0, M[r := SubRow(M[r], M[i], M[r][i], i)], n)
    ensures Forward(M[r := SubRow(M[r], M[i], M[r][i], i)], n, i, r + 1)
  {
    var f := M[r][i];
    var w := SubRow(M[r], M[i], f, i);
    RowCombine(M, n, r, i, 1.0, -f, w);
    EquivalentTrans(M0, M, M[r := w], n);
  }

  /** Back substitution for column `i`: rows `0 .. r-1` already cleared. */
  predicate Backward(M: seq<seq<real>>, n: nat, i: nat, r: nat)
    requires Wf(M, n) && i < n
  {
    UpperUnit(M, n, n) && UnitCols(M, n, i + 1, n)
    && forall rr :: 0 <= rr < r && rr < n ==> M[rr][i] == 0.0
  }

  lemma BackwardStep(M0: seq<seq<real>>, M: seq<seq<real>>, n: nat, i: nat, r: nat)
    requires Wf(M0, n) && Wf(M, n) && r < i < n
    requires Equivalent(M0, M, n) && Backward(M, n, i, r)
    ensures Wf(M[r := SubRow(M[r], M[i], M[r][i], i)], n)
    ensures Equivalent(M0, M[r := SubRow(M[r], M[i], M[r][i], i)], n)
    ensures Backward(M[r := SubRow(M[r], M[i], M[r][i], i)], n, i, r + 1)
  {
    var f := M[r][i];
    var w := SubRow(M[r], M[i], f, i);
    assert forall c :: i < c < n ==> M[i][c] == 0.0;
    RowCombine(M, n, r, i, 1.0, -f, w);
    EquivalentTrans(M0, M, M[r := w], n);
  }

  /** `gauss_jordan_solve` of scripts/grains_mixed_demo.py and
      scripts/grains_unified_demo.py: ValueError exactly when the forward pass
      finds no nonzero pivot, which happens only on a singular matrix;
      otherwise the last column solves the system. */
  method SolveForwardBack(A: seq<seq<real>>, b: seq<real>) returns (res: Result<seq<real>>)
    requires Square(A, b)
    ensures res.Ok? ==> Solves(A, b, res.value) && !Singular(A)
    ensures res.Err? ==> res.error == ValueError && Singular(A)
  {
    var n := |A|;
    var M := Augment(A, b);
    ghost var M0 := M;
    var i := 0;
    while i < n
      invariant 0 <= i <= n && Wf(M, n)
      invariant Equivalent(M0, M, n) && UpperUnit(M, n, i)
    {
      var k := PivotRow(M, n, i);
      SwapKeepsUpperUnit(M, n, i, k);
      SwapEquivalent(M, n, i, k);
      EquivalentTrans(M0, M, SwapRows(M, i, k), n);
      M := SwapRows(M, i, k);
      var pivot := M[i][i];
      if pivot == 0.0 {
        TriangularSingular(A, b, M, i);
        return Err(ValueError);
      }
      NormalizeForward(M0, M, n, i);
      M := M[i := DivideRow(M[i], pivot, i)];
      var r := i + 1;
      while r < n
        invariant i + 1 <= r <= n && Wf(M, n)
        invariant Equivalent(M0, M, n) && Forward(M, n, i, r)
      {
        var factor := M[r][i];
        if factor != 0.0 {
          ForwardStep(M0, M, n, i, r);
          M := M[r := SubRow(M[r], M[i], factor, i)];
        }
        r := r + 1;
      }
      i := i + 1;
    }
    i := n;
    while i > 0
      invariant 0 <= i <= n && Wf(M, n)
      invariant Equivalent(M0, M, n) && UpperUnit(M, n, n) && UnitCols(M, n, i, n)
    {
      i := i - 1;
      var r := 0;
      while r < i
        invariant 0 <= r <= i && Wf(M, n)
        invariant Equivalent(M0, M, n) && Backward(M, n, i, r)
      {
        var factor := M[r][i];
        if factor != 0.0 {
          BackwardStep(M0, M, n, i, r);
          M := M[r := SubRow(M[r], M[i], factor, i)];
        }
        r := r + 1;
      }
    }
    IdentitySolves(A, b, M);
    IdentityNonsingular(A, b, M);
    return Ok(LastColumn(M, n));
  }

  // ---------------------------------------------------------------------
  // A kernel vector of an upper unit triangle with a zero pivot.

  /** `Dot` over a split range: the first `m` terms, then the rest. */
  lemma {:induction false} DotSplit(u: seq<real>, x: seq<real>, m: nat, k: nat)
    requires m <= k <= |u| && k <= |x|
    ensures Dot(u, x, k) == Dot(u, x, m) + Dot(u[m..], x[m..], k - m)
    decreases k
  {
    if k > m {
      DotSplit(u, x, m, k - 1);
      assert u[m..][k - 1 - m] == u[k - 1] && x[m..][k - 1 - m] == x[k - 1];
    }
  }

  /** The entries `v[j..]` of the kernel vector for a missing pivot in column
      `i`: `v[i] = 1`, zero after `i`, and each earlier entry cancels the rest
      of its row. */
  function KernelTail(M: seq<seq<real>>, n: nat, i: nat, j: nat): (t: seq<real>)
    requires Wf(M, n) && j <= i < n
    ensures |t| == n - j
    decreases i - j
  {
    if j == i then [1.0] + seq(n - i - 1, c => 0.0)
    else
      var rest := KernelTail(M, n, i, j + 1);
      [-Dot(M[j][j + 1..], rest, n - j - 1)] + rest
  }

  lemma {:induction false} KernelTailSuffix(M: seq<seq<real>>, n: nat, i: nat, j: nat)
    requires Wf(M, n) && j <= i < n
    ensures forall k :: i - j < k < n - j ==> KernelTail(M, n, i, j)[k] == 0.0
    ensures KernelTail(M, n, i, j)[i - j] == 1.0
    ensures j < i ==> KernelTail(M, n, i, j)[1..] == KernelTail(M, n, i, j + 1)
    decreases i - j
  {
    if j < i {
      KernelTailSuffix(M, n, i, j + 1);
    }
  }

  lemma {:induction false} KernelTailDrop(M: seq<seq<real>>, n: nat, i: nat, j: nat)
    requires Wf(M, n) && j <= i < n
    ensures KernelTail(M, n, i, 0)[j..] == KernelTail(M, n, i, j)
    decreases j
  {
    if j > 0 {
      KernelTailDrop(M, n, i, j - 1);
      KernelTailSuffix(M, n, i, j - 1);
      assert KernelTail(M, n, i, 0)[j..] == KernelTail(M, n, i, 0)[j - 1..][1..];
    }
  }

  /** Row `j < i` of an upper unit triangle annihilates the kernel vector. */
  lemma KernelRowAbove(M: seq<seq<real>>, n: nat, i: nat, j: nat)
    requires Wf(M, n) && i < n && j < i && UpperUnit(M, n, i)
    ensures Dot(M[j], KernelTail(M, n, i, 0), n) == 0.0
  {
    var v := KernelTail(M, n, i, 0);
    var row := M[j];
    DotSplit(row, v, j, n);
    assert forall c :: 0 <= c < j ==> row[c] == 0.0;
    DotZero(row, v, j);
    KernelTailDrop(M, n, i, j);
    KernelTailDrop(M, n, i, j + 1);
    KernelStep(M, n, i, j);
  }

  /** The defining equation of entry `j`: it cancels the rest of row `j`. */
  lemma KernelStep(M: seq<seq<real>>, n: nat, i: nat, j: nat)
    requires Wf(M, n) && i < n && j < i && UpperUnit(M, n, i)
    ensures Dot(M[j][j..], KernelTail(M, n, i, j), n - j) == 0.0
  {
    var row, t := M[j][j..], KernelTail(M, n, i, j);
    var rest := KernelTail(M, n, i, j + 1);
    KernelTailSuffix(M, n, i, j);
    DotSplit(row, t, 1, n - j);
    assert Dot(row, t, 1) == row[0] * t[0];
    assert row[1..] == M[j][j + 1..];
    assert t[1..] == rest;
    assert row[0] == 1.0;
    assert t[0] == -Dot(M[j][j + 1..], rest, n - j - 1);
  }

  /** Row `r >= i` vanishes up to column `i` and the vector vanishes after it. */
  lemma KernelRowBelow(M: seq<seq<real>>, n: nat, i: nat, r: nat)
    requires Wf(M, n) && i <= r < n && UpperUnit(M, n, i)
    requires M[r][i] == 0.0
    ensures Dot(M[r], KernelTail(M, n, i, 0), n) == 0.0
  {
    var v := KernelTail(M, n, i, 0);
    var row := M[r];
    KernelTailSuffix(M, n, i, 0);
    forall c | 0 <= c < n
      ensures row[c] * v[c] == 0.0
    {
      if c < i {
        assert row[c] == 0.0;
      } else if c > i {
        assert v[c] == 0.0;
      }
    }
    DotZero(row, v, n);
  }

  /** The forward pass stopped at column `i` with no pivot: the matrix it
      reached, and so `A`, has a nonzero kernel vector. */
  lemma TriangularSingular(A: seq<seq<real>>, b: seq<real>, M: seq<seq<real>>, i: nat)
    requires Square(A, b) && Wf(M, |A|) && Equivalent(Augment(A, b), M, |A|)
    requires i < |A| && UpperUnit(M, |A|, i)
    requires forall r :: i <= r < |A| ==> M[r][i] == 0.0
    ensures Singular(A)
  {
    var n := |A|;
    var v := KernelTail(M, n, i, 0);
    forall r | 0 <= r < n
      ensures Dot(M[r], v, n) == 0.0 * M[r][n]
    {
      if r < i {
        KernelRowAbove(M, n, i, r);
      } else {
        KernelRowBelow(M, n, i, r);
      }
    }
    KernelTailSuffix(M, n, i, 0);
    assert v[i] != 0.0;
    KernelTransfers(A, b, M, v);
  }
}

=== FILE: grain_store.dfy ===
/** The grain store of scripts/grain_probability.py: integer grain counts
    `k` out of a capacity, kept under keys `(a, e, x)` (observer state,
    environment, pattern). The process-wide dictionary `Mu` is threaded
    through the operations as an explicit map. */
module GrainStore {
  import opened Wrappers
  import opened IntMath
  import opened Cumulative

  datatype Key = Key(a: string, e: string, x: string)

  type Store = map<Key, int>

  /** `Mu.get(key, 0)`: an absent key reads as zero grains. */
  function Get(mu: Store, k: Key): int
  {
    if k in mu then mu[k] else 0
  }

  /** Every stored count lies in `[0, capacity]`. */
  predicate Valid(mu: Store, capacity: int)
  {
    forall k :: k in mu ==> 0 <= mu[k] <= capacity
  }

  /** `set_probability`: a count outside `[0, capacity]` raises ValueError;
      otherwise only the key `(a, e, x)` changes. */
  function SetProbability(mu: Store, a: string, e: string, x: string, k: int, capacity: int): (r: Result<Store>)
    ensures r.Err? <==> k < 0 || k > capacity
    ensures r.Err? ==> r.error == ValueError
    ensures r.Ok? ==> Get(r.value, Key(a, e, x)) == k
    ensures r.Ok? ==> r.value.Keys == mu.Keys + {Key(a, e, x)}
    ensures r.Ok? ==> forall o :: o != Key(a, e, x) ==> Get(r.value, o) == Get(mu, o)
    ensures r.Ok? && Valid(mu, capacity) ==> Valid(r.value, capacity)
  {
    if k < 0 then Err(ValueError)
    else if k > capacity then Err(ValueError)
    else Ok(mu[Key(a, e, x) := k])
  }

  /** `update_probability`: add `delta` to the stored count (absent reads as
      zero) and clamp the result into `[0, capacity]`; only the key
      `(a, e, x)` changes. */
  function UpdateProbability(mu: Store, a: string, e: string, x: string, delta: int, capacity: int): (r: Store)
    ensures var v, s := Get(r, Key(a, e, x)), Get(mu, Key(a, e, x)) + delta;
      && v >= 0
      && (capacity >= 0 ==> v <= capacity)
      && (0 <= s <= capacity ==> v == s)
      && (s < 0 ==> v == 0)
      && (s > capacity >= 0 ==> v == capacity)
    ensures r.Keys == mu.Keys + {Key(a, e, x)}
    ensures forall o :: o != Key(a, e, x) ==> Get(r, o) == Get(mu, o)
  {
    var s := Get(mu, Key(a, e, x)) + delta;
    var low := if s < capacity then s else capacity;
    mu[Key(a, e, x) := if 0 < low then low else 0]
  }

  /** Updating keeps every count of a valid store within capacity, and an
      update by zero changes no count. */
  lemma UpdateKeepsValid(mu: Store, a: string, e: string, x: string, delta: int, capacity: int)
    requires Valid(mu, capacity) && capacity >= 0
    ensures Valid(UpdateProbability(mu, a, e, x, delta, capacity), capacity)
    ensures delta == 0 ==> forall o :: Get(UpdateProbability(mu, a, e, x, 0, capacity), o) == Get(mu, o)
  {
    if Key(a, e, x) in mu {
      assert 0 <= Get(mu, Key(a, e, x)) <= capacity;
    }
  }

  /** The distribution structure built for sampling. */
  datatype Dist = Dist(obs: string, env: string, capacity: int, partialSums: seq<(string, int)>, total: int)

  /** The counts of a `{x: grains_count}` map, in insertion order. */
  function Counts(entries: seq<(string, int)>): (c: seq<int>)
    ensures |c| == |entries| && forall i :: 0 <= i < |c| ==> c[i] == entries[i].1
  {
    seq(|entries|, i requires 0 <= i < |entries| => entries[i].1)
  }

  /** Dictionary keys are distinct. */
  predicate DistinctNames(entries: seq<(string, int)>)
  {
    forall i, j :: 0 <= i < j < |entries| ==> entries[i].0 != entries[j].0
  }

  predicate InRange(entries: seq<(string, int)>, capacity: int)
  {
    forall i :: 0 <= i < |entries| ==> 0 <= entries[i].1 <= capacity
  }

  /** The running totals of `dist` are those of `entries`, in order. */
  predicate BuiltFrom(dist: Dist, entries: seq<(string, int)>)
  {
    && |dist.partialSums| == |entries|
    && (forall i :: 0 <= i < |entries| ==> dist.partialSums[i].0 == entries[i].0)
    && (forall i :: 0 <= i < |entries| ==> dist.partialSums[i].1 == Running(Counts(entries))[i])
    && dist.total == SumInts(Counts(entries))
  }

  /** The first loop of `create_distribution`: store every count through
      `set_probability`, summing them. The first count out of range raises
      ValueError, after the earlier ones were stored. */
  method StoreCounts(mu: Store, a: string, e: string, entries: seq<(string, int)>, capacity: int)
    returns (mu': Store, r: Result<int>)
    requires DistinctNames(entries)
    ensures r.Err? <==> !InRange(entries, capacity)
    ensures r.Err? ==> r.error == ValueError
    ensures forall o: Key :: (o.a != a || o.e != e) ==> Get(mu', o) == Get(mu, o)
    ensures r.Ok? ==> forall i :: 0 <= i < |entries| ==> Get(mu', Key(a, e, entries[i].0)) == entries[i].1
    ensures r.Ok? ==> r.value == SumInts(Counts(entries))
  {
    mu' := mu;
    var total := 0;
    var i := 0;
    while i < |entries|
      invariant 0 <= i <= |entries|
      invariant InRange(entries[..i], capacity)
      invariant total == SumInts(Counts(entries)[..i])
      invariant forall o: Key :: (o.a != a || o.e != e) ==> Get(mu', o) == Get(mu, o)
      invariant forall j :: 0 <= j < i ==> Get(mu', Key(a, e, entries[j].0)) == entries[j].1
    {
      var step := SetProbability(mu', a, e, entries[i].0, entries[i].1, capacity);
      if step.Err? {
        return mu', Err(step.error);
      }
      mu' := step.value;
      assert Counts(entries)[..i + 1] == Counts(entries)[..i] + [entries[i].1];
      SumIntsAppend(Counts(entries)[..i], [entries[i].1]);
      total := total + entries[i].1;
      i := i + 1;
    }
    assert entries[..i] == entries;
    assert Counts(entries)[..i] == Counts(entries);
    return mu', Ok(total);
  }

  /** The second loop of `create_distribution`: each pattern paired with the
      running total up to and including it. */
  method PartialSums(entries: seq<(string, int)>) returns (sums: seq<(string, int)>)
    ensures |sums| == |entries|
    ensures forall j :: 0 <= j < |sums| ==> sums[j] == (entries[j].0, Running(Counts(entries))[j])
  {
    sums := [];
    var running := 0;
    while |sums| < |entries|
      invariant |sums| <= |entries|
      invariant running == SumInts(Counts(entries)[..|sums|])
      invariant forall j :: 0 <= j < |sums| ==> sums[j] == (entries[j].0, Running(Counts(entries))[j])
    {
      var k := |sums|;
      assert Counts(entries)[..k + 1] == Counts(entries)[..k] + [entries[k].1];
      SumIntsAppend(Counts(entries)[..k], [entries[k].1]);
      running := running + entries[k].1;
      sums := sums + [(entries[k].0, running)];
    }
  }

  /** `create_distribution`: the store after writing every count, and the
      running totals, which never decrease and end at the total. */
  method CreateDistribution(mu: Store, a: string, e: string, entries: seq<(string, int)>, capacity: int)
    returns (mu': Store, r: Result<Dist>)
    requires DistinctNames(entries)
    ensures r.Err? <==> !InRange(entries, capacity)
    ensures r.Err? ==> r.error == ValueError
    ensures forall o: Key :: (o.a != a || o.e != e) ==> Get(mu', o) == Get(mu, o)
    ensures r.Ok? ==> forall i :: 0 <= i < |entries| ==> Get(mu', Key(a, e, entries[i].0)) == entries[i].1
    ensures r.Ok? ==> BuiltFrom(r.value, entries) && r.value.obs == a && r.value.env == e
    ensures r.Ok? ==> NonDecreasing(r.value.partialSums)
    ensures r.Ok? && |entries| > 0 ==> r.value.partialSums[|entries| - 1].1 == r.value.total
  {
    var total;
    mu', total := StoreCounts(mu, a, e, entries, capacity);
    if total.Err? {
      return mu', Err(total.error);
    }
    var sums := PartialSums(entries);
    var dist := Dist(a, e, capacity, sums, total.value);
    TotalsOrdered(dist, entries, capacity);
    return mu', Ok(dist);
  }

  predicate NonDecreasing(ps: seq<(string, int)>)
  {
    forall i, j :: 0 <= i <= j < |ps| ==> ps[i].1 <= ps[j].1
  }

  lemma TotalsOrdered(dist: Dist, entries: seq<(string, int)>, capacity: int)
    requires BuiltFrom(dist, entries) && InRange(entries, capacity)
    ensures NonDecreasing(dist.partialSums)
    ensures |entries| > 0 ==> dist.partialSums[|entries| - 1].1 == dist.total
  {
    forall p, q | 0 <= p <= q < |entries|
      ensures dist.partialSums[p].1 <= dist.partialSums[q].1
    {
      RunningMonotone(Counts(entries), p + 1, q + 1);
    }
    if |entries| > 0 {
      assert Counts(entries)[..|entries|] == Counts(entries);
    }
  }

  /** `sample_from_distribution` with the draw `random.randint(0, total - 1)`
      taken as a parameter: `None` when no grains are assigned, otherwise
      the first pattern whose running total exceeds the draw. */
  function Sample(dist: Dist, draw: int): Option<string>
    requires dist.total > 0 ==> 0 <= draw < dist.total
  {
    if dist.total <= 0 then None
    else
      var sums := seq(|dist.partialSums|, i requires 0 <= i < |dist.partialSums| => dist.partialSums[i].1);
      match FirstAbove(sums, draw)
      case None => None
      case Some(i) => Some(dist.partialSums[i].0)
  }

  /** On a distribution built from valid counts, pattern `i` is sampled by
      exactly the draws in its slot, a slot as wide as its count; every
      draw picks some pattern, and that pattern holds grains. */
  lemma SampleSlot(dist: Dist, entries: seq<(string, int)>, draw: int, i: nat)
    requires BuiltFrom(dist, entries) && DistinctNames(entries) && NonNegative(Counts(entries))
    requires 0 <= draw < dist.total && i < |entries|
    ensures Sample(dist, draw) == Some(entries[i].0)
        <==> SumInts(Counts(entries)[..i]) <= draw < SumInts(Counts(entries)[..i + 1])
    ensures Sample(dist, draw).Some?
    ensures SumInts(Counts(entries)[..i + 1]) - SumInts(Counts(entries)[..i]) == entries[i].1
  {
    var sums := seq(|dist.partialSums|, k requires 0 <= k < |dist.partialSums| => dist.partialSums[k].1);
    assert sums == Running(Counts(entries));
    SlotOfDraw(Counts(entries), draw, i);
    DrawLands(Counts(entries), draw);
    var k := FirstAbove(sums, draw).value;
    SlotOfDraw(Counts(entries), draw, k);
    DrawnHasGrains(Counts(entries), draw);
  }
}

=== FILE: grains.dfy ===
/** The self-reducing rationals of the demo scripts: `Grain` in
    scripts/grains_mixed_demo.py, scripts/grains_unified_demo.py and
    scripts/PDE_1.py, and `FiniteFraction` in scripts/grains_arithmetic.py.
    All four constructors share one normalisation: reject a zero
    denominator, move the sign to the numerator, divide both parts by their
    gcd. */
module Grains {
  import opened Wrappers
  import opened IntMath
  import opened Quotients

  /** Numerator and denominator as stored by the constructor. */
  datatype Parts = Parts(n: int, d: int)

  /** What the constructor guarantees: a positive denominator, coprime parts. */
  predicate Reduced(p: Parts)
  {
    p.d > 0 && Gcd(Abs(p.n), p.d) == 1
  }

  /** Every object of the classes is constructed, hence reduced. */
  type Grain = p: Parts | Reduced(p) witness Parts(0, 1)

  /** The rational number a grain stands for. */
  function Value(g: Parts): real
    requires g.d != 0
  {
    g.n as real / g.d as real
  }

  /** `Grain(numerator, denominator)`. */
  function Make(num: int, den: int): (r: Result<Grain>)
    ensures r.Err? <==> den == 0
    ensures r.Err? ==> r.error == ValueError
    ensures r.Ok? ==> Value(r.value) == num as real / den as real
  {
    if den == 0 then Err(ValueError)
    else
      var sign := if num * den < 0 then -1 else 1;
      var a, b := Abs(num), Abs(den);
      var g := Gcd(a, b);
      ReducedCoprime(a, b);
      GcdDivides(a, b);
      var p := Parts(sign * (a / g), b / g);
      assert Abs(p.n) == a / g;
      MakeValue(num, den, sign, g);
      Ok(p)
  }

  lemma MakeValue(num: int, den: int, sign: int, g: int)
    requires den != 0 && g > 0 && Abs(num) % g == 0 && Abs(den) % g == 0
    requires sign == if num * den < 0 then -1 else 1
    ensures (sign * (Abs(num) / g)) as real / (Abs(den) / g) as real == num as real / den as real
  {
    QuotientValue(Abs(num), Abs(den), g);
    var a, b := Abs(num) as real, Abs(den) as real;
    var q := (Abs(num) / g) as real / (Abs(den) / g) as real;
    assert q == a / b;
    ProductSign(num, den);
    if num < 0 && den < 0 {
      assert a / b == (-num as real) / (-den as real);
    }
  }

  lemma ProductSign(x: int, y: int)
    ensures x * y < 0 <==> (x < 0 && y > 0) || (x > 0 && y < 0)
  {
    if x > 0 && y > 0 {
      MulAwayFromZero(x, y);
    } else if x < 0 && y < 0 {
      MulAwayFromZero(-x, -y);
      assert x * y == (-x) * (-y);
    } else if x < 0 && y > 0 {
      MulAwayFromZero(x, y);
    } else if x > 0 && y < 0 {
      MulAwayFromZero(y, x);
    }
  }

  /** A reduced pair is its own normal form: constructing it again changes nothing. */
  lemma MakeReduced(g: Grain)
    ensures Make(g.n, g.d) == Ok(g)
  {
    ProductSign(g.n, g.d);
    assert Gcd(Abs(g.n), g.d) == 1;
    DivByOne(Abs(g.n));
    DivByOne(g.d);
  }

  lemma DivByOne(x: int)
    ensures x / 1 == x
  {
  }

  /** The integer `k` as a grain, `Grain(k)`. */
  function FromInt(k: int): (g: Grain)
    ensures Value(g) == k as real
  {
    Make(k, 1).value
  }

  /** Two grains with the same value have the same parts. */
  lemma ValueDeterminesParts(x: Grain, y: Grain)
    requires Value(x) == Value(y)
    ensures x == y
  {
    CrossMultiply(x, y);
    AbsTimesPositive(x.n, y.d);
    AbsTimesPositive(y.n, x.d);
    CoprimeFractionUnique(Abs(x.n), x.d, Abs(y.n), y.d);
  }

  /** Multiplying by a positive factor keeps the sign and scales the magnitude. */
  lemma AbsTimesPositive(a: int, b: int)
    requires b > 0
    ensures Abs(a * b) == Abs(a) * b
    ensures a * b < 0 <==> a < 0
  {
    if a < 0 {
      MulAwayFromZero(a, b);
      assert Abs(a * b) == -(a * b) == (-a) * b;
    } else {
      assert a * b >= 0;
    }
  }

  /** Cross-multiplication compares values: `a/b` against `c/d` with positive `b`, `d`. */
  lemma CrossMultiply(x: Grain, y: Grain)
    ensures Value(x) == Value(y) <==> x.n * y.d == y.n * x.d
    ensures Value(x) < Value(y) <==> x.n * y.d < y.n * x.d
  {
    var a, b, c, d := x.n as real, x.d as real, y.n as real, y.d as real;
    assert (x.n * y.d) as real == a * d && (y.n * x.d) as real == c * b;
    assert b * d > 0.0;
    DifferenceOfQuotients(a, b, c, d);
    SignOfQuotient(a * d - c * b, b * d);
  }

  /** `__add__`: cross-multiplied sum, renormalised. */
  function Add(x: Grain, y: Grain): (r: Grain)
    ensures Value(r) == Value(x) + Value(y)
  {
    var r := Make(x.n * y.d + y.n * x.d, x.d * y.d).value;
    SumValue(x, y);
    r
  }

  lemma SumValue(x: Grain, y: Grain)
    ensures (x.n * y.d + y.n * x.d) as real / (x.d * y.d) as real == Value(x) + Value(y)
  {
    var a, b, c, d := x.n as real, x.d as real, y.n as real, y.d as real;
    assert (x.n * y.d + y.n * x.d) as real == a * d + c * b;
    assert (x.d * y.d) as real == b * d;
  }

  /** `-other` as the mixed and unified scripts build it: `Grain(-other.n, other.d)`. */
  function Negate(y: Grain): (r: Grain)
    ensures Value(r) == -Value(y)
  {
    NegatedQuotient(y.n, y.d);
    Make(-y.n, y.d).value
  }

  lemma NegatedQuotient(n: int, d: int)
    requires d != 0
    ensures (-n) as real / d as real == -(n as real / d as real)
  {
  }

  /** `__sub__` of the `Grain` classes: add the negation. */
  function Sub(x: Grain, y: Grain): (r: Grain)
    ensures Value(r) == Value(x) - Value(y)
  {
    Add(x, Negate(y))
  }

  /** `FiniteFraction.__sub__` subtracts the cross products directly; the
      result is the same object as adding the negation. */
  function SubDirect(x: Grain, y: Grain): (r: Grain)
    ensures Value(r) == Value(x) - Value(y)
  {
    var r := Make(x.n * y.d - y.n * x.d, x.d * y.d).value;
    assert x.n * y.d - y.n * x.d == x.n * y.d + (-y.n) * x.d;
    SumValue(x, Negate(y));
    NegateParts(y);
    r
  }

  /** Negating a reduced grain only flips the numerator's sign. */
  lemma NegateParts(y: Grain)
    ensures Negate(y) == Parts(-y.n, y.d)
  {
    var p := Parts(-y.n, y.d);
    assert Abs(-y.n) == Abs(y.n);
    assert Reduced(p);
    ValueDeterminesParts(Negate(y), p);
  }

  lemma SubAgrees(x: Grain, y: Grain)
    ensures SubDirect(x, y) == Sub(x, y)
  {
    ValueDeterminesParts(SubDirect(x, y), Sub(x, y));
  }

  /** `__mul__`. */
  function Mul(x: Grain, y: Grain): (r: Grain)
    ensures Value(r) == Value(x) * Value(y)
  {
    assert x.d * y.d > 0 by { MulAwayFromZero(x.d, y.d); }
    var r := Make(x.n * y.n, x.d * y.d).value;
    assert Value(r) == Value(x) * Value(y) by {
      ProductValue(x, y);
    }
    r
  }

  lemma ProductValue(x: Grain, y: Grain)
    ensures (x.n * y.n) as real / (x.d * y.d) as real == Value(x) * Value(y)
  {
    var a, b, c, d := x.n as real, x.d as real, y.n as real, y.d as real;
    assert (x.n * y.n) as real == a * c;
    assert (x.d * y.d) as real == b * d;
    ProductOfQuotients(a, b, c, d);
  }

  /** `__truediv__`: ZeroDivisionError when the divisor's numerator is zero. */
  function Div(x: Grain, y: Grain): (r: Result<Grain>)
    ensures r.Err? <==> Value(y) == 0.0
    ensures r.Err? ==> r.error == ZeroDivisionError
    ensures r.Ok? ==> Value(y) != 0.0 && Value(r.value) == Value(x) / Value(y)
  {
    if y.n == 0 then Err(ZeroDivisionError)
    else
      assert Value(y) != 0.0;
      var num, den := x.n * y.d, x.d * y.n;
      assert den != 0 by { MulAwayFromZero(y.n, x.d); MulAwayFromZero(-y.n, x.d); }
      QuotientOfQuotients(x.n, x.d, y.n, y.d);
      Make(num, den)
  }

  lemma QuotientOfQuotients(xn: int, xd: int, yn: int, yd: int)
    requires xd != 0 && yn != 0 && yd != 0
    ensures (xn * yd) as real / (xd * yn) as real == (xn as real / xd as real) / (yn as real / yd as real)
  {
    var a, b, c, d := xn as real, xd as real, yn as real, yd as real;
    assert (xn * yd) as real == a * d;
    assert (xd * yn) as real == b * c;
    DivideQuotients(a, b, c, d);
  }

  /** `__eq__` of scripts/grains_mixed_demo.py: cross-multiplied equality. */
  predicate CrossEq(x: Grain, y: Grain)
  {
    x.n * y.d == y.n * x.d
  }

  /** `__lt__` of every Grain class. */
  predicate Less(x: Grain, y: Grain)
  {
    x.n * y.d < y.n * x.d
  }

  /** `__le__` of every Grain class. */
  predicate LessEq(x: Grain, y: Grain)
  {
    x.n * y.d <= y.n * x.d
  }

  /** The mixed demo's comparisons all agree with the order of the values:
      `==`, `<`, `<=` by cross-multiplication, `!=`, `>`, `>=` by negation. */
  lemma ComparisonsAgree(x: Grain, y: Grain)
    ensures CrossEq(x, y) <==> Value(x) == Value(y)
    ensures !CrossEq(x, y) <==> Value(x) != Value(y)
    ensures Less(x, y) <==> Value(x) < Value(y)
    ensures LessEq(x, y) <==> Value(x) <= Value(y)
    ensures !LessEq(x, y) <==> Value(x) > Value(y)
    ensures !Less(x, y) <==> Value(x) >= Value(y)
  {
    CrossMultiply(x, y);
  }

  /** `__eq__` of the unified and PDE scripts compares the stored parts; on
      reduced grains that is exactly equality of values. */
  lemma StructuralEqualityIsValueEquality(x: Grain, y: Grain)
    ensures x == y <==> Value(x) == Value(y)
  {
    if Value(x) == Value(y) {
      ValueDeterminesParts(x, y);
    }
  }

  /** `finite_polygon_perimeter`: `n_sides` copies of the side. */
  function PolygonPerimeter(nSides: int, side: Grain): (p: Grain)
    ensures Value(p) == nSides as real * Value(side)
  {
    PerimeterValue(nSides, side);
    Mul(FromInt(nSides), side)
  }

  lemma PerimeterValue(nSides: int, side: Grain)
    ensures Value(Mul(FromInt(nSides), side)) == nSides as real * Value(side)
  {
    ScaledBy(FromInt(nSides), nSides as real, side);
  }

  lemma ScaledBy(c: Grain, k: real, x: Grain)
    requires Value(c) == k
    ensures Value(Mul(c, x)) == k * Value(x)
  {
    assert Value(Mul(c, x)) == Value(c) * Value(x);
  }

  /** `finite_approx_circle_perimeter`: side `(2*radius)/n`, times `n`. */
  function CirclePerimeter(radius: Grain, nSides: int): (r: Result<Grain>)
    ensures r.Err? <==> nSides == 0
    ensures r.Err? ==> r.error == ZeroDivisionError
    ensures r.Ok? ==> Value(r.value) == 2.0 * Value(radius)
  {
    var side := Div(Mul(FromInt(2), radius), FromInt(nSides));
    if side.Err? then Err(ZeroDivisionError)
    else
      CircleSide(radius, nSides);
      PolygonOfSide(nSides, side.value, 2.0 * Value(radius));
      Ok(PolygonPerimeter(nSides, side.value))
  }

  /** The side `(2 * radius) / n` is the diameter's `n`-th part. */
  lemma CircleSide(radius: Grain, nSides: int)
    requires nSides != 0
    ensures var side := Div(Mul(FromInt(2), radius), FromInt(nSides));
      side.Ok? && Value(side.value) == 2.0 * Value(radius) / nSides as real
  {
    var two, count := FromInt(2), FromInt(nSides);
    var diameter := Mul(two, radius);
    assert Value(diameter) == 2.0 * Value(radius) by {
      assert Value(diameter) == Value(two) * Value(radius);
    }
  }

  /** `n` sides of `d / n` make `d`. */
  lemma PolygonOfSide(nSides: int, side: Grain, d: real)
    requires nSides != 0 && Value(side) == d / nSides as real
    ensures Value(PolygonPerimeter(nSides, side)) == d
  {
  }
}

=== FILE: hill_climb.dfy ===
/** The deterministic square-root searchers `approx_sqrtN_grains`
    (scripts/grain_agg_sqrtn.py and its root copy) and `approx_sqrt2_lumps`
    (scripts/grain_agg.py, scripts/grain_agg-kopia.py, fixed to N = 2):
    at vantage `M`, move `k` by one lump towards the smaller error; when
    neither neighbour improves, expand the vantage by a factor, clamped at
    the capacity, and rescale `k` to the nearest lump. */
module HillClimb {
  import opened Wrappers
  import opened IntMath
  import opened SqrtSearch

  /** The run's parameters. `guardMinus` is the extra `new_k_minus >= 0`
      test that the N = 2 copies put on the downward step. */
  datatype Params = Params(n: int, cap: int, factor: int, allowed: int, guardMinus: bool)

  /** Neither neighbour that `try_step` would move to is strictly better. */
  predicate LocalMinimum(k: int, m: int, n: int)
  {
    && (k + 1 >= 0 ==> GrainsError(k + 1, m, n) >= GrainsError(k, m, n))
    && (k - 1 >= 0 ==> GrainsError(k - 1, m, n) >= GrainsError(k, m, n))
  }

  /** The `best_k, best_err` of one iteration: the upward step if it is
      strictly better than staying, then the downward step if it is
      strictly better still. */
  function BestStep(k: int, m: int, n: int, guardMinus: bool): (r: (int, nat))
    ensures r.1 == GrainsError(r.0, m, n) && r.1 <= GrainsError(k, m, n)
    ensures r.0 == k || r.0 == k + 1 || r.0 == k - 1
    ensures r.0 != k <==> r.1 < GrainsError(k, m, n)
    ensures r.0 != k <==> !LocalMinimum(k, m, n)
    ensures k + 1 >= 0 ==> r.1 <= GrainsError(k + 1, m, n)
    ensures k - 1 >= 0 ==> r.1 <= GrainsError(k - 1, m, n)
    ensures r.0 >= 0 || r.0 == k
  {
    var (kPlus, errPlus) := TryStep(k, m, 1, n);
    var (kMinus, errMinus) := TryStep(k, m, -1, n);
    var err := GrainsError(k, m, n);
    var (bestK, bestErr) := if errPlus < err then (kPlus, errPlus) else (k, err);
    if errMinus < bestErr && (!guardMinus || kMinus >= 0) then (kMinus, errMinus)
    else (bestK, bestErr)
  }

  /** The `new_k_minus >= 0` guard never changes the choice: a refused
      downward step reports the current error, which never beats the best. */
  lemma MinusGuardRedundant(k: int, m: int, n: int)
    ensures BestStep(k, m, n, true) == BestStep(k, m, n, false)
  {
  }

  /** `M * EXPANSION_FACTOR` capped at `MAX_CAPACITY`, for `M` below it, is
      a larger vantage no greater than the capacity. */
  lemma ExpansionGrows(m: int, factor: int, cap: int)
    requires 0 < m < cap && factor >= 1
    ensures m <= ClampedCapacity(m, factor, cap) <= cap
    ensures factor >= 2 ==> m < ClampedCapacity(m, factor, cap)
  {
    MulMonotone(m, 1, factor);
    if factor >= 2 {
      MulMonotone(m, 2, factor);
    }
  }

  /** One pass of the loop body: the new state and, when the loop returns,
      how it stops. */
  function Iterate(p: Params, s: Search): (r: (Search, Option<Outcome>))
    requires s.m > 0 && p.factor >= 1 && s.err == GrainsError(s.k, s.m, p.n)
    ensures var (t, stop) := r;
      && t.iterations == s.iterations + 1
      && t.err == GrainsError(t.k, t.m, p.n)
      && s.m <= t.m
      && (t.m == s.m || t.m <= p.cap)
      && stop != Some(Exhausted)
      && (s.k >= 0 ==> t.k >= 0)
    // a step is taken exactly when one neighbour is strictly better
    ensures var (t, stop) := r;
      !LocalMinimum(s.k, s.m, p.n) <==>
        && t.m == s.m && t.expansions == s.expansions && t.err < s.err
        && (t.k == s.k + 1 || t.k == s.k - 1)
    // otherwise the run stops at capacity, or expands
    ensures var (t, stop) := r;
      stop == Some(AtCapacity) <==> LocalMinimum(s.k, s.m, p.n) && s.m >= p.cap
    ensures var (t, stop) := r;
      stop == Some(AtCapacity) ==> t == s.(iterations := s.iterations + 1)
    ensures var (t, stop) := r;
      LocalMinimum(s.k, s.m, p.n) && s.m < p.cap ==>
        && stop.None? && t.expansions == s.expansions + 1
        && t.m == ClampedCapacity(s.m, p.factor, p.cap)
        && t.k == Rescale(s.k, s.m, t.m)
    // after a step, the run returns exactly when the error reaches zero
    ensures var (t, stop) := r;
      !LocalMinimum(s.k, s.m, p.n) ==> (stop == Some(Exact) <==> t.err == 0)
    ensures var (t, stop) := r;
      stop.None? && p.factor >= 2 ==> t.err < s.err || t.m > s.m
  {
    var it := s.iterations + 1;
    var (bestK, bestErr) := BestStep(s.k, s.m, p.n, p.guardMinus);
    if bestErr >= s.err then
      if s.m >= p.cap then (s.(iterations := it), Some(AtCapacity))
      else
        var newM := ClampedCapacity(s.m, p.factor, p.cap);
        ExpansionGrows(s.m, p.factor, p.cap);
        var newK := Rescale(s.k, s.m, newM);
        (Search(newK, newM, GrainsError(newK, newM, p.n), s.expansions + 1, it), None)
    else
      var t := Search(bestK, s.m, bestErr, s.expansions, it);
      if bestErr == 0 then (t, Some(Exact)) else (t, None)
  }

  /** `approx_sqrtN_grains` from `(INITIAL_K, INITIAL_M)`. */
  method Approximate(p: Params, k0: int, m0: int) returns (s: Search, outcome: Outcome)
    requires m0 > 0 && p.factor >= 1
    ensures s.err == GrainsError(s.k, s.m, p.n)
    ensures outcome == Exact ==> s.err == 0
    ensures outcome == AtCapacity ==> s.m >= p.cap && LocalMinimum(s.k, s.m, p.n)
    ensures outcome == Exhausted ==> s.iterations >= p.allowed
    ensures s.iterations <= if p.allowed > 0 then p.allowed else 0
    ensures m0 <= s.m && (s.m == m0 || s.m <= p.cap)
    ensures s.expansions <= s.iterations
    ensures s.expansions == 0 ==> s.m == m0 && s.err <= GrainsError(k0, m0, p.n)
    ensures k0 >= 0 ==> s.k >= 0
  {
    s := Search(k0, m0, GrainsError(k0, m0, p.n), 0, 0);
    while s.iterations < p.allowed
      invariant s.err == GrainsError(s.k, s.m, p.n)
      invariant m0 <= s.m && (s.m == m0 || s.m <= p.cap)
      invariant s.iterations <= if p.allowed > 0 then p.allowed else 0
      invariant s.expansions <= s.iterations
      invariant s.expansions == 0 ==> s.m == m0 && s.err <= GrainsError(k0, m0, p.n)
      invariant k0 >= 0 ==> s.k >= 0
      decreases p.allowed - s.iterations
    {
      var (t, stop) := Iterate(p, s);
      s := t;
      if stop.Some? {
        return s, stop.value;
      }
    }
    return s, Exhausted;
  }

  /** `approx_sqrt2_lumps`: the same search for N = 2, with the guard. */
  method ApproximateSqrt2(k0: int, m0: int, cap: int, factor: int, allowed: int)
    returns (s: Search, outcome: Outcome)
    requires m0 > 0 && factor >= 1
    ensures s.err == Abs(s.k * s.k - 2 * (s.m * s.m))
    ensures outcome == Exact ==> s.k * s.k == 2 * (s.m * s.m)
    ensures outcome == AtCapacity ==> s.m >= cap && LocalMinimum(s.k, s.m, 2)
    ensures m0 <= s.m && (s.m == m0 || s.m <= cap)
  {
    s, outcome := Approximate(Params(2, cap, factor, allowed, true), k0, m0);
  }
}

=== FILE: int_math.dfy ===
/** Integer facts shared by the rational types: Euclid's gcd, divisibility,
    Bezout coefficients, Python's floor division and the real ceiling. */
module IntMath {

  function Abs(x: int): nat
  {
    if x < 0 then -x else x
  }

  /** `d` is a positive divisor of `x`. */
  predicate Divides(d: int, x: int)
  {
    d > 0 && x % d == 0
  }

  /** Euclid's algorithm, written as the recursive `gcd(a, b)` helper of the scripts. */
  function Gcd(a: nat, b: nat): nat
    decreases b
  {
    if b == 0 then a else Gcd(b, a % b)
  }

  /** Python's `math.gcd`, which works on absolute values. */
  function PyGcd(a: int, b: int): nat
  {
    Gcd(Abs(a), Abs(b))
  }

  /** Python's `a // b`: the quotient rounded towards minus infinity. */
  function FloorDiv(a: int, b: int): (q: int)
    requires b != 0
    ensures q as real <= a as real / b as real < q as real + 1.0
  {
    if b > 0 then
      DivBounds(a, b);
      a / b
    else
      DivBounds(-a, -b);
      assert (-a) as real / (-b) as real == a as real / b as real;
      (-a) / (-b)
  }

  /** The least integer not below `r` (how the quadtree rounds `1/prob` up). */
  function Ceil(r: real): (c: int)
    ensures r <= c as real < r + 1.0
  {
    if r.Floor as real == r then r.Floor else r.Floor + 1
  }

  lemma DivBounds(a: int, b: int)
    requires b > 0
    ensures (a / b) as real <= a as real / b as real < (a / b) as real + 1.0
  {
    var q, r := a / b, a % b;
    assert a == q * b + r;
    assert a as real == q as real * b as real + r as real;
    assert a as real / b as real == q as real + r as real / b as real;
  }

  /** A nonzero multiple of a positive `d` is at least `d` away from zero. */
  lemma MulAwayFromZero(x: int, d: int)
    requires d > 0
    ensures x >= 1 ==> x * d >= d
    ensures x <= -1 ==> x * d <= -d
  {
  }

  /** Division of a multiple is exact. */
  lemma MultipleDiv(k: int, d: int)
    requires d > 0
    ensures (k * d) / d == k && (k * d) % d == 0
  {
    var q, r := (k * d) / d, (k * d) % d;
    assert k * d == q * d + r;
    assert (k - q) * d == r;
    MulAwayFromZero(k - q, d);
  }

  lemma DividesSelf(d: int)
    requires d > 0
    ensures Divides(d, d) && Divides(d, 0)
  {
    MultipleDiv(1, d);
    MultipleDiv(0, d);
  }

  /** A positive divisor `d` of `x` gives the exact quotient `x / d`. */
  lemma DividesQuotient(d: int, x: int)
    requires Divides(d, x)
    ensures x == (x / d) * d
  {
  }

  lemma DividesCombination(d: int, x: int, y: int, u: int, v: int)
    requires Divides(d, x) && Divides(d, y)
    ensures Divides(d, u * x + v * y)
  {
    var p, q := x / d, y / d;
    assert x == p * d && y == q * d;
    calc {
      u * x + v * y;
      u * (p * d) + v * (q * d);
      (u * p + v * q) * d;
    }
    MultipleDiv(u * p + v * q, d);
  }

  lemma DividesMultiple(d: int, x: int, k: int)
    requires Divides(d, x)
    ensures Divides(d, k * x)
  {
    DividesSelf(d);
    DividesCombination(d, x, 0, k, 0);
  }

  /** A positive multiple of `d` is at least `d`. */
  lemma DivisorBound(d: int, x: int)
    requires Divides(d, x) && x > 0
    ensures d <= x
  {
    var q := x / d;
    assert x == q * d;
    MulAwayFromZero(q, d);
  }

  lemma {:induction false} GcdPositive(a: nat, b: nat)
    requires a > 0 || b > 0
    ensures Gcd(a, b) > 0
    decreases b
  {
    if b != 0 {
      GcdPositive(b, a % b);
    }
  }

  lemma {:induction false} GcdDivides(a: nat, b: nat)
    requires a > 0 || b > 0
    ensures Divides(Gcd(a, b), a) && Divides(Gcd(a, b), b)
    decreases b
  {
    if b == 0 {
      DividesSelf(a);
    } else {
      GcdDivides(b, a % b);
      var g := Gcd(a, b);
      assert a == (a / b) * b + 1 * (a % b);
      DividesCombination(g, b, a % b, a / b, 1);
    }
  }

  /** Coefficients `(x, y)` with `x*a + y*b == Gcd(a, b)`, by the extended Euclidean algorithm. */
  function Bezout(a: nat, b: nat): (xy: (int, int))
    ensures xy.0 * a + xy.1 * b == Gcd(a, b)
    decreases b
  {
    if b == 0 then (1, 0)
    else
      var (x, y) := Bezout(b, a % b);
      var q := a / b;
      assert a % b == a - q * b;
      assert x * b + y * (a - q * b) == y * a + (x - q * y) * b;
      (y, x - q * y)
  }

  /** Every common divisor divides the gcd: the gcd is the greatest common divisor. */
  lemma {:induction false} CommonDivisorDividesGcd(d: int, a: nat, b: nat)
    requires Divides(d, a) && Divides(d, b)
    ensures Divides(d, Gcd(a, b))
  {
    var (x, y) := Bezout(a, b);
    DividesCombination(d, a, b, x, y);
  }

  lemma GcdIsGreatest(d: int, a: nat, b: nat)
    requires Divides(d, a) && Divides(d, b) && (a > 0 || b > 0)
    ensures d <= Gcd(a, b)
  {
    CommonDivisorDividesGcd(d, a, b);
    GcdPositive(a, b);
    DivisorBound(d, Gcd(a, b));
  }

  /** Two gcds of the same pair, in either order, agree. */
  lemma {:induction false} GcdCommutes(a: nat, b: nat)
    ensures Gcd(a, b) == Gcd(b, a)
  {
    if a == 0 && b == 0 {
    } else {
      GcdDivides(a, b);
      GcdDivides(b, a);
      GcdPositive(a, b);
      GcdPositive(b, a);
      CommonDivisorDividesGcd(Gcd(a, b), b, a);
      CommonDivisorDividesGcd(Gcd(b, a), a, b);
      DivisorBound(Gcd(a, b), Gcd(b, a));
      DivisorBound(Gcd(b, a), Gcd(a, b));
    }
  }

  /** Euclid's lemma: a divisor coprime to `a` that divides `a*c` divides `c`. */
  lemma {:induction false} CoprimeDividesProduct(a: nat, b: nat, c: int)
    requires Gcd(a, b) == 1 && Divides(b, a * c)
    ensures Divides(b, c)
  {
    var (x, y) := Bezout(a, b);
    DividesSelf(b);
    BezoutRegroup(x, a, y, b, c);
    DividesCombination(b, a * c, b, x, c * y);
  }

  lemma BezoutRegroup(x: int, a: int, y: int, b: int, c: int)
    requires x * a + y * b == 1
    ensures c == x * (a * c) + (c * y) * b
  {
    calc {
      c;
      c * (x * a + y * b);
      c * (x * a) + c * (y * b);
      { assert c * (x * a) == x * (a * c); assert c * (y * b) == (c * y) * b; }
      x * (a * c) + (c * y) * b;
    }
  }

  /** Scaling a divisor and its multiple by the same positive factor keeps divisibility. */
  lemma ScaledDivides(h: int, p: int, g: int)
    requires Divides(h, p) && g > 0
    ensures Divides(h * g, p * g)
  {
    var k := p / h;
    assert p == k * h;
    assert p * g == k * (h * g);
    MultipleDiv(k, h * g);
  }

  /** Dividing both parts by their gcd leaves a coprime pair. */
  lemma {:induction false} ReducedCoprime(a: nat, b: nat)
    requires b > 0
    ensures Gcd(a, b) > 0
    ensures Gcd(a / Gcd(a, b), b / Gcd(a, b)) == 1
  {
    var g := Gcd(a, b);
    GcdPositive(a, b);
    GcdDivides(a, b);
    var p, q := a / g, b / g;
    DividesQuotient(g, a);
    DividesQuotient(g, b);
    assert q > 0 by {
      MulAwayFromZero(q, g);
    }
    var h := Gcd(p, q);
    GcdPositive(p, q);
    assert Divides(h * g, a) && Divides(h * g, b) by {
      GcdDivides(p, q);
      ScaledDivides(h, p, g);
      ScaledDivides(h, q, g);
    }
    CommonDivisorDividesGcd(h * g, a, b);
    DivisorBound(h * g, g);
    UnitMultiplier(h, g);
  }

  /** A positive multiplier that does not enlarge a positive number is 1. */
  lemma UnitMultiplier(h: int, g: int)
    requires h >= 1 && g > 0 && h * g <= g
    ensures h == 1
  {
    MulAwayFromZero(h - 1, g);
    assert (h - 1) * g == h * g - g;
  }

  /** `a/b` with a positive numerator and denominator determine each other when coprime. */
  lemma {:induction false} CoprimeFractionUnique(a: nat, b: nat, c: nat, d: nat)
    requires b > 0 && d > 0
    requires Gcd(a, b) == 1 && Gcd(c, d) == 1
    requires a * d == c * b
    ensures a == c && b == d
  {
    MultipleDiv(c, b);
    assert Divides(b, a * d) by { assert a * d == c * b; }
    CoprimeDividesProduct(a, b, d);
    MultipleDiv(a, d);
    assert Divides(d, c * b);
    CoprimeDividesProduct(c, d, b);
    DivisorBound(b, d);
    DivisorBound(d, b);
    assert b == d;
    assert (a - c) * b == 0;
  }

  /** The value of a fraction is unchanged when both parts are divided by a common divisor. */
  lemma QuotientValue(n: int, d: int, g: int)
    requires g > 0 && d != 0 && n % g == 0 && d % g == 0
    ensures d / g != 0
    ensures (n / g) as real / (d / g) as real == n as real / d as real
  {
    var p, q := n / g, d / g;
    assert n == p * g && d == q * g;
    assert q != 0;
    assert n as real == p as real * g as real;
    assert d as real == q as real * g as real;
  }

  lemma AbsMul(x: int, y: int)
    ensures Abs(x * y) == Abs(x) * Abs(y)
  {
    if x < 0 && y < 0 {
      assert x * y == (-x) * (-y);
    } else if x < 0 {
      assert -(x * y) == (-x) * y;
    } else if y < 0 {
      assert -(x * y) == x * (-y);
    }
  }

  /** Python's `//` on an exact multiple gives the multiplier back, whatever the signs. */
  lemma FloorDivExact(k: int, d: int)
    requires d != 0
    ensures FloorDiv(k * d, d) == k
  {
    if d > 0 {
      MultipleDiv(k, d);
    } else {
      assert -(k * d) == k * (-d);
      MultipleDiv(k, -d);
    }
  }

  /** Least common multiple of positive numbers: `a * (b / gcd(a, b))`. */
  function Lcm(a: nat, b: nat): (l: nat)
    requires a > 0 && b > 0
    ensures l > 0 && Divides(a, l) && Divides(b, l)
  {
    GcdPositive(a, b);
    GcdDivides(a, b);
    var g := Gcd(a, b);
    LcmDivisible(a, b, g);
    a * (b / g)
  }

  /** `a * (b / g)` for a common divisor `g` is a positive common multiple. */
  lemma LcmDivisible(a: int, b: int, g: int)
    requires a > 0 && b > 0 && Divides(g, a) && Divides(g, b)
    ensures a * (b / g) > 0 && Divides(a, a * (b / g)) && Divides(b, a * (b / g))
  {
    var p, q := a / g, b / g;
    DividesQuotient(g, a);
    DividesQuotient(g, b);
    assert q >= 1 by {
      MulAwayFromZero(q, g);
    }
    assert a * q > 0 by {
      MulAwayFromZero(q, a);
    }
    assert Divides(a, a * q) by {
      MultipleDiv(q, a);
      assert a * q == q * a;
    }
    assert Divides(b, a * q) by {
      SharedFactor(p, q, g);
      MultipleDiv(p, b);
    }
  }

  lemma SharedFactor(p: int, q: int, g: int)
    ensures (p * g) * q == p * (q * g)
  {
  }

  /** The lcm divides into every positive common multiple, hence is the least. */
  lemma LcmIsLeast(a: nat, b: nat, c: int)
    requires a > 0 && b > 0 && c > 0 && Divides(a, c) && Divides(b, c)
    ensures Lcm(a, b) <= c
  {
    GcdPositive(a, b);
    GcdDivides(a, b);
    ReducedCoprime(a, b);
    var g := Gcd(a, b);
    DividesQuotient(g, a);
    DividesQuotient(g, b);
    DividesQuotient(a, c);
    DividesQuotient(b, c);
    CoprimeCofactor(a / g, b / g, g, c / a, c / b, c);
    MulMonotone(a, b / g, c / a);
  }

  /** With `a = p*g`, `b = q*g`, `c = s*a = t*b` and `p`, `q` coprime, `q` divides `s`. */
  lemma CoprimeCofactor(p: nat, q: nat, g: nat, s: int, t: int, c: int)
    requires g > 0 && q > 0 && p > 0 && c > 0 && Gcd(p, q) == 1
    requires c == s * (p * g) && c == t * (q * g)
    ensures 0 < q <= s
  {
    Regroup(p, q, g, s, t, c);
    MultipleDiv(t, q);
    assert Divides(q, p * s);
    CoprimeDividesProduct(p, q, s);
    PositiveFactor(s, p * g, c);
    DivisorBound(q, s);
  }

  lemma Regroup(p: int, q: int, g: int, s: int, t: int, c: int)
    requires g > 0 && c == s * (p * g) && c == t * (q * g)
    ensures p * s == q * t
  {
    assert (p * s) * g == (q * t) * g;
    MulCancel(p * s, q * t, g);
  }

  lemma PositiveFactor(s: int, m: int, c: int)
    requires m > 0 && c > 0 && c == s * m
    ensures s > 0
  {
    if s <= 0 {
      MulAwayFromZero(-s, m);
    }
  }

  lemma MulMonotone(a: int, x: int, y: int)
    requires a >= 0 && x <= y
    ensures a * x <= a * y
  {
    assert a * y - a * x == a * (y - x);
  }

  lemma MulCancel(x: int, y: int, g: int)
    requires g > 0 && x * g == y * g
    ensures x == y
  {
    assert (x - y) * g == 0;
  }

  /** `a * b // gcd(a, b)` on nonzero integers of either sign: a signed
      common multiple whose magnitude is the lcm of the magnitudes. */
  lemma SignedLcm(a: int, b: int)
    requires a != 0 && b != 0
    ensures PyGcd(a, b) > 0
    ensures a % PyGcd(a, b) == 0 && b % PyGcd(a, b) == 0
    ensures FloorDiv(a * b, PyGcd(a, b)) == a * (b / PyGcd(a, b)) == (a / PyGcd(a, b)) * b
    ensures Abs(FloorDiv(a * b, PyGcd(a, b))) == Lcm(Abs(a), Abs(b))
  {
    var g := PyGcd(a, b);
    GcdPositive(Abs(a), Abs(b));
    GcdDivides(Abs(a), Abs(b));
    SignedDivides(a, g);
    SignedDivides(b, g);
    ScaledProduct(a, b, a / g, b / g, g);
    FloorDivExact(a * (b / g), g);
    LcmMagnitude(a, b / g, g, Abs(b));
  }

  lemma ScaledProduct(a: int, b: int, p: int, q: int, g: int)
    requires a == p * g && b == q * g
    ensures a * b == (a * q) * g && a * q == p * b
  {
  }

  lemma LcmMagnitude(a: int, q: int, g: int, absB: nat)
    requires g > 0 && absB == Abs(q * g) && a != 0 && absB > 0 && Gcd(Abs(a), absB) == g
    ensures Abs(a * q) == Lcm(Abs(a), absB)
  {
    AbsMul(a, q);
    AbsMul(q, g);
    MultipleDiv(Abs(q), g);
  }

  /** A positive divisor of `|x|` divides `x`. */
  lemma SignedDivides(x: int, g: int)
    requires Divides(g, Abs(x))
    ensures x % g == 0 && x == (x / g) * g
  {
    if x < 0 {
      var k := Abs(x) / g;
      assert -x == k * g;
      assert x == (-k) * g;
      MultipleDiv(-k, g);
    } else {
      DividesQuotient(g, x);
    }
  }

  /** Sum of a sequence of integers, left to right. */
  function SumInts(s: seq<int>): int
  {
    if |s| == 0 then 0 else SumInts(s[..|s| - 1]) + s[|s| - 1]
  }

  lemma {:induction false} SumIntsAppend(a: seq<int>, b: seq<int>)
    ensures SumInts(a + b) == SumInts(a) + SumInts(b)
    decreases |b|
  {
    if |b| == 0 {
      assert a + b == a;
    } else {
      assert (a + b)[..|a + b| - 1] == a + b[..|b| - 1];
      SumIntsAppend(a, b[..|b| - 1]);
    }
  }

  /** Changing one entry changes the sum by exactly the difference. */
  lemma {:induction false} SumIntsUpdate(s: seq<int>, j: int, v: int)
    requires 0 <= j < |s|
    ensures SumInts(s[j := v]) == SumInts(s) - s[j] + v
    decreases |s|
  {
    var t := s[j := v];
    if j == |s| - 1 {
      assert t[..|t| - 1] == s[..|s| - 1];
    } else {
      assert t[..|t| - 1] == s[..|s| - 1][j := v];
      SumIntsUpdate(s[..|s| - 1], j, v);
    }
  }
}

/** Sums of exact rational values (modelled as `real`). */
module RealSums {

  function Sum(s: seq<real>): real
  {
    if |s| == 0 then 0.0 else Sum(s[..|s| - 1]) + s[|s| - 1]
  }

  lemma {:induction false} SumAppend(a: seq<real>, b: seq<real>)
    ensures Sum(a + b) == Sum(a) + Sum(b)
    decreases |b|
  {
    if |b| == 0 {
      assert a + b == a;
    } else {
      assert (a + b)[..|a + b| - 1] == a + b[..|b| - 1];
      SumAppend(a, b[..|b| - 1]);
    }
  }

  /** Changing one entry changes the sum by exactly the difference. */
  lemma {:induction false} SumUpdate(s: seq<real>, j: int, v: real)
    requires 0 <= j < |s|
    ensures Sum(s[j := v]) == Sum(s) - s[j] + v
    decreases |s|
  {
    var t := s[j := v];
    if j == |s| - 1 {
      assert t[..|t| - 1] == s[..|s| - 1];
    } else {
      assert t[..|t| - 1] == s[..|s| - 1][j := v];
      SumUpdate(s[..|s| - 1], j, v);
    }
  }

  lemma {:induction false} SumNonNegative(s: seq<real>)
    requires forall i :: 0 <= i < |s| ==> s[i] >= 0.0
    ensures Sum(s) >= 0.0
    decreases |s|
  {
    if |s| > 0 {
      SumNonNegative(s[..|s| - 1]);
    }
  }

  /** A sequence of zeros sums to zero. */
  lemma {:induction false} SumZeros(n: nat)
    ensures Sum(seq(n, i => 0.0)) == 0.0
  {
    if n > 0 {
      assert seq(n, i => 0.0)[..n - 1] == seq(n - 1, i => 0.0);
      SumZeros(n - 1);
    }
  }
}

/** Identities between quotients of reals, used to show that cross-multiplied
    fraction arithmetic computes the exact rational result. */
module Quotients {

  /** Two fractions with equal cross products have equal values. */
  lemma CrossEqual(a: real, b: real, c: real, d: real)
    requires b != 0.0 && d != 0.0 && a * d == c * b
    ensures a / b == c / d
  {
    var p, q := a / b, c / d;
    assert a == p * b && c == q * d;
    assert (p - q) * (b * d) == 0.0;
  }

  lemma SumOfQuotients(a: real, b: real, c: real, d: real)
    requires b != 0.0 && d != 0.0
    ensures (a * d + c * b) / (b * d) == a / b + c / d
  {
    var p, q := a / b, c / d;
    assert a == p * b && c == q * d;
    assert a * d + c * b == (p + q) * (b * d);
  }

  lemma DifferenceOfQuotients(a: real, b: real, c: real, d: real)
    requires b != 0.0 && d != 0.0
    ensures (a * d - c * b) / (b * d) == a / b - c / d
  {
    var p, q := a / b, c / d;
    assert a == p * b && c == q * d;
    assert a * d - c * b == (p - q) * (b * d);
  }

  /** Dividing by a positive number keeps the sign. */
  lemma SignOfQuotient(p: real, q: real)
    requires q > 0.0
    ensures p / q < 0.0 <==> p < 0.0
    ensures p / q == 0.0 <==> p == 0.0
  {
    var r := p / q;
    assert p == r * q;
    if r < 0.0 {
      assert (-r) * q > 0.0;
    } else if r > 0.0 {
      assert r * q > 0.0;
    }
  }

  lemma ProductOfQuotients(a: real, b: real, c: real, d: real)
    requires b != 0.0 && d != 0.0
    ensures (a * c) / (b * d) == (a / b) * (c / d)
  {
  }

  lemma DivideQuotients(a: real, b: real, c: real, d: real)
    requires b != 0.0 && c != 0.0 && d != 0.0
    ensures (a * d) / (b * c) == (a / b) / (c / d)
  {
    var p := a / b;
    var q := c / d;
    assert a == p * b && c == q * d;
    assert (a * d) / (b * c) == (p * b * d) / (q * d * b);
  }
}

=== FILE: layers.dfy ===
/** The layered searcher of scripts/square_roots.py: an evaluation layer
    measuring `|(k/M)² − tn/td|` as a pair `diff / denom`, an update layer
    taking the better neighbour of `k`, and a capacity layer scaling `k`
    and `M` by a factor. */
module Layers {
  import opened IntMath
  import opened SqrtSearch
  import HillClimb

  /** `EvalLayer(target_num, target_den)`. */
  datatype Target = Target(tn: int, td: int)

  /** `EvalLayer.forward`: `(k², M², diff, denom)`. */
  datatype Measure = Measure(k2: int, m2: int, diff: nat, denom: int)

  function EvalForward(t: Target, k: int, m: int): (r: Measure)
    ensures r.k2 == k * k && r.m2 == m * m
    ensures t.td > 0 && m != 0 ==>
      (r.denom > 0 && r.diff as real / r.denom as real == Distance(k as real / m as real, t))
  {
    var k2, m2 := k * k, m * m;
    var diff := Abs(k2 * t.td - t.tn * m2);
    var denom := m2 * t.td;
    MeasureIsDistance(k, m, t);
    Measure(k2, m2, diff, denom)
  }

  /** `|x² − tn/td|`. */
  function Distance(x: real, t: Target): real
    requires t.td != 0
  {
    var d := x * x - t.tn as real / t.td as real;
    if d < 0.0 then -d else d
  }

  lemma MeasureIsDistance(k: int, m: int, t: Target)
    ensures t.td > 0 && m != 0 ==>
      (m * m * t.td > 0 &&
       Abs(k * k * t.td - t.tn * (m * m)) as real / (m * m * t.td) as real
         == Distance(k as real / m as real, t))
  {
    if t.td <= 0 || m == 0 {
      return;
    }
    SquareTimesPositive(m, t.td);
    CastSquares(k, m, t.tn, t.td);
    MeasureOf(k, m, t, k * k * t.td - t.tn * (m * m), m * m * t.td);
  }

  /** The measure over abstract parts `s / q`. */
  lemma MeasureOf(k: int, m: int, t: Target, s: int, q: int)
    requires m != 0 && t.td > 0 && q > 0
    requires s as real == k as real * k as real * t.td as real - t.tn as real * (m as real * m as real)
    requires q as real == m as real * m as real * t.td as real
    ensures Abs(s) as real / q as real == Distance(k as real / m as real, t)
  {
    var K, M, N, D := k as real, m as real, t.tn as real, t.td as real;
    SquareGap(K, M, N, D, s as real, q as real);
    AbsRatio(s, q);
  }

  lemma SquareTimesPositive(m: int, d: int)
    requires m != 0 && d > 0
    ensures m * m * d > 0
  {
    if m < 0 {
      MulAwayFromZero(-m, -m);
      assert m * m == (-m) * (-m);
    } else {
      MulAwayFromZero(m, m);
    }
    MulAwayFromZero(m * m, d);
  }

  lemma CastSquares(k: int, m: int, n: int, d: int)
    ensures (k * k * d - n * (m * m)) as real == k as real * k as real * d as real - n as real * (m as real * m as real)
    ensures (m * m * d) as real == m as real * m as real * d as real
  {
  }

  /** `(k²·td − tn·m²) / (m²·td)` is `(k/m)² − tn/td`. */
  lemma SquareGap(K: real, M: real, N: real, D: real, s: real, q: real)
    requires M != 0.0 && D != 0.0 && q != 0.0 && s == K * K * D - N * (M * M) && q == M * M * D
    ensures s / q == (K / M) * (K / M) - N / D
  {
    var x := K / M;
    assert x * M == K;
    assert K * K == x * x * (M * M);
    assert (N / D) * D == N;
    assert s == (x * x - N / D) * q;
  }

  /** Over a positive denominator the magnitude of a quotient is the
      quotient of the magnitude. */
  lemma AbsRatio(s: int, q: int)
    requires q > 0
    ensures Abs(s) as real / q as real == if s as real / q as real < 0.0 then -(s as real / q as real) else s as real / q as real
  {
    if s < 0 {
      assert Abs(s) as real == -(s as real);
    }
  }

  /** `UpdateLayer.measure_error`: the `diff` of `EvalForward`. */
  function Diff(t: Target, k: int, m: int): nat
  {
    EvalForward(t, k, m).diff
  }

  /** `UpdateLayer.forward`: `k + 1` if strictly better, then `k − 1` (only
      for `k > 0`) if strictly better still; `changed` says whether `k`
      moved. */
  function UpdateForward(t: Target, k: int, m: int): (r: (int, bool))
    ensures r.0 == k || r.0 == k + 1 || (r.0 == k - 1 && k > 0)
    ensures r.1 <==> r.0 != k
    ensures r.1 <==> Diff(t, k + 1, m) < Diff(t, k, m) || (k > 0 && Diff(t, k - 1, m) < Diff(t, k, m))
    ensures Diff(t, r.0, m) <= Diff(t, k + 1, m)
    ensures k > 0 ==> Diff(t, r.0, m) <= Diff(t, k - 1, m)
  {
    var curr := Diff(t, k, m);
    var (bestK, bestDiff, changed) :=
      if Diff(t, k + 1, m) < curr then (k + 1, Diff(t, k + 1, m), true) else (k, curr, false);
    if k > 0 && Diff(t, k - 1, m) < bestDiff then (k - 1, true)
    else (bestK, changed)
  }

  /** With a whole-number target the measure is the grains error and the
      update layer takes the step of the deterministic searcher. */
  lemma UpdateIsHillClimb(n: int, k: int, m: int)
    requires k >= 0
    ensures forall j :: Diff(Target(n, 1), j, m) == GrainsError(j, m, n)
    ensures UpdateForward(Target(n, 1), k, m).0 == HillClimb.BestStep(k, m, n, false).0
    ensures UpdateForward(Target(n, 1), k, m).1 <==> !HillClimb.LocalMinimum(k, m, n)
  {
  }

  /** `CapacityExpandLayer.forward`. */
  function ExpandForward(factor: int, k: int, m: int): (r: (int, int))
    ensures m != 0 && factor != 0 ==> r.1 != 0 && r.0 as real / r.1 as real == k as real / m as real
    ensures forall t: Target :: Diff(t, r.0, r.1) == factor * factor * Diff(t, k, m)
  {
    ExactExpansion(k, m, 1, factor);
    forall t: Target
      ensures Diff(t, k * factor, m * factor) == factor * factor * Diff(t, k, m)
    {
      ScaledDiff(t, k, m, factor);
    }
    (k * factor, m * factor)
  }

  /** Multiplying `k` and `M` by `f` multiplies the diff by `f²`, whatever
      the target. */
  lemma ScaledDiff(t: Target, k: int, m: int, f: int)
    ensures Diff(t, k * f, m * f) == f * f * Diff(t, k, m)
  {
    var d := k * k * t.td - t.tn * (m * m);
    assert (k * f) * (k * f) * t.td - t.tn * ((m * f) * (m * f)) == (f * f) * d by {
      assert (k * f) * (k * f) * t.td == (f * f) * (k * k * t.td);
      assert t.tn * ((m * f) * (m * f)) == (f * f) * (t.tn * (m * m));
    }
    AbsMul(f * f, d);
  }

  /** The main loop's convergence test `diff * tolerance_num < denom` says
      that `x²` is within `1 / tolerance_num` of the target. */
  lemma ToleranceMeans(t: Target, k: int, m: int, tol: int)
    requires t.td > 0 && m != 0 && tol > 0
    ensures var e := EvalForward(t, k, m);
      e.diff * tol < e.denom <==> Distance(k as real / m as real, t) < 1.0 / tol as real
  {
    var e := EvalForward(t, k, m);
    assert (e.diff * tol) as real == e.diff as real * tol as real;
    ScaledBelow(e.diff as real, e.denom as real, tol as real);
  }

  lemma ScaledBelow(diff: real, q: real, tol: real)
    requires q > 0.0 && tol > 0.0
    ensures diff * tol < q <==> diff / q < 1.0 / tol
  {
    var d := diff / q;
    assert diff == d * q;
    assert diff * tol == (d * tol) * q;
    var u := 1.0 / tol;
    assert u * tol == 1.0;
    if d < u {
      assert (u - d) * tol > 0.0;
    } else {
      assert (d - u) * tol >= 0.0;
    }
  }

  /** The main loop: stop once within tolerance, otherwise take the update
      layer's step, or expand by 10 when it finds none; at most `maxIter`
      passes. */
  method Run(t: Target, k0: int, m0: int, tol: int, maxIter: int)
    returns (k: int, m: int, passes: nat, expansions: nat, converged: bool)
    ensures converged ==> var e := EvalForward(t, k, m); e.diff * tol < e.denom
    ensures converged && t.td > 0 && m != 0 && tol > 0 ==> Distance(k as real / m as real, t) < 1.0 / tol as real
    ensures !converged ==> passes == if maxIter > 0 then maxIter else 0
    ensures passes <= if maxIter > 0 then maxIter else 0
    ensures m == m0 * Pow10(expansions) && expansions <= passes
    ensures k0 >= 0 ==> k >= 0
  {
    k, m := k0, m0;
    converged := false;
    passes, expansions := 0, 0;
    while passes < maxIter
      invariant passes <= if maxIter > 0 then maxIter else 0
      invariant m == m0 * Pow10(expansions) && expansions <= passes
      invariant k0 >= 0 ==> k >= 0
    {
      var e := EvalForward(t, k, m);
      if e.diff * tol < e.denom {
        converged := true;
        if t.td > 0 && m != 0 && tol > 0 {
          ToleranceMeans(t, k, m, tol);
        }
        return;
      }
      var (kNew, changed) := UpdateForward(t, k, m);
      if changed {
        k := kNew;
      } else {
        k, m := k * 10, m * 10;
        expansions := expansions + 1;
      }
      passes := passes + 1;
    }
  }

  function Pow10(e: nat): nat
  {
    if e == 0 then 1 else 10 * Pow10(e - 1)
  }
}

=== FILE: lumps.dfy ===
/** Lumps-coded values of scripts/PDE_3.py: `k` lumps out of a vantage
    capacity `ncap`, times a scale, i.e. `(k / ncap) * scale`. The scale is
    a float in the script; it is kept as a `real` that is only compared,
    copied and squared. */
module Lumps {
  import opened Wrappers
  import opened IntMath
  import opened Quotients

  datatype LumpsValue = LumpsValue(k: int, ncap: int, scale: real)

  /** `k / ncap`, the lumps fraction before scaling. */
  function Ratio(v: LumpsValue): real
    requires v.ncap != 0
  {
    v.k as real / v.ncap as real
  }

  /** The exact value `to_float` approximates. */
  function Value(v: LumpsValue): real
    requires v.ncap != 0
  {
    Ratio(v) * v.scale
  }

  function Max(a: int, b: int): int
  {
    if a < b then b else a
  }

  /** `(k * newCap) // ncap`: the lumps count at a new vantage, rounded
      toward minus infinity. */
  function Rescale(k: int, ncap: int, newCap: int): int
    requires ncap != 0
  {
    FloorDiv(k * newCap, ncap)
  }

  /** `w` is `v` at a finer vantage, rounded down by less than one lump. */
  predicate Below(v: LumpsValue, w: LumpsValue)
    requires v.ncap > 0 && w.ncap > 0
  {
    Ratio(w) <= Ratio(v) < Ratio(w) + 1.0 / w.ncap as real
  }

  /** Both vantages divide the larger one, so rescaling loses nothing. */
  predicate Nested(a: LumpsValue, b: LumpsValue)
  {
    a.ncap != 0 && b.ncap != 0 && Max(a.ncap, b.ncap) % a.ncap == 0 && Max(a.ncap, b.ncap) % b.ncap == 0
  }

  /** `lumps_unify`: different scales raise ValueError; equal vantages are
      returned as they are; otherwise the value with the smaller vantage is
      rescaled to the larger one, which divides by zero when the smaller
      vantage is zero. The common vantage is the third component. */
  function Unify(a: LumpsValue, b: LumpsValue): (r: Result<(LumpsValue, LumpsValue, int)>)
    ensures r.Err? <==> a.scale != b.scale || (a.ncap != b.ncap && (a.ncap == 0 || b.ncap == 0) && Max(a.ncap, b.ncap) != 0)
    ensures r.Err? ==> r.error == (if a.scale != b.scale then ValueError else ZeroDivisionError)
    ensures r.Ok? ==> r.value.0.ncap == r.value.1.ncap == r.value.2 == Max(a.ncap, b.ncap)
    ensures r.Ok? ==> r.value.0.scale == r.value.1.scale == a.scale
    ensures r.Ok? && a.ncap >= b.ncap ==> r.value.0 == a
    ensures r.Ok? && b.ncap >= a.ncap ==> r.value.1 == b
  {
    if a.scale != b.scale then Err(ValueError)
    else if a.ncap == b.ncap then Ok((a, b, a.ncap))
    else
      var newCap := Max(a.ncap, b.ncap);
      if newCap != a.ncap && a.ncap == 0 then Err(ZeroDivisionError)
      else if newCap != b.ncap && b.ncap == 0 then Err(ZeroDivisionError)
      else
        var ak := if newCap != a.ncap then Rescale(a.k, a.ncap, newCap) else a.k;
        var bk := if newCap != b.ncap then Rescale(b.k, b.ncap, newCap) else b.k;
        Ok((LumpsValue(ak, newCap, a.scale), LumpsValue(bk, newCap, a.scale), newCap))
  }

  /** Rescaling to a multiple of the vantage is exact. */
  lemma RescaleExact(k: int, ncap: int, newCap: int)
    requires ncap != 0 && newCap != 0 && newCap % ncap == 0
    ensures Rescale(k, ncap, newCap) as real / newCap as real == k as real / ncap as real
  {
    var t := newCap / ncap;
    assert newCap == ncap * t;
    assert k * newCap == (k * t) * ncap;
    FloorDivExact(k * t, ncap);
    var q := Rescale(k, ncap, newCap);
    assert q == k * t;
    assert (q * ncap) as real == (k * newCap) as real;
    CrossEqual(q as real, newCap as real, k as real, ncap as real);
  }

  /** Rescaling to a larger positive vantage rounds down by less than one
      lump of the new vantage. */
  lemma RescaleBelow(k: int, ncap: int, newCap: int)
    requires 0 < ncap && 0 < newCap
    ensures var q := Rescale(k, ncap, newCap);
      q as real / newCap as real <= k as real / ncap as real < q as real / newCap as real + 1.0 / newCap as real
  {
    var q := Rescale(k, ncap, newCap);
    var K, N, M := k as real, ncap as real, newCap as real;
    assert q as real <= (k * newCap) as real / N < q as real + 1.0;
    assert (k * newCap) as real == K * M;
    ScaleDown(q as real, K * M / N, M);
    assert K * M / N / M == K / N;
  }

  lemma ScaleDown(q: real, x: real, m: real)
    requires m > 0.0 && q <= x < q + 1.0
    ensures q / m <= x / m < q / m + 1.0 / m
  {
    assert (q + 1.0) / m == q / m + 1.0 / m;
  }

  /** With positive vantages `lumps_unify` keeps each value, or rounds it
      down by less than one lump of the common vantage; with nested
      vantages it keeps both values exactly. */
  lemma UnifyApproximates(a: LumpsValue, b: LumpsValue)
    requires Unify(a, b).Ok?
    ensures a.ncap > 0 && b.ncap > 0 ==> Below(a, Unify(a, b).value.0) && Below(b, Unify(a, b).value.1)
    ensures Nested(a, b) ==> Ratio(Unify(a, b).value.0) == Ratio(a) && Ratio(Unify(a, b).value.1) == Ratio(b)
  {
    var m := Max(a.ncap, b.ncap);
    if a.ncap != b.ncap {
      if a.ncap > 0 && b.ncap > 0 {
        if a.ncap < m {
          RescaleBelow(a.k, a.ncap, m);
        } else {
          RescaleBelow(b.k, b.ncap, m);
        }
      }
      if Nested(a, b) {
        if a.ncap < m {
          RescaleExact(a.k, a.ncap, m);
        } else {
          RescaleExact(b.k, b.ncap, m);
        }
      }
    }
  }

  /** Unifying `1/2` with `0/3` rescales `1/2` to `1/3`: vantages that do not
      nest lose value in `lumps_unify`. */
  lemma UnifyCanLose()
    ensures var a, b := LumpsValue(1, 2, 1.0), LumpsValue(0, 3, 1.0);
      && Unify(a, b).Ok?
      && Ratio(Unify(a, b).value.0) == 1.0 / 3.0 < Ratio(a)
  {
    assert FloorDiv(3, 2) == 1;
  }

  /** `lumps_add`: the unified lumps counts added at the common vantage. */
  function Add(a: LumpsValue, b: LumpsValue): (r: Result<LumpsValue>)
    ensures r.Err? <==> Unify(a, b).Err?
    ensures r.Ok? ==> r.value.ncap == Max(a.ncap, b.ncap) && r.value.scale == a.scale
    ensures r.Ok? && r.value.ncap != 0 ==> Ratio(r.value) == Ratio(Unify(a, b).value.0) + Ratio(Unify(a, b).value.1)
  {
    var u :- Unify(a, b);
    var r := LumpsValue(u.0.k + u.1.k, u.2, u.0.scale);
    if u.2 != 0 then
      OverCommonVantage(u.0.k, u.1.k, u.2);
      Ok(r)
    else Ok(r)
  }

  /** `lumps_sub`: the unified lumps counts subtracted at the common vantage. */
  function Sub(a: LumpsValue, b: LumpsValue): (r: Result<LumpsValue>)
    ensures r.Err? <==> Unify(a, b).Err?
    ensures r.Ok? ==> r.value.ncap == Max(a.ncap, b.ncap) && r.value.scale == a.scale
    ensures r.Ok? && r.value.ncap != 0 ==> Ratio(r.value) == Ratio(Unify(a, b).value.0) - Ratio(Unify(a, b).value.1)
  {
    var u :- Unify(a, b);
    var r := LumpsValue(u.0.k - u.1.k, u.2, u.0.scale);
    if u.2 != 0 then
      OverCommonVantage(u.0.k, u.1.k, u.2);
      Ok(r)
    else Ok(r)
  }

  lemma OverCommonVantage(x: int, y: int, n: int)
    requires n != 0
    ensures (x + y) as real / n as real == x as real / n as real + y as real / n as real
    ensures (x - y) as real / n as real == x as real / n as real - y as real / n as real
  {
    var X, Y, N := x as real, y as real, n as real;
    assert (X + Y) / N == X / N + Y / N;
    assert (X - Y) / N == X / N - Y / N;
  }

  /** On nested vantages sums and differences are exact. */
  lemma AddSubExact(a: LumpsValue, b: LumpsValue)
    requires Nested(a, b) && a.scale == b.scale
    ensures Add(a, b).Ok? && Value(Add(a, b).value) == Value(a) + Value(b)
    ensures Sub(a, b).Ok? && Value(Sub(a, b).value) == Value(a) - Value(b)
  {
    UnifyApproximates(a, b);
    ScaledSum(Ratio(Add(a, b).value), Ratio(a), Ratio(b), a.scale);
    ScaledDifference(Ratio(Sub(a, b).value), Ratio(a), Ratio(b), a.scale);
  }

  lemma ScaledSum(r: real, x: real, y: real, s: real)
    requires r == x + y
    ensures r * s == x * s + y * s
  {
  }

  lemma ScaledDifference(r: real, x: real, y: real, s: real)
    requires r == x - y
    ensures r * s == x * s - y * s
  {
  }

  /** `lumps_refine`: the vantage multiplied by `factor`, the lumps count
      rescaled to it; a zero vantage divides by zero. */
  function Refine(v: LumpsValue, factor: int): (r: Result<LumpsValue>)
    ensures r.Err? <==> v.ncap == 0
    ensures r.Err? ==> r.error == ZeroDivisionError
    ensures r.Ok? ==> r.value == LumpsValue(v.k * factor, v.ncap * factor, v.scale)
    ensures r.Ok? && factor != 0 ==> Value(r.value) == Value(v)
  {
    if v.ncap == 0 then Err(ZeroDivisionError)
    else
      var newCap := v.ncap * factor;
      assert v.k * newCap == (v.k * factor) * v.ncap;
      FloorDivExact(v.k * factor, v.ncap);
      var r := LumpsValue(Rescale(v.k, v.ncap, newCap), newCap, v.scale);
      if factor != 0 then
        RefineKeepsRatio(v.k, v.ncap, factor);
        Ok(r)
      else Ok(r)
  }

  lemma RefineKeepsRatio(k: int, n: int, f: int)
    requires n != 0 && f != 0
    ensures (k * f) as real / (n * f) as real == k as real / n as real
  {
    assert ((k * f) * n) as real == (k * (n * f)) as real;
    CrossEqual((k * f) as real, (n * f) as real, k as real, n as real);
  }

  /** `lumps_mul`: the product of the unified lumps counts over the squared
      vantage, with the squared scale. */
  function Mul(a: LumpsValue, b: LumpsValue): (r: Result<LumpsValue>)
    ensures r.Err? <==> Unify(a, b).Err?
    ensures r.Ok? ==> r.value.ncap == Max(a.ncap, b.ncap) * Max(a.ncap, b.ncap) && r.value.scale == a.scale * a.scale
    ensures r.Ok? && r.value.ncap != 0 ==> Value(r.value) == Value(Unify(a, b).value.0) * Value(Unify(a, b).value.1)
  {
    var u :- Unify(a, b);
    var r := LumpsValue(u.0.k * u.1.k, u.2 * u.2, u.0.scale * u.0.scale);
    if u.2 != 0 then
      ProductValue(u.0, u.1);
      Ok(r)
    else Ok(r)
  }

  lemma ProductValue(x: LumpsValue, y: LumpsValue)
    requires x.ncap == y.ncap != 0 && x.scale == y.scale
    ensures Value(LumpsValue(x.k * y.k, x.ncap * x.ncap, x.scale * x.scale)) == Value(x) * Value(y)
  {
    var K, L, N, S := x.k as real, y.k as real, x.ncap as real, x.scale;
    ProductOfQuotients(K, N, L, N);
    assert (x.k * y.k) as real == K * L;
    assert (x.ncap * x.ncap) as real == N * N;
    assert (K / N * S) * (L / N * S) == (K / N) * (L / N) * (S * S);
  }

  /** On nested vantages the product is exact. */
  lemma MulExact(a: LumpsValue, b: LumpsValue)
    requires Nested(a, b) && a.scale == b.scale
    ensures Mul(a, b).Ok? && Value(Mul(a, b).value) == Value(a) * Value(b)
  {
    UnifyApproximates(a, b);
    var u := Unify(a, b).value;
    SameValue(u.0, a);
    SameValue(u.1, b);
    var m := Max(a.ncap, b.ncap);
    assert m * m != 0;
  }

  /** Values with the same fraction and scale are equal. */
  lemma SameValue(x: LumpsValue, y: LumpsValue)
    requires x.ncap != 0 && y.ncap != 0 && Ratio(x) == Ratio(y) && x.scale == y.scale
    ensures Value(x) == Value(y)
  {
  }
}

=== FILE: mesh.dfy ===
/** The grains-coded 2D mesh of scripts/2d_3d_mesh.py: an `nx` by `ny` grid
    of nodes at integer grain coordinates, each linked to its in-grid
    neighbours in the eight compass directions. Neighbour references are
    kept as grid indices. */
module Mesh {

  /** The minimal `Grain(num, den)` of the mesh script; the mesh only builds
      whole numbers, `den == 1`. */
  datatype Coord = Coord(num: int, den: int)

  datatype MeshNode = MeshNode(x: Coord, y: Coord, neighbors: seq<(int, int)>)

  /** The direction list in the order the script tries it: the four axis
      steps, then the four diagonals. */
  const Directions: seq<(int, int)> := [(1, 0), (-1, 0), (0, 1), (0, -1), (1, 1), (1, -1), (-1, 1), (-1, -1)]

  predicate InGrid(nx: int, ny: int, p: (int, int))
  {
    0 <= p.0 < nx && 0 <= p.1 < ny
  }

  function Dist(a: int, b: int): nat
  {
    if a < b then b - a else a - b
  }

  /** Eight-way adjacency: distinct cells at Chebyshev distance one. */
  predicate Adjacent(p: (int, int), q: (int, int))
  {
    p != q && Dist(p.0, q.0) <= 1 && Dist(p.1, q.1) <= 1
  }

  /** The in-grid cells reached from `(i, j)` by `dirs`, in order. */
  function Reached(nx: int, ny: int, i: int, j: int, dirs: seq<(int, int)>): (r: seq<(int, int)>)
    ensures |r| <= |dirs|
  {
    if |dirs| == 0 then []
    else
      var p := (i + dirs[0].0, j + dirs[0].1);
      var rest := Reached(nx, ny, i, j, dirs[1..]);
      if InGrid(nx, ny, p) then [p] + rest else rest
  }

  /** A cell is reached exactly when it is in the grid and its offset from
      `(i, j)` is one of the directions. */
  lemma {:induction false} ReachedMembers(nx: int, ny: int, i: int, j: int, dirs: seq<(int, int)>, p: (int, int))
    ensures p in Reached(nx, ny, i, j, dirs) <==> InGrid(nx, ny, p) && (p.0 - i, p.1 - j) in dirs
  {
    if |dirs| > 0 {
      ReachedMembers(nx, ny, i, j, dirs[1..], p);
      assert (p.0 - i, p.1 - j) in dirs <==> (p.0 - i, p.1 - j) == dirs[0] || (p.0 - i, p.1 - j) in dirs[1..];
    }
  }

  /** With every step landing in the grid, every direction yields a cell. */
  lemma {:induction false} ReachedAll(nx: int, ny: int, i: int, j: int, dirs: seq<(int, int)>)
    requires forall k :: 0 <= k < |dirs| ==> InGrid(nx, ny, (i + dirs[k].0, j + dirs[k].1))
    ensures |Reached(nx, ny, i, j, dirs)| == |dirs|
  {
    if |dirs| > 0 {
      ReachedAll(nx, ny, i, j, dirs[1..]);
    }
  }

  /** The neighbour list of node `(i, j)`: exactly its adjacent in-grid
      cells, each once, at most eight. */
  function Neighbors(nx: int, ny: int, i: int, j: int): (r: seq<(int, int)>)
    ensures |r| <= 8
    ensures forall p :: p in r <==> InGrid(nx, ny, p) && Adjacent((i, j), p)
  {
    ReachedAdjacent(nx, ny, i, j);
    AdjacentReached(nx, ny, i, j);
    Reached(nx, ny, i, j, Directions)
  }

  lemma ReachedAdjacent(nx: int, ny: int, i: int, j: int)
    ensures forall p :: p in Reached(nx, ny, i, j, Directions) ==> InGrid(nx, ny, p) && Adjacent((i, j), p)
  {
    forall p | p in Reached(nx, ny, i, j, Directions)
      ensures InGrid(nx, ny, p) && Adjacent((i, j), p)
    {
      ReachedMembers(nx, ny, i, j, Directions, p);
      DirectionIsAdjacent(i, j, (p.0 - i, p.1 - j));
    }
  }

  lemma AdjacentReached(nx: int, ny: int, i: int, j: int)
    ensures forall p :: InGrid(nx, ny, p) && Adjacent((i, j), p) ==> p in Reached(nx, ny, i, j, Directions)
  {
    forall p | InGrid(nx, ny, p) && Adjacent((i, j), p)
      ensures p in Reached(nx, ny, i, j, Directions)
    {
      AdjacentIsDirection(i, j, p);
      ReachedMembers(nx, ny, i, j, Directions, p);
    }
  }

  /** The eight directions are exactly the offsets to adjacent cells. */
  lemma AdjacentIsDirection(i: int, j: int, p: (int, int))
    requires Adjacent((i, j), p)
    ensures (p.0 - i, p.1 - j) in Directions && p == (i + (p.0 - i), j + (p.1 - j))
  {
    var a, b := p.0 - i, p.1 - j;
    assert -1 <= a <= 1 && -1 <= b <= 1 && (a, b) != (0, 0);
    if a == 1 {
      assert b == 0 || b == 1 || b == -1;
    } else if a == 0 {
      assert b == 1 || b == -1;
    } else {
      assert a == -1 && (b == 0 || b == 1 || b == -1);
    }
  }

  lemma DirectionIsAdjacent(i: int, j: int, d: (int, int))
    requires d in Directions
    ensures Adjacent((i, j), (i + d.0, j + d.1))
  {
  }

  /** Adjacency in the mesh is symmetric and never links a node to itself. */
  lemma NeighborsSymmetric(nx: int, ny: int, p: (int, int), q: (int, int))
    requires InGrid(nx, ny, p) && InGrid(nx, ny, q)
    ensures q in Neighbors(nx, ny, p.0, p.1) <==> p in Neighbors(nx, ny, q.0, q.1)
    ensures p !in Neighbors(nx, ny, p.0, p.1)
  {
    var fromP, fromQ := Neighbors(nx, ny, p.0, p.1), Neighbors(nx, ny, q.0, q.1);
    assert q in fromP <==> Adjacent(p, q);
    assert p in fromQ <==> Adjacent(q, p);
    assert Adjacent(p, q) <==> Adjacent(q, p);
    assert !Adjacent(p, p);
  }

  /** A node away from the border has all eight neighbours. */
  lemma InteriorHasEight(nx: int, ny: int, i: int, j: int)
    requires 0 < i < nx - 1 && 0 < j < ny - 1
    ensures |Neighbors(nx, ny, i, j)| == 8
  {
    ReachedAll(nx, ny, i, j, Directions);
  }

  /** The node at `(i, j)` with its links. */
  function Node(nx: int, ny: int, i: int, j: int): MeshNode
  {
    MeshNode(Coord(i, 1), Coord(j, 1), Neighbors(nx, ny, i, j))
  }

  function Max(a: int, b: int): int
  {
    if a < b then b else a
  }

  /** `build_2d_mesh`: `nx` rows of `ny` nodes (none for a non-positive
      size), node `(i, j)` at coordinates `i/1, j/1` and linked to exactly
      its adjacent in-grid cells. */
  method Build(nx: int, ny: int) returns (mesh: seq<seq<MeshNode>>)
    ensures |mesh| == Max(nx, 0)
    ensures forall i :: 0 <= i < |mesh| ==> |mesh[i]| == Max(ny, 0)
    ensures forall i, j :: 0 <= i < |mesh| && 0 <= j < |mesh[i]| ==> mesh[i][j].x == Coord(i, 1) && mesh[i][j].y == Coord(j, 1)
    ensures forall i, j, p :: 0 <= i < |mesh| && 0 <= j < |mesh[i]| ==>
      (p in mesh[i][j].neighbors <==> InGrid(nx, ny, p) && Adjacent((i, j), p))
  {
    mesh := [];
    var i := 0;
    while i < nx
      invariant 0 <= i == |mesh| <= Max(nx, 0)
      invariant forall a :: 0 <= a < i ==> |mesh[a]| == Max(ny, 0)
      invariant forall a, b :: 0 <= a < i && 0 <= b < |mesh[a]| ==> mesh[a][b] == Node(nx, ny, a, b)
    {
      var row := [];
      var j := 0;
      while j < ny
        invariant 0 <= j == |row| <= Max(ny, 0)
        invariant forall b :: 0 <= b < j ==> row[b] == Node(nx, ny, i, b)
      {
        row := row + [Node(nx, ny, i, j)];
        j := j + 1;
      }
      mesh := mesh + [row];
      i := i + 1;
    }
  }
}

=== FILE: newton.dfy ===
/** `accelerated_sqrtN` (scripts/finite_newton.py and its root copy): the
    sign of the finite slope `err(k + 1) − err(k)` picks one direction; the
    step is kept if it lowers the error, otherwise `k` and `M` are both
    multiplied by the expansion factor, unclamped, until `M` reaches the
    capacity. */
module Newton {
  import opened Wrappers
  import opened IntMath
  import opened SqrtSearch
  import HillClimb

  /** The run's parameters. `keepNegative` is the root copy's handling of a
      negative candidate: it zeroes the step but keeps `new_k = k + step`,
      where the scripts copy resets `new_k` to `k`. */
  datatype Params = Params(n: int, cap: int, factor: int, allowed: int, keepNegative: bool)

  /** `derivative(k, M, N)`. */
  function Slope(k: int, m: int, n: int): int
  {
    GrainsError(k + 1, m, n) - GrainsError(k, m, n)
  }

  /** `new_k`: one lump down when the slope is positive, one up otherwise;
      a negative result is replaced by `k` unless `keepNegative`. */
  function Candidate(k: int, m: int, n: int, keepNegative: bool): (c: int)
    ensures Slope(k, m, n) > 0 ==> c == k - 1 || (c == k && k - 1 < 0 && !keepNegative)
    ensures Slope(k, m, n) <= 0 ==> c == k + 1 || (c == k && k + 1 < 0 && !keepNegative)
    // the step is taken unless it goes below zero in the scripts copy
    ensures Slope(k, m, n) > 0 && (k - 1 >= 0 || keepNegative) ==> c == k - 1
    ensures Slope(k, m, n) > 0 && k - 1 < 0 && !keepNegative ==> c == k
    ensures Slope(k, m, n) <= 0 && (k + 1 >= 0 || keepNegative) ==> c == k + 1
    ensures Slope(k, m, n) <= 0 && k + 1 < 0 && !keepNegative ==> c == k
  {
    var step := if Slope(k, m, n) > 0 then -1 else 1;
    if k + step < 0 && !keepNegative then k else k + step
  }

  /** With `f = k² − N·M²`, the errors of the neighbours are `|f ± 2k + 1|`. */
  lemma NeighbourErrors(k: int, m: int, n: int)
    ensures GrainsError(k + 1, m, n) == Abs((k * k - n * (m * m)) + 2 * k + 1)
    ensures GrainsError(k - 1, m, n) == Abs((k * k - n * (m * m)) - 2 * k + 1)
  {
    assert (k + 1) * (k + 1) == k * k + 2 * k + 1;
    assert (k - 1) * (k - 1) == k * k - 2 * k + 1;
  }

  /** The error is convex in `k ≥ 0`: if going up does not make it worse,
      going down makes it strictly worse. */
  lemma UpNotWorseMeansDownWorse(k: int, m: int, n: int)
    requires k >= 1 && GrainsError(k + 1, m, n) <= GrainsError(k, m, n)
    ensures GrainsError(k - 1, m, n) > GrainsError(k, m, n)
  {
    NeighbourErrors(k, m, n);
  }

  /** Looking one way is enough: for `k ≥ 0` the slope's candidate improves
      exactly when some neighbour does, and it is then the neighbour the
      two-sided search picks. */
  lemma {:induction false} SlopePicksBestStep(k: int, m: int, n: int, keepNegative: bool)
    requires k >= 0
    ensures var c := Candidate(k, m, n, keepNegative);
      GrainsError(c, m, n) < GrainsError(k, m, n) <==> !HillClimb.LocalMinimum(k, m, n)
    ensures var c := Candidate(k, m, n, keepNegative);
      GrainsError(c, m, n) < GrainsError(k, m, n) ==> c == HillClimb.BestStep(k, m, n, false).0
  {
    var c := Candidate(k, m, n, keepNegative);
    if Slope(k, m, n) > 0 {
      if k == 0 {
        assert GrainsError(-1, m, n) == GrainsError(1, m, n);
      }
    } else if k >= 1 {
      UpNotWorseMeansDownWorse(k, m, n);
    }
  }

  /** The root copy's unreset negative candidate is never accepted, so both
      copies take the same step from every `k ≥ 0`. */
  lemma NegativeCandidateHarmless(k: int, m: int, n: int)
    ensures var c := Candidate(k, m, n, true);
      k >= 0 && c < 0 ==> GrainsError(c, m, n) >= GrainsError(k, m, n)
    ensures var (c1, c2) := (Candidate(k, m, n, true), Candidate(k, m, n, false));
      k >= 0 ==> (GrainsError(c1, m, n) < GrainsError(k, m, n)) == (GrainsError(c2, m, n) < GrainsError(k, m, n))
    ensures var (c1, c2) := (Candidate(k, m, n, true), Candidate(k, m, n, false));
      k >= 0 && GrainsError(c1, m, n) < GrainsError(k, m, n) ==> c1 == c2
  {
    if k == 0 {
      assert GrainsError(-1, m, n) == GrainsError(1, m, n);
    }
  }

  /** One pass of the loop body. */
  function Iterate(p: Params, s: Search): (r: (Search, Option<Outcome>))
    requires s.err == GrainsError(s.k, s.m, p.n)
    ensures var (t, stop) := r;
      && t.iterations == s.iterations + 1
      && t.err == GrainsError(t.k, t.m, p.n)
      && stop != Some(Exhausted)
    // an improving candidate is taken and nothing else changes
    ensures var (t, stop) := r; var c := Candidate(s.k, s.m, p.n, p.keepNegative);
      GrainsError(c, s.m, p.n) < s.err ==>
        t == Search(c, s.m, GrainsError(c, s.m, p.n), s.expansions, s.iterations + 1)
    // otherwise the run stops at capacity, or scales k and M alike
    ensures var (t, stop) := r; var c := Candidate(s.k, s.m, p.n, p.keepNegative);
      stop == Some(AtCapacity) <==> GrainsError(c, s.m, p.n) >= s.err && s.m >= p.cap
    ensures var (t, stop) := r;
      stop == Some(AtCapacity) ==> t == s.(iterations := s.iterations + 1)
    ensures var (t, stop) := r; var c := Candidate(s.k, s.m, p.n, p.keepNegative);
      GrainsError(c, s.m, p.n) >= s.err && s.m < p.cap ==>
        && t.m == s.m * p.factor && t.k == s.k * p.factor
        && t.err == p.factor * p.factor * s.err
        && t.expansions == s.expansions + 1
        && (s.m != 0 && p.factor != 0 ==> t.k as real / t.m as real == s.k as real / s.m as real)
    ensures var (t, stop) := r;
      stop != Some(AtCapacity) ==> (stop == Some(Exact) <==> t.err == 0)
    ensures var (t, stop) := r;
      s.k >= 0 && p.factor >= 0 ==> t.k >= 0
  {
    var it := s.iterations + 1;
    var c := Candidate(s.k, s.m, p.n, p.keepNegative);
    var e := GrainsError(c, s.m, p.n);
    NegativeCandidateHarmless(s.k, s.m, p.n);
    ExactExpansion(s.k, s.m, p.n, p.factor);
    ProductSign(s.k, p.factor);
    var t :=
      if e < s.err then Search(c, s.m, e, s.expansions, it)
      else if s.m >= p.cap then s.(iterations := it)
      else Search(s.k * p.factor, s.m * p.factor, p.factor * p.factor * s.err, s.expansions + 1, it);
    if e >= s.err && s.m >= p.cap then (t, Some(AtCapacity))
    else if t.err == 0 then (t, Some(Exact))
    else (t, None)
  }

  /** `accelerated_sqrtN` from `(INITIAL_K, INITIAL_M)`. */
  method Approximate(p: Params, k0: int, m0: int) returns (s: Search, outcome: Outcome)
    ensures s.err == GrainsError(s.k, s.m, p.n)
    ensures outcome == Exact ==> s.err == 0
    ensures outcome == AtCapacity ==> s.m >= p.cap
    ensures outcome == AtCapacity && k0 >= 0 && p.factor >= 0 ==> HillClimb.LocalMinimum(s.k, s.m, p.n)
    ensures outcome == Exhausted ==> s.iterations >= p.allowed
    ensures s.iterations <= if p.allowed > 0 then p.allowed else 0
    ensures s.expansions <= s.iterations
    ensures s.expansions == 0 ==> s.m == m0 && s.err <= GrainsError(k0, m0, p.n)
    ensures k0 >= 0 && p.factor >= 0 ==> s.k >= 0
  {
    s := Search(k0, m0, GrainsError(k0, m0, p.n), 0, 0);
    while s.iterations < p.allowed
      invariant s.err == GrainsError(s.k, s.m, p.n)
      invariant s.iterations <= if p.allowed > 0 then p.allowed else 0
      invariant s.expansions <= s.iterations
      invariant s.expansions == 0 ==> s.m == m0 && s.err <= GrainsError(k0, m0, p.n)
      invariant k0 >= 0 && p.factor >= 0 ==> s.k >= 0
      decreases p.allowed - s.iterations
    {
      var (t, stop) := Iterate(p, s);
      if stop == Some(AtCapacity) && s.k >= 0 {
        SlopePicksBestStep(s.k, s.m, p.n, p.keepNegative);
      }
      s := t;
      if stop.Some? {
        return s, stop.value;
      }
    }
    return s, Exhausted;
  }
}

=== FILE: numerics.dfy ===
/** The small numerical schemes of the demo scripts, over exact rationals
    (`real` stands for the value of a `Grain`; every `Grain` operation is
    value-exact, see module Grains):
    - the composite trapezoid rule of scripts/grains_mixed_demo.py and
      scripts/grains_unified_demo.py;
    - forward differences of both scripts;
    - the explicit heat step of scripts/grains_mixed_demo.py;
    - the 1D diffusion run of scripts/PDE_1.py. */
module Numerics {
  import opened Wrappers
  import opened RealSums

  // ---------------------------------------------------------------------------
  // Trapezoid rule
  // ---------------------------------------------------------------------------

  /** The `k`-th node, reached from `a` by `k` additions of the step, as
      the scripts' `x = x + h` does. */
  function Node(a: real, h: real, k: nat): real
  {
    if k == 0 then a else Node(a, h, k - 1) + h
  }

  /** Nodes are evenly spaced: the `k`-th lies at `a + k*h`. */
  lemma {:induction false} NodeAt(a: real, h: real, k: nat)
    ensures Node(a, h, k) == a + k as real * h
  {
    if k > 0 {
      NodeAt(a, h, k - 1);
      assert (k - 1) as real * h + h == k as real * h;
    }
  }

  /** The interior nodes' values `f(x_1) + ... + f(x_{k-1})`. */
  function InteriorSum(f: real -> real, a: real, h: real, k: nat): real
  {
    if k <= 1 then 0.0 else InteriorSum(f, a, h, k - 1) + f(Node(a, h, k - 1))
  }

  /** Reference definition: the area of `n` trapezoids of width `h`, one
      panel at a time. */
  function PanelSum(f: real -> real, a: real, h: real, n: nat): real
  {
    if n == 0 then 0.0
    else PanelSum(f, a, h, n - 1) + Panel(h, f(Node(a, h, n - 1)), f(Node(a, h, n)))
  }

  /** One trapezoid of width `h` and heights `y0`, `y1`. */
  function Panel(h: real, y0: real, y1: real): real
  {
    h * (y0 + y1) / 2.0
  }

  /** Summing panels is the endpoint form the scripts use:
      `h/2 * (f(a) + f(b) + 2 * (interior values))`. */
  lemma {:induction false} PanelsAsEndpoints(f: real -> real, a: real, h: real, n: nat)
    requires n >= 1
    ensures PanelSum(f, a, h, n) == h / 2.0 * (f(a) + f(Node(a, h, n)) + 2.0 * InteriorSum(f, a, h, n))
  {
    var fp, fn := f(Node(a, h, n - 1)), f(Node(a, h, n));
    if n == 1 {
      assert PanelSum(f, a, h, 1) == Panel(h, fp, fn);
    } else {
      PanelsAsEndpoints(f, a, h, n - 1);
      var fa, i, p := f(a), InteriorSum(f, a, h, n - 1), PanelSum(f, a, h, n - 1);
      assert InteriorSum(f, a, h, n) == i + fp;
      assert PanelSum(f, a, h, n) == p + Panel(h, fp, fn);
      HalfProduct(h, fa + fp + 2.0 * i, fp + fn);
    }
  }

  lemma HalfProduct(h: real, x: real, y: real)
    ensures h / 2.0 * x + Panel(h, y, 0.0) == h / 2.0 * (x + y)
  {
  }

  /** The trapezoid rule is exact on straight lines: the panels of
      `c*x + d` from `a` to `b` add up to `c*(b^2 - a^2)/2 + d*(b - a)`. */
  lemma {:induction false} PanelsExactOnLines(c: real, d: real, a: real, h: real, n: nat)
    ensures PanelSum(x => c * x + d, a, h, n) == Antiderivative(c, d, Node(a, h, n)) - Antiderivative(c, d, a)
    decreases n
  {
    if n > 0 {
      var f, x := (x: real) => c * x + d, Node(a, h, n - 1);
      PanelsExactOnLines(c, d, a, h, n - 1);
      assert Node(a, h, n) == x + h;
      assert f(x) == c * x + d && f(x + h) == c * (x + h) + d;
      assert PanelSum(f, a, h, n) == PanelSum(f, a, h, n - 1) + Panel(h, c * x + d, c * (x + h) + d);
      LinePanel(c, d, x, h);
      Telescope(PanelSum(f, a, h, n - 1), Panel(h, c * x + d, c * (x + h) + d),
                Antiderivative(c, d, a), Antiderivative(c, d, x), Antiderivative(c, d, x + h));
    }
  }

  /** Two adjacent differences add up to the difference across both. */
  lemma Telescope(p: real, q: real, s0: real, s1: real, s2: real)
    requires p == s1 - s0 && q == s2 - s1
    ensures p + q == s2 - s0
  {
  }

  function Antiderivative(c: real, d: real, x: real): real
  {
    c * x * x / 2.0 + d * x
  }

  /** One panel of a line is its exact area. */
  lemma LinePanel(c: real, d: real, x: real, h: real)
    ensures Panel(h, c * x + d, c * (x + h) + d) == Antiderivative(c, d, x + h) - Antiderivative(c, d, x)
  {
    assert (x + h) * (x + h) - x * x == h * (2.0 * x + h);
    assert c * (x + h) * (x + h) == c * ((x + h) * (x + h));
    assert c * x * x == c * (x * x);
  }

  /** `trapezoidal_integration` (scripts/grains_unified_demo.py): step
      `h = (end - start) / num_steps`, endpoint values, interior values
      doubled, all scaled by `h/2`. `Grain(0)` as divisor raises. With a
      positive count the result is the sum of the panels, whose last node
      is `end`. */
  method Trapezoid(f: real -> real, a: real, b: real, n: int) returns (r: Result<real>)
    ensures r.Err? <==> n == 0
    ensures r.Err? ==> r.error == ZeroDivisionError
    ensures r.Ok? && n > 0 ==> r.value == PanelSum(f, a, (b - a) / n as real, n)
    ensures r.Ok? && n > 0 ==> Node(a, (b - a) / n as real, n) == b
    ensures r.Ok? && n < 0 ==> r.value == (b - a) / n as real / 2.0 * (f(a) + f(b))
  {
    if n == 0 {
      return Err(ZeroDivisionError);
    }
    var h := (b - a) / n as real;
    var total := f(a) + f(b);
    var x := a;
    var i := 1;
    while i < n
      invariant 1 <= i && (n > 0 ==> i <= n) && (n < 0 ==> i == 1)
      invariant x == Node(a, h, i - 1)
      invariant total == f(a) + f(b) + 2.0 * InteriorSum(f, a, h, i)
    {
      x := x + h;
      total := total + 2.0 * f(x);
      i := i + 1;
    }
    if n > 0 {
      LastNode(a, b, n);
      PanelsAsEndpoints(f, a, h, n);
    }
    r := Ok(h / 2.0 * total);
  }

  /** `n` steps of width `(b - a)/n` lead from `a` exactly to `b`. */
  lemma LastNode(a: real, b: real, n: nat)
    requires n > 0
    ensures Node(a, (b - a) / n as real, n) == b
  {
    var h := (b - a) / n as real;
    NodeAt(a, h, n);
    assert n as real * h == b - a;
  }

  /** `grains_trap_func` of scripts/grains_mixed_demo.py. */
  function SquarePlusOne(x: real): real
  {
    x * x + 1.0
  }

  /** `grains_trapezoid_integration` (scripts/grains_mixed_demo.py): the same
      rule for `x^2 + 1`, refusing a reversed interval first. Since the
      integrand is at least 1, the area is at least the interval's length. */
  method TrapezoidSquarePlusOne(a: real, b: real, n: int) returns (r: Result<real>)
    ensures r.Err? <==> b < a || n == 0
    ensures b < a ==> r == Err(ValueError)
    ensures a <= b && n == 0 ==> r == Err(ZeroDivisionError)
    ensures r.Ok? && n > 0 ==> r.value == PanelSum(SquarePlusOne, a, (b - a) / n as real, n)
    ensures r.Ok? && n > 0 ==> r.value >= b - a
  {
    if b < a {
      return Err(ValueError);
    }
    r := Trapezoid(SquarePlusOne, a, b, n);
    if n > 0 && r.Ok? {
      WidthNonNegative(b - a, n as real);
      AreaAtLeastLength(a, b, (b - a) / n as real, n, r.value);
    }
  }

  lemma WidthNonNegative(len: real, n: real)
    requires len >= 0.0 && n > 0.0
    ensures len / n >= 0.0
  {
  }

  /** `x^2 + 1` never drops below 1. */
  lemma AtLeastOne()
    ensures forall x :: SquarePlusOne(x) >= 1.0
  {
    forall x
      ensures SquarePlusOne(x) >= 1.0
    {
      if x < 0.0 {
        assert x * x == (-x) * (-x);
      }
    }
  }

  /** Panels of `x^2 + 1` that end at `b` cover at least `b - a`. */
  lemma AreaAtLeastLength(a: real, b: real, h: real, n: nat, area: real)
    requires h >= 0.0 && area == PanelSum(SquarePlusOne, a, h, n) && Node(a, h, n) == b
    ensures area >= b - a
  {
    AtLeastOne();
    PanelsAtLeast(SquarePlusOne, 1.0, a, h, n);
  }

  /** Panels of a function bounded below by `m`, with width `h >= 0`, add
      up to at least `m` times the distance covered. */
  lemma {:induction false} PanelsAtLeast(f: real -> real, m: real, a: real, h: real, n: nat)
    requires h >= 0.0
    requires forall x :: f(x) >= m
    ensures PanelSum(f, a, h, n) >= m * (Node(a, h, n) - a)
  {
    if n > 0 {
      PanelsAtLeast(f, m, a, h, n - 1);
      var x := Node(a, h, n - 1);
      PanelAtLeast(h, f(x), f(x + h), m);
      assert m * (x + h - a) == m * (x - a) + m * h;
    }
  }

  lemma PanelAtLeast(h: real, y0: real, y1: real, m: real)
    requires h >= 0.0 && y0 >= m && y1 >= m
    ensures Panel(h, y0, y1) >= m * h
  {
    assert h * (y0 + y1) >= h * (2.0 * m);
  }

  // ---------------------------------------------------------------------------
  // Forward differences
  // ---------------------------------------------------------------------------

  /** `grains_forward_diff` (mixed) and `grains_forward_difference` (unified):
      `(y[i+1] - y[i]) / dx` for each consecutive pair; the division raises
      only when there is a pair to divide. */
  method ForwardDiff(y: seq<real>, dx: real) returns (r: Result<seq<real>>)
    ensures r.Err? <==> dx == 0.0 && |y| >= 2
    ensures r.Err? ==> r.error == ZeroDivisionError
    ensures r.Ok? ==> |r.value| == if |y| == 0 then 0 else |y| - 1
    ensures r.Ok? ==> forall i :: 0 <= i < |r.value| ==> r.value[i] * dx == y[i + 1] - y[i]
  {
    var d: seq<real> := [];
    var i := 0;
    while i < |y| - 1
      invariant 0 <= i && (i == 0 || i < |y|)
      invariant i > 0 ==> dx != 0.0
      invariant DifferencesUpTo(d, y, dx, i)
    {
      if dx == 0.0 {
        return Err(ZeroDivisionError);
      }
      var q := (y[i + 1] - y[i]) / dx;
      DivideBack(y[i + 1] - y[i], dx);
      DifferenceStep(d, y, dx, i, q);
      d := d + [q];
      i := i + 1;
    }
    return Ok(d);
  }

  lemma DivideBack(a: real, dx: real)
    requires dx != 0.0
    ensures (a / dx) * dx == a
  {
  }

  /** `d` holds the first `i` differences, each times `dx` giving its gap. */
  ghost predicate DifferencesUpTo(d: seq<real>, y: seq<real>, dx: real, i: nat)
  {
    |d| == i && i <= |y| &&
    forall k :: 0 <= k < i && k + 1 < |y| ==> d[k] * dx == y[k + 1] - y[k]
  }

  lemma DifferenceStep(d: seq<real>, y: seq<real>, dx: real, i: nat, q: real)
    requires DifferencesUpTo(d, y, dx, i) && i + 1 < |y|
    requires q * dx == y[i + 1] - y[i]
    ensures DifferencesUpTo(d + [q], y, dx, i + 1)
  {
    assert forall k :: 0 <= k < i ==> (d + [q])[k] == d[k];
  }

  /** Consecutive gaps `y[i+1] - y[i]`. */
  function Gaps(y: seq<real>): (g: seq<real>)
    requires |y| >= 1
    ensures |g| == |y| - 1
  {
    seq(|y| - 1, i requires 0 <= i < |y| - 1 => y[i + 1] - y[i])
  }

  lemma {:induction false} GapsTelescope(y: seq<real>)
    requires |y| >= 1
    ensures Sum(Gaps(y)) == y[|y| - 1] - y[0]
    decreases |y|
  {
    if |y| > 1 {
      var y' := y[..|y| - 1];
      assert Gaps(y)[..|y| - 2] == Gaps(y');
      GapsTelescope(y');
    }
  }

  /** Scaling every entry scales the sum. */
  lemma {:induction false} ScaledSum(d: seq<real>, g: seq<real>, c: real)
    requires |d| == |g|
    requires forall i :: 0 <= i < |d| ==> d[i] * c == g[i]
    ensures Sum(d) * c == Sum(g)
    decreases |d|
  {
    if |d| > 0 {
      var k := |d| - 1;
      ScaledSum(d[..k], g[..k], c);
      TelescopeStep(Sum(d[..k]), d[k], c, Sum(g[..k]), g[k]);
    }
  }

  lemma TelescopeStep(s: real, t: real, c: real, u: real, v: real)
    requires s * c == u && t * c == v
    ensures (s + t) * c == u + v
  {
  }

  /** Discrete fundamental theorem: the differences times `dx` telescope to
      the total change `y[last] - y[0]`. */
  lemma DifferencesTelescope(y: seq<real>, d: seq<real>, dx: real)
    requires |y| >= 1 && |d| == |y| - 1
    requires forall i :: 0 <= i < |d| ==> d[i] * dx == y[i + 1] - y[i]
    ensures Sum(d) * dx == y[|y| - 1] - y[0]
  {
    ScaledSum(d, Gaps(y), dx);
    GapsTelescope(y);
  }

  // ---------------------------------------------------------------------------
  // Explicit heat / diffusion step
  // ---------------------------------------------------------------------------

  /** Discrete second difference at an interior cell. */
  function Laplacian(u: seq<real>, i: int): real
    requires 0 < i < |u| - 1
  {
    u[i + 1] - 2.0 * u[i] + u[i - 1]
  }

  /** Reference definition of one explicit step with coefficient `alpha`:
      interior cells move by `alpha` times their second difference, both
      end cells are pinned to zero. */
  function Relaxed(u: seq<real>, alpha: real): seq<real>
    requires |u| >= 1
  {
    seq(|u|, i requires 0 <= i < |u| =>
      if i == 0 || i == |u| - 1 then 0.0 else Moved(u, alpha, i))
  }

  /** An interior cell after the step. */
  function Moved(u: seq<real>, alpha: real, i: int): real
    requires 0 < i < |u| - 1
  {
    u[i] + alpha * Laplacian(u, i)
  }

  /** `grains_heat_step` (scripts/grains_mixed_demo.py): interior values read
      from the old array only, then `next_u[0]` and `next_u[-1]` set to zero;
      both assignments raise IndexError on an empty list. */
  method HeatStep(u: seq<real>, alpha: real) returns (r: Result<seq<real>>)
    ensures r.Err? <==> |u| == 0
    ensures r.Err? ==> r.error == IndexError
    ensures r.Ok? ==> |u| >= 1 && r.value == Relaxed(u, alpha)
  {
    if |u| == 0 {
      return Err(IndexError);
    }
    var next := u;
    var i := 1;
    while i < |u| - 1
      invariant 1 <= i && (|u| >= 2 ==> i <= |u| - 1)
      invariant |next| == |u|
      invariant forall j :: 0 <= j < |u| ==>
        next[j] == if 0 < j < i && j < |u| - 1 then Moved(u, alpha, j) else u[j]
    {
      next := next[i := Moved(u, alpha, i)];
      i := i + 1;
    }
    next := next[0 := 0.0];
    next := next[|next| - 1 := 0.0];
    assert forall j :: 0 <= j < |u| ==> next[j] == Relaxed(u, alpha)[j];
    return Ok(next);
  }

  /** All values lie in `[lo, hi]`. */
  predicate Within(u: seq<real>, lo: real, hi: real)
  {
    forall i :: 0 <= i < |u| ==> lo <= u[i] <= hi
  }

  /** Discrete maximum principle: with `0 <= alpha <= 1/2` each interior
      value becomes a convex combination of itself and its neighbours, and
      the pinned ends are zero, so any band around zero is kept. */
  lemma RelaxedWithin(u: seq<real>, alpha: real, lo: real, hi: real)
    requires |u| >= 1 && 0.0 <= alpha <= 0.5 && lo <= 0.0 <= hi
    requires Within(u, lo, hi)
    ensures Within(Relaxed(u, alpha), lo, hi)
  {
    forall i | 0 < i < |u| - 1
      ensures lo <= Relaxed(u, alpha)[i] <= hi
    {
      ConvexStep(alpha, u[i - 1], u[i], u[i + 1], lo, hi);
    }
  }

  lemma ConvexStep(alpha: real, x: real, y: real, z: real, lo: real, hi: real)
    requires 0.0 <= alpha <= 0.5
    requires lo <= x <= hi && lo <= y <= hi && lo <= z <= hi
    ensures lo <= y + alpha * (z - 2.0 * y + x) <= hi
  {
    var v := y + alpha * (z - 2.0 * y + x);
    assert v - lo == alpha * (x - lo) + (1.0 - 2.0 * alpha) * (y - lo) + alpha * (z - lo);
    assert hi - v == alpha * (hi - x) + (1.0 - 2.0 * alpha) * (hi - y) + alpha * (hi - z);
    NonNegativeProduct(alpha, x - lo);
    NonNegativeProduct(1.0 - 2.0 * alpha, y - lo);
    NonNegativeProduct(alpha, z - lo);
    NonNegativeProduct(alpha, hi - x);
    NonNegativeProduct(1.0 - 2.0 * alpha, hi - y);
    NonNegativeProduct(alpha, hi - z);
  }

  lemma NonNegativeProduct(p: real, q: real)
    requires p >= 0.0 && q >= 0.0
    ensures p * q >= 0.0
  {
  }

  /** `k` explicit steps in a row. */
  function Steps(u: seq<real>, alpha: real, k: nat): (v: seq<real>)
    requires |u| >= 1
    ensures |v| == |u|
  {
    if k == 0 then u else Relaxed(Steps(u, alpha, k - 1), alpha)
  }

  lemma {:induction false} StepsWithin(u: seq<real>, alpha: real, lo: real, hi: real, k: nat)
    requires |u| >= 1 && 0.0 <= alpha <= 0.5 && lo <= 0.0 <= hi
    requires Within(u, lo, hi)
    ensures Within(Steps(u, alpha, k), lo, hi)
  {
    if k > 0 {
      StepsWithin(u, alpha, lo, hi, k - 1);
      RelaxedWithin(Steps(u, alpha, k - 1), alpha, lo, hi);
    }
  }

  /** The time loop: `n_steps` copies of the step, none for `n_steps <= 0`. */
  method Evolve(u: seq<real>, alpha: real, nSteps: int) returns (v: seq<real>)
    requires |u| >= 1
    ensures v == Steps(u, alpha, if nSteps < 0 then 0 else nSteps)
  {
    v := u;
    var k := 0;
    while k < nSteps
      invariant 0 <= k && (nSteps >= 0 ==> k <= nSteps) && (nSteps < 0 ==> k == 0)
      invariant v == Steps(u, alpha, k)
    {
      var s := HeatStep(v, alpha);
      assert s.value == Steps(u, alpha, k + 1);
      v := s.value;
      k := k + 1;
    }
  }

  // ---------------------------------------------------------------------------
  // 1D diffusion (scripts/PDE_1.py)
  // ---------------------------------------------------------------------------

  /** Cell `i` of `n` on `[0, 1]` has its centre at `(i + 1/2)/n`. */
  predicate CellCenters(n: nat, xs: seq<real>)
    requires n > 0
  {
    |xs| == n && forall i :: 0 <= i < n ==> xs[i] == (2 * i + 1) as real / (2 * n) as real
  }

  /** Initial profile: zero except `Grain(10)` in cell `n // 2`. */
  function Initial(n: nat): (u: seq<real>)
    requires n > 0
    ensures |u| == n && Within(u, 0.0, 10.0)
  {
    seq(n, i => if i == n / 2 then 10.0 else 0.0)
  }

  /** `D * (dt / (dx * dx))` with `dx = 1/n`. */
  function Factor(d: real, dt: real, n: nat): real
  {
    d * dt * (n * n) as real
  }

  /** Cell centres and initial profile. `Grain(1, 0)` raises ValueError; a
      negative count gives an empty list, and `u[n_cells // 2] = ...` then
      raises IndexError. */
  method DiffusionSetup(nCells: int, d: real, dt: real) returns (r: Result<(seq<real>, seq<real>, real)>)
    ensures r.Err? <==> nCells <= 0
    ensures nCells == 0 ==> r == Err(ValueError)
    ensures nCells < 0 ==> r == Err(IndexError)
    ensures r.Ok? ==> nCells > 0 && CellCenters(nCells, r.value.0)
    ensures r.Ok? ==> r.value.1 == Initial(nCells) && r.value.2 == Factor(d, dt, nCells)
  {
    if nCells == 0 {
      return Err(ValueError);
    }
    if nCells < 0 {
      return Err(IndexError);
    }
    var n := nCells as real;
    var dx := 1.0 / n;
    var xs: seq<real> := [];
    var i := 0;
    while i < nCells
      invariant 0 <= i <= nCells && |xs| == i
      invariant forall k :: 0 <= k < i ==> xs[k] == (2 * k + 1) as real / (2 * nCells) as real
    {
      CenterValue(i, nCells);
      xs := xs + [(i as real + 0.5) / n];
      i := i + 1;
    }
    FactorValue(d, dt, nCells);
    return Ok((xs, Initial(nCells), d * (dt / (dx * dx))));
  }

  lemma CenterValue(i: nat, n: nat)
    requires n > 0
    ensures (i as real + 0.5) / n as real == (2 * i + 1) as real / (2 * n) as real
  {
    var x := (i as real + 0.5) / n as real;
    assert x * n as real == i as real + 0.5;
    assert x * (2 * n) as real == (2 * i + 1) as real;
  }

  lemma FactorValue(d: real, dt: real, n: nat)
    requires n > 0
    ensures d * (dt / ((1.0 / n as real) * (1.0 / n as real))) == Factor(d, dt, n)
  {
    var m := n as real;
    var sq := (1.0 / m) * (1.0 / m);
    assert sq * (m * m) == 1.0;
    assert dt / sq == dt * (m * m);
    assert (n * n) as real == m * m;
  }

  /** `grains_diffusion_1D` as written: the interior update is
      `u[i] - factor * laplacian`, that is, a step with coefficient
      `-factor`. */
  method Diffusion1DAsWritten(nCells: int, d: real, dt: real, nSteps: int)
    returns (r: Result<(seq<real>, seq<real>)>)
    ensures r.Err? <==> nCells <= 0
    ensures nCells == 0 ==> r == Err(ValueError)
    ensures nCells < 0 ==> r == Err(IndexError)
    ensures r.Ok? ==> nCells > 0 && CellCenters(nCells, r.value.0)
    ensures r.Ok? ==>
      nCells > 0 && r.value.1 == Steps(Initial(nCells), -Factor(d, dt, nCells), if nSteps < 0 then 0 else nSteps)
  {
    var setup :- DiffusionSetup(nCells, d, dt);
    var u := Evolve(setup.1, -setup.2, nSteps);
    return Ok((setup.0, u));
  }

  /** The as-written step amplifies the initial spike: three cells, `D = 1`,
      `dt = 1/36` (factor `1/4`, inside the stable range of the heat
      equation) take the middle value from 10 to 15, outside the band
      `[0, 10]` of the data. */
  lemma AntiDiffusionGrows()
    ensures Factor(1.0, 1.0 / 36.0, 3) == 0.25
    ensures Initial(3) == [0.0, 10.0, 0.0]
    ensures Steps(Initial(3), -Factor(1.0, 1.0 / 36.0, 3), 1) == [0.0, 15.0, 0.0]
    ensures !Within(Steps(Initial(3), -Factor(1.0, 1.0 / 36.0, 3), 1), 0.0, 10.0)
  {
    var u := Initial(3);
    assert u == [0.0, 10.0, 0.0];
    var v := Relaxed(u, -0.25);
    assert v[1] == 10.0 + -0.25 * (0.0 - 2.0 * 10.0 + 0.0) == 15.0;
    assert v == [0.0, 15.0, 0.0];
    assert Steps(u, -0.25, 1) == Relaxed(Steps(u, -0.25, 0), -0.25) == v;
  }

  /** `grains_diffusion_1D` with the sign the equation `u_t = D u_xx` calls
      for (the update of `grains_heat_step`): when the factor lies in
      `[0, 1/2]` every value stays within the initial band `[0, 10]`. */
  method Diffusion1D(nCells: int, d: real, dt: real, nSteps: int)
    returns (r: Result<(seq<real>, seq<real>)>)
    ensures r.Err? <==> nCells <= 0
    ensures nCells == 0 ==> r == Err(ValueError)
    ensures nCells < 0 ==> r == Err(IndexError)
    ensures r.Ok? ==> nCells > 0 && CellCenters(nCells, r.value.0)
    ensures r.Ok? ==>
      nCells > 0 && r.value.1 == Steps(Initial(nCells), Factor(d, dt, nCells), if nSteps < 0 then 0 else nSteps)
    ensures r.Ok? && 0.0 <= Factor(d, dt, nCells) <= 0.5 ==> Within(r.value.1, 0.0, 10.0)
  {
    var setup :- DiffusionSetup(nCells, d, dt);
    var u := Evolve(setup.1, setup.2, nSteps);
    if 0.0 <= setup.2 <= 0.5 {
      StepsWithin(setup.1, setup.2, 0.0, 10.0, if nSteps < 0 then 0 else nSteps);
    }
    return Ok((setup.0, u));
  }
}

=== FILE: pagerank.dfy ===
/** Grains-coded PageRank (scripts/page_rank_fin.py): every node spreads a
    fixed number of grains over its outlinks, the random walk follows an
    outlink by a grains-coded draw, and the visit counts are normalised to
    exact fractions. A row `{outnode: grains}` is kept as a sequence of
    pairs in the dictionary's insertion order. */
module PageRank {
  import opened Wrappers
  import opened IntMath
  import opened RealSums
  import opened Cumulative

  type Row = seq<(string, int)>

  function Keys(row: Row): (k: seq<string>)
    ensures |k| == |row| && forall i :: 0 <= i < |row| ==> k[i] == row[i].0
  {
    seq(|row|, i requires 0 <= i < |row| => row[i].0)
  }

  function Weights(row: Row): (w: seq<int>)
    ensures |w| == |row| && forall i :: 0 <= i < |row| ==> w[i] == row[i].1
  {
    seq(|row|, i requires 0 <= i < |row| => row[i].1)
  }

  predicate Distinct(s: seq<string>)
  {
    forall i, j :: 0 <= i < j < |s| ==> s[i] != s[j]
  }

  /** The keys of a dictionary filled from `s` in order: each element once,
      at its first occurrence. */
  function Dedup(s: seq<string>): (d: seq<string>)
    ensures Distinct(d)
    ensures forall x :: x in d <==> x in s
    ensures |d| <= |s|
    ensures |s| > 0 ==> |d| > 0 && d[0] == s[0]
    ensures Distinct(s) ==> d == s
  {
    if |s| == 0 then []
    else
      var init := s[..|s| - 1];
      assert s == init + [s[|s| - 1]];
      var d := Dedup(init);
      if s[|s| - 1] in d then d else d + [s[|s| - 1]]
  }

  /** `max(1, capacity // len(outlinks))`. */
  function Share(capacity: int, n: int): (each: int)
    requires n > 0
    ensures each >= 1
    ensures capacity >= n ==> each == capacity / n
    ensures capacity < n ==> each == 1
  {
    if capacity / n > 1 then capacity / n else 1
  }

  /** The grains a row assigns beyond `each` per outlink. */
  function Leftover(capacity: int, n: int): int
    requires n > 0
  {
    capacity - Share(capacity, n) * n
  }

  /** One node's row of `build_grains_transition`: all grains on a self-loop
      when there are no outlinks; otherwise `each` grains per distinct
      outlink, the first also taking any positive leftover. */
  function BuildRow(node: string, outlinks: seq<string>, capacity: int): (row: Row)
    ensures |outlinks| == 0 ==> row == [(node, capacity)]
    ensures |outlinks| > 0 ==> Distinct(Keys(row)) && forall x :: x in Keys(row) <==> x in outlinks
    ensures |outlinks| > 0 ==> |row| > 0 && row[0].0 == outlinks[0]
    ensures |outlinks| > 0 ==> forall i :: 0 < i < |row| ==> row[i].1 == Share(capacity, |outlinks|)
    ensures |outlinks| > 0 ==> row[0].1 == Share(capacity, |outlinks|) + Max(Leftover(capacity, |outlinks|), 0)
  {
    if |outlinks| == 0 then [(node, capacity)]
    else
      var each := Share(capacity, |outlinks|);
      var leftover := Leftover(capacity, |outlinks|);
      var extra := Max(leftover, 0);
      RowOf(Dedup(outlinks), each + extra, each)
  }

  function Max(a: int, b: int): int
  {
    if a < b then b else a
  }

  lemma {:induction false} SumConstant(n: nat, c: int)
    ensures SumInts(seq(n, i => c)) == n * c
  {
    if n > 0 {
      assert seq(n, i => c)[..n - 1] == seq(n - 1, i => c);
      SumConstant(n - 1, c);
    }
  }

  /** The row over `keys` whose first entry holds `first` grains and
      every other entry `each`. */
  function RowOf(keys: seq<string>, first: int, each: int): (row: Row)
    ensures Keys(row) == keys
    ensures forall i :: 0 < i < |row| ==> row[i].1 == each
    ensures |row| > 0 ==> row[0].1 == first
  {
    seq(|keys|, i requires 0 <= i < |keys| => (keys[i], if i == 0 then first else each))
  }

  /** Such a row holds `first` plus `each` for every other key. */
  lemma RowOfTotal(keys: seq<string>, each: int, extra: int)
    requires |keys| > 0
    ensures SumInts(Weights(RowOf(keys, each + extra, each))) == |keys| * each + extra
    ensures each >= 1 && extra >= 0 ==> NonNegative(Weights(RowOf(keys, each + extra, each)))
    ensures each >= 1 && extra >= 0 ==> SumInts(Weights(RowOf(keys, each + extra, each))) > 0
  {
    var k := |keys|;
    var w := Weights(RowOf(keys, each + extra, each));
    var flat := seq(k, i => each);
    assert w == flat[0 := each + extra];
    SumConstant(k, each);
    SumIntsUpdate(flat, 0, each + extra);
    assert k * each == each * k;
    if each >= 1 {
      MulMonotone(each, 1, k);
    }
  }

  /** `n` outlinks at `each` grains plus the positive leftover make up the
      capacity when it covers one grain per outlink, and `n` otherwise. */
  lemma ShareCovers(capacity: int, n: int)
    requires n > 0
    ensures n * Share(capacity, n) + Max(Leftover(capacity, n), 0) == Max(capacity, n)
  {
    var each := Share(capacity, n);
    if capacity >= n {
      assert capacity == each * n + capacity % n;
      assert each * n == n * each;
    } else {
      assert each == 1;
    }
  }

  lemma BuildRowShape(node: string, outlinks: seq<string>, capacity: int)
    requires |outlinks| > 0
    ensures var each := Share(capacity, |outlinks|);
      BuildRow(node, outlinks, capacity) == RowOf(Dedup(outlinks), each + Max(Leftover(capacity, |outlinks|), 0), each)
  {
  }

  /** Every weight of a row with outlinks is positive, and the row holds
      `each` grains per distinct outlink plus the positive leftover. */
  lemma RowTotal(node: string, outlinks: seq<string>, capacity: int)
    requires |outlinks| > 0
    ensures NonNegative(Weights(BuildRow(node, outlinks, capacity)))
    ensures forall i :: 0 <= i < |BuildRow(node, outlinks, capacity)| ==> BuildRow(node, outlinks, capacity)[i].1 >= 1
    ensures SumInts(Weights(BuildRow(node, outlinks, capacity)))
        == |Dedup(outlinks)| * Share(capacity, |outlinks|) + Max(Leftover(capacity, |outlinks|), 0)
    ensures SumInts(Weights(BuildRow(node, outlinks, capacity))) > 0
  {
    var n := |outlinks|;
    BuildRowShape(node, outlinks, capacity);
    RowOfTotal(Dedup(outlinks), Share(capacity, n), Max(Leftover(capacity, n), 0));
  }

  /** With distinct outlinks a row holds exactly the capacity when there
      are at most `capacity` outlinks, and one grain per outlink otherwise. */
  lemma RowTotalDistinct(node: string, outlinks: seq<string>, capacity: int)
    requires |outlinks| > 0 && Distinct(outlinks)
    ensures SumInts(Weights(BuildRow(node, outlinks, capacity))) == Max(capacity, |outlinks|)
  {
    RowTotal(node, outlinks, capacity);
    ShareCovers(capacity, |outlinks|);
  }

  /** `build_grains_transition` over the graph's `(node, outlinks)` items. */
  function BuildTransition(graph: seq<(string, seq<string>)>, capacity: int): (t: seq<(string, Row)>)
    ensures |t| == |graph|
    ensures forall i :: 0 <= i < |t| ==> t[i].0 == graph[i].0 && t[i].1 == BuildRow(graph[i].0, graph[i].1, capacity)
  {
    seq(|graph|, i requires 0 <= i < |graph| => (graph[i].0, BuildRow(graph[i].0, graph[i].1, capacity)))
  }

  /** Every outlink names a node of the graph. */
  predicate Closed(graph: seq<(string, seq<string>)>)
  {
    forall i, x :: 0 <= i < |graph| && x in graph[i].1 ==> exists j :: 0 <= j < |graph| && graph[j].0 == x
  }

  /** In a closed graph every row only names nodes of the graph. */
  lemma RowsStayInGraph(graph: seq<(string, seq<string>)>, capacity: int, i: nat, x: string)
    requires Closed(graph) && i < |graph|
    requires x in Keys(BuildTransition(graph, capacity)[i].1)
    ensures exists j :: 0 <= j < |graph| && graph[j].0 == x
  {
    if |graph[i].1| == 0 {
      assert Keys([(graph[i].0, capacity)]) == [graph[i].0];
    }
  }

  /** `grains_draw_next_node` with `random.randint(0, total - 1)` as `draw`
      and `random.choice` as the index `choice`: a zero total picks a key
      (IndexError when there is none), a negative total makes the draw's
      range empty (ValueError), and otherwise the first key whose running
      total exceeds the draw is returned, `None` if there is none. */
  function DrawNext(row: Row, draw: int, choice: int): (r: Result<Option<string>>)
    requires SumInts(Weights(row)) > 0 ==> 0 <= draw < SumInts(Weights(row))
    requires SumInts(Weights(row)) == 0 && |row| > 0 ==> 0 <= choice < |row|
    ensures r.Err? <==> SumInts(Weights(row)) < 0 || (SumInts(Weights(row)) == 0 && |row| == 0)
    ensures r.Err? ==> r.error == (if SumInts(Weights(row)) < 0 then ValueError else IndexError)
    ensures SumInts(Weights(row)) == 0 && |row| > 0 ==> r == Ok(Some(row[choice].0))
    ensures r.Ok? && r.value.Some? ==> r.value.value in Keys(row)
  {
    var total := SumInts(Weights(row));
    if total == 0 then
      if |row| == 0 then Err(IndexError) else Ok(Some(row[choice].0))
    else if total < 0 then Err(ValueError)
    else
      match FirstAbove(Running(Weights(row)), draw)
      case None => Ok(None)
      case Some(i) => Ok(Some(row[i].0))
  }

  /** With non-negative weights and distinct keys, key `i` is drawn by
      exactly the draws in its slot, whose width is its grains count, and
      the fall-through `None` never happens. */
  lemma DrawFollowsSlot(row: Row, draw: int, choice: int, i: nat)
    requires NonNegative(Weights(row)) && Distinct(Keys(row))
    requires 0 <= draw < SumInts(Weights(row)) && i < |row|
    ensures DrawNext(row, draw, choice) == Ok(Some(row[i].0))
        <==> SumInts(Weights(row)[..i]) <= draw < SumInts(Weights(row)[..i + 1])
    ensures DrawNext(row, draw, choice).Ok? && DrawNext(row, draw, choice).value.Some?
    ensures SumInts(Weights(row)[..i + 1]) - SumInts(Weights(row)[..i]) == row[i].1
  {
    SlotOfDraw(Weights(row), draw, i);
    DrawLands(Weights(row), draw);
    var k := FirstAbove(Running(Weights(row)), draw).value;
    SlotOfDraw(Weights(row), draw, k);
    if DrawNext(row, draw, choice) == Ok(Some(row[i].0)) {
      assert row[k].0 == row[i].0;
      assert Keys(row)[k] == Keys(row)[i];
    }
  }

  /** A draw on a built row follows an outlink of the node, or stays at a
      node without outlinks; only a dangling node with a negative capacity
      fails. */
  lemma DrawFollowsLinks(node: string, outlinks: seq<string>, capacity: int, row: Row, draw: int, choice: int)
    requires row == BuildRow(node, outlinks, capacity)
    requires SumInts(Weights(row)) > 0 ==> 0 <= draw < SumInts(Weights(row))
    requires SumInts(Weights(row)) == 0 ==> choice == 0
    ensures var r := DrawNext(row, draw, choice);
      && (r.Err? <==> |outlinks| == 0 && capacity < 0)
      && (r.Ok? ==> r.value.Some?)
      && (r.Ok? && |outlinks| > 0 ==> r.value.value in outlinks)
      && (r.Ok? && |outlinks| == 0 ==> r.value.value == node)
  {
    if |outlinks| > 0 {
      RowTotal(node, outlinks, capacity);
      DrawFollowsSlot(row, draw, choice, 0);
    } else {
      DanglingRow(node, capacity);
    }
  }

  /** The row of a node without outlinks weighs its whole capacity. */
  lemma DanglingRow(node: string, capacity: int)
    ensures SumInts(Weights([(node, capacity)])) == capacity
    ensures capacity > 0 ==> Running(Weights([(node, capacity)])) == [capacity]
  {
    var w := Weights([(node, capacity)]);
    assert w == [capacity];
    assert SumInts([capacity]) == SumInts([capacity][..0]) + capacity;
    if capacity > 0 {
      assert Running([capacity]) == [capacity];
    }
  }

  /** Occurrences of `x` in the walk. */
  function Count(walk: seq<string>, x: string): (c: nat)
    ensures c <= |walk|
    ensures c > 0 <==> x in walk
  {
    if |walk| == 0 then 0
    else Count(walk[..|walk| - 1], x) + (if walk[|walk| - 1] == x then 1 else 0)
  }

  /** `visit_count`, in the order of the graph's nodes. */
  function VisitCounts(nodes: seq<string>, walk: seq<string>): (c: seq<int>)
    ensures |c| == |nodes| && forall i :: 0 <= i < |nodes| ==> c[i] == Count(walk, nodes[i])
  {
    seq(|nodes|, i requires 0 <= i < |nodes| => Count(walk, nodes[i]))
  }

  /** A walk that stays on distinct nodes has as many visits in total as
      steps. */
  lemma {:induction false} VisitsAddUp(nodes: seq<string>, walk: seq<string>)
    requires Distinct(nodes) && forall k :: 0 <= k < |walk| ==> walk[k] in nodes
    ensures SumInts(VisitCounts(nodes, walk)) == |walk|
    decreases |walk|
  {
    if |walk| == 0 {
      assert VisitCounts(nodes, walk) == seq(|nodes|, i => 0);
      SumConstant(|nodes|, 0);
    } else {
      var init, last := walk[..|walk| - 1], walk[|walk| - 1];
      VisitsAddUp(nodes, init);
      var j :| 0 <= j < |nodes| && nodes[j] == last;
      var before := VisitCounts(nodes, init);
      assert VisitCounts(nodes, walk) == before[j := before[j] + 1];
      SumIntsUpdate(before, j, before[j] + 1);
    }
  }

  /** The PageRank step: `Fraction(visit_count[n], total_visits)` for every
      node, which divides by zero when there are nodes but no visits. */
  function Normalize(counts: seq<int>): (r: Result<seq<real>>)
    ensures r.Err? <==> |counts| > 0 && SumInts(counts) == 0
    ensures r.Err? ==> r.error == ZeroDivisionError
    ensures r.Ok? ==> |r.value| == |counts|
    ensures r.Ok? ==> forall i :: 0 <= i < |counts| ==> r.value[i] == counts[i] as real / SumInts(counts) as real
  {
    var total := SumInts(counts);
    if |counts| == 0 then Ok([])
    else if total == 0 then Err(ZeroDivisionError)
    else Ok(seq(|counts|, i requires 0 <= i < |counts| => counts[i] as real / total as real))
  }

  /** The normalised counts sum to one. */
  lemma NormalizedSumsToOne(counts: seq<int>)
    requires Normalize(counts).Ok? && |counts| > 0
    ensures Sum(Normalize(counts).value) == 1.0
  {
    var t := SumInts(counts) as real;
    var n := |counts|;
    ScaledQuotients(counts, t, n);
    assert counts[..n] == counts;
    assert Normalize(counts).value == seq(n, i requires 0 <= i < n => counts[i] as real / t);
    assert t / t == 1.0;
  }

  lemma {:induction false} ScaledQuotients(counts: seq<int>, t: real, n: nat)
    requires t != 0.0 && n <= |counts|
    ensures Sum(seq(n, i requires 0 <= i < n => counts[i] as real / t)) == SumInts(counts[..n]) as real / t
  {
    if n > 0 {
      var s := seq(n, i requires 0 <= i < n => counts[i] as real / t);
      assert s[..n - 1] == seq(n - 1, i requires 0 <= i < n - 1 => counts[i] as real / t);
      ScaledQuotients(counts, t, n - 1);
      assert counts[..n][..n - 1] == counts[..n - 1];
      var a, b := SumInts(counts[..n - 1]) as real, counts[n - 1] as real;
      assert SumInts(counts[..n]) as real == a + b;
      assert Sum(s) == Sum(s[..n - 1]) + s[n - 1];
      assert s[n - 1] == b / t;
      SplitQuotient(a, b, t);
    }
  }

  lemma SplitQuotient(a: real, b: real, t: real)
    requires t != 0.0
    ensures a / t + b / t == (a + b) / t
  {
  }

  /** A walk of `steps > 0` visits on distinct nodes yields a PageRank that
      sums to one, with node `i` at `visits / steps`. */
  lemma WalkRanks(nodes: seq<string>, walk: seq<string>)
    requires Distinct(nodes) && |nodes| > 0 && |walk| > 0
    requires forall k :: 0 <= k < |walk| ==> walk[k] in nodes
    ensures Normalize(VisitCounts(nodes, walk)).Ok?
    ensures Sum(Normalize(VisitCounts(nodes, walk)).value) == 1.0
    ensures forall i :: 0 <= i < |nodes| ==> Normalize(VisitCounts(nodes, walk)).value[i] == Count(walk, nodes[i]) as real / |walk| as real
  {
    var counts := VisitCounts(nodes, walk);
    VisitsAddUp(nodes, walk);
    assert SumInts(counts) as real == |walk| as real;
    NormalizedSumsToOne(counts);
    var r := Normalize(counts).value;
    forall i | 0 <= i < |nodes|
      ensures r[i] == Count(walk, nodes[i]) as real / |walk| as real
    {
      assert r[i] == counts[i] as real / SumInts(counts) as real;
    }
  }
}

=== FILE: quadtree_adapt.dfy ===
/** Splitting, merging and the adaptive refinement pass of the quadtree. */
module Adapt {
  import opened Blocks
  import RealSums

  /** The two rectangles share no cell. */
  predicate Disjoint(a: Rect, b: Rect)
  {
    a.xMax < b.xMin || b.xMax < a.xMin || a.yMax < b.yMin || b.yMax < a.yMin
  }

  /** Every cell of `a` is a cell of `r`. */
  predicate Inside(a: Rect, r: Rect)
  {
    r.xMin <= a.xMin && a.xMax <= r.xMax && r.yMin <= a.yMin && a.yMax <= r.yMax
  }

  /** `rs` partitions the cells of `r`: non-empty pieces inside `r`, pairwise
      disjoint, covering every cell. */
  ghost predicate Tiles(r: Rect, rs: seq<Rect>)
  {
    (forall i :: 0 <= i < |rs| ==> rs[i].WellFormed() && Inside(rs[i], r)) &&
    (forall i, j :: 0 <= i < j < |rs| ==> Disjoint(rs[i], rs[j])) &&
    (forall x, y :: r.Contains(x, y) ==> exists i :: 0 <= i < |rs| && rs[i].Contains(x, y))
  }

  /** The shape a well-kept tree has: well-formed rectangles, internal nodes
      holding no probability of their own and 2 to 4 children that tile them. */
  ghost predicate Valid(b: Block)
    decreases b
  {
    b.rect.WellFormed() &&
    match b
    case Leaf(_, _, _) => true
    case Node(rect, p, _, cs) =>
      p == 0.0 && 2 <= |cs| <= 4 && Tiles(rect, Rects(cs)) &&
      forall i :: 0 <= i < |cs| ==> Valid(cs[i])
  }

  /** Every leaf probability is non-negative. */
  predicate NonNegative(b: Block)
    decreases b
  {
    match b
    case Leaf(_, p, _) => p >= 0.0
    case Node(_, _, _, cs) => forall i :: 0 <= i < |cs| ==> NonNegative(cs[i])
  }

  /** The four candidate quadrants, bottom-left, bottom-right, top-left,
      top-right, cut at the floor midpoints (Euclidean `/ 2` is Python's `// 2`). */
  function Candidates(r: Rect): seq<Rect>
  {
    var xm := (r.xMin + r.xMax) / 2;
    var ym := (r.yMin + r.yMax) / 2;
    [Rect(r.xMin, xm, r.yMin, ym), Rect(xm + 1, r.xMax, r.yMin, ym),
     Rect(r.xMin, xm, ym + 1, r.yMax), Rect(xm + 1, r.xMax, ym + 1, r.yMax)]
  }

  /** The kept part of one candidate. */
  function KeepOne(a: Rect): seq<Rect>
  {
    if a.WellFormed() then [a] else []
  }

  /** `mk_child` returns `None` for an empty range; the list keeps the rest in order. */
  function KeepWellFormed(rs: seq<Rect>): seq<Rect>
  {
    if |rs| == 0 then []
    else KeepOne(rs[0]) + KeepWellFormed(rs[1..])
  }

  function Quadrants(r: Rect): seq<Rect>
  {
    KeepWellFormed(Candidates(r))
  }

  lemma KeepFour(a: Rect, b: Rect, c: Rect, d: Rect)
    ensures KeepWellFormed([a, b, c, d]) == KeepOne(a) + KeepOne(b) + KeepOne(c) + KeepOne(d)
  {
    assert [d][1..] == [];
    assert KeepWellFormed([d]) == KeepOne(d);
    assert [c, d][1..] == [d];
    assert KeepWellFormed([c, d]) == KeepOne(c) + KeepOne(d);
    assert [b, c, d][1..] == [c, d];
    assert KeepWellFormed([b, c, d]) == KeepOne(b) + KeepOne(c) + KeepOne(d);
    assert [a, b, c, d][1..] == [b, c, d];
  }

  /** Where the floor midpoint of `[lo..hi]` falls. */
  lemma Midpoint(lo: int, hi: int)
    ensures lo <= hi ==> lo <= (lo + hi) / 2 <= hi && ((lo + hi) / 2 < hi <==> hi - lo + 1 >= 2)
    ensures lo > hi ==> (lo + hi) / 2 < lo && (lo + hi) / 2 + 1 > hi
  {
  }

  /** Which quadrants survive: the right half exists iff the width is at
      least 2, the top half iff the height is at least 2. */
  lemma QuadrantCases(r: Rect)
    requires r.WellFormed()
    ensures var xm, ym := (r.xMin + r.xMax) / 2, (r.yMin + r.yMax) / 2;
      var bl, br := Rect(r.xMin, xm, r.yMin, ym), Rect(xm + 1, r.xMax, r.yMin, ym);
      var tl, tr := Rect(r.xMin, xm, ym + 1, r.yMax), Rect(xm + 1, r.xMax, ym + 1, r.yMax);
      Quadrants(r) ==
        if r.Width() >= 2 && r.Height() >= 2 then [bl, br, tl, tr]
        else if r.Width() >= 2 then [bl, br]
        else if r.Height() >= 2 then [bl, tl]
        else [bl]
  {
    var c := Candidates(r);
    KeepFour(c[0], c[1], c[2], c[3]);
    Midpoint(r.xMin, r.xMax);
    Midpoint(r.yMin, r.yMax);
  }

  /** A rectangle with no cell yields no quadrant at all. */
  lemma QuadrantsOfEmpty(r: Rect)
    requires !r.WellFormed()
    ensures Quadrants(r) == []
  {
    var c := Candidates(r);
    KeepFour(c[0], c[1], c[2], c[3]);
    Midpoint(r.xMin, r.xMax);
    Midpoint(r.yMin, r.yMax);
  }

  /** A rectangle of more than one cell has two or four quadrants, four
      exactly when it is at least two cells wide and high. */
  lemma QuadrantCount(r: Rect)
    requires r.WellFormed() && r.Area() > 1
    ensures 2 <= |Quadrants(r)| <= 4
    ensures |Quadrants(r)| == 4 <==> r.Width() >= 2 && r.Height() >= 2
  {
    QuadrantCases(r);
  }

  /** One leaf per rectangle, each holding `q` at vantage `v`. */
  function QuadrantLeaves(qs: seq<Rect>, q: real, v: Vantage): (cs: seq<Block>)
    ensures |cs| == |qs| && Rects(cs) == qs
    ensures forall i :: 0 <= i < |cs| ==> cs[i] == Leaf(qs[i], q, v)
  {
    var cs := seq(|qs|, i requires 0 <= i < |qs| => Leaf(qs[i], q, v));
    assert Rects(cs) == qs;
    cs
  }

  /** `split_block_2d`. A leaf of area above 1 becomes an internal node with
      probability 0 whose children are the surviving quadrants, each a leaf
      holding a quarter of the parent's probability and the parent's vantage.
      Anything else is returned unchanged. */
  function Split(b: Block): (r: Block)
    ensures b.Node? || b.rect.Area() <= 1 || !b.rect.WellFormed() ==> r == b
    ensures b.Leaf? && b.rect.WellFormed() && b.rect.Area() > 1 ==>
      r.Node? && r.rect == b.rect && r.prob == 0.0 && r.vantage == b.vantage &&
      2 <= |r.children| <= 4 &&
      (|r.children| == 4 <==> b.rect.Width() >= 2 && b.rect.Height() >= 2) &&
      Rects(r.children) == Quadrants(b.rect) &&
      forall i :: 0 <= i < |r.children| ==>
        r.children[i] == Leaf(r.children[i].rect, b.prob / 4.0, b.vantage)
  {
    match b
    case Node(_, _, _, _) => b
    case Leaf(rect, p, v) =>
      if rect.Area() <= 1 then b
      else
        var qs := Quadrants(rect);
        if !rect.WellFormed() then QuadrantsOfEmpty(rect); b
        else
          QuadrantCount(rect);
          if |qs| > 1 then Node(rect, 0.0, v, QuadrantLeaves(qs, p / 4.0, v))
          else b
  }

  /** The surviving quadrants of a rectangle with at least one cell tile it. */
  lemma QuadrantsTile(r: Rect)
    requires r.WellFormed()
    ensures Tiles(r, Quadrants(r))
  {
    QuadrantCases(r);
    Midpoint(r.xMin, r.xMax);
    Midpoint(r.yMin, r.yMax);
    var qs := Quadrants(r);
    var xm, ym := (r.xMin + r.xMax) / 2, (r.yMin + r.yMax) / 2;
    forall x, y | r.Contains(x, y)
      ensures exists i :: 0 <= i < |qs| && qs[i].Contains(x, y)
    {
      var i := if x <= xm then (if y <= ym then 0 else if |qs| == 4 then 2 else 1)
               else (if y <= ym then 1 else 3);
      assert 0 <= i < |qs| && qs[i].Contains(x, y);
    }
  }

  /** The children of a split leaf partition its rectangle. */
  lemma SplitTiles(b: Block)
    requires b.Leaf? && b.rect.WellFormed() && b.rect.Area() > 1
    ensures Tiles(b.rect, Rects(Split(b).children))
  {
    QuadrantsTile(b.rect);
  }

  /** The probability left in a split leaf: a quarter per surviving quadrant. */
  lemma {:induction false} SplitSum(b: Block)
    requires b.Leaf? && b.rect.WellFormed() && b.rect.Area() > 1
    ensures Sum(Split(b)) == |Split(b).children| as real * (b.prob / 4.0)
  {
    var cs := Split(b).children;
    ChildSum(cs, b.prob / 4.0);
  }

  lemma {:induction false} ChildSum(cs: seq<Block>, q: real)
    requires forall i :: 0 <= i < |cs| ==> cs[i].Leaf? && cs[i].prob == q
    ensures SumAll(cs) == |cs| as real * q
    decreases |cs|
  {
    if |cs| > 0 {
      ChildSum(cs[..|cs| - 1], q);
    }
  }

  /** `n` quarters of `p`, for the 2 to 4 children a split can have. */
  lemma QuarterTotal(n: int, p: real)
    requires 2 <= n <= 4
    ensures n as real * (p / 4.0) == p <==> n == 4 || p == 0.0
    ensures p >= 0.0 ==> n as real * (p / 4.0) <= p
  {
    if n == 2 {
      assert n as real * (p / 4.0) == p / 2.0;
    } else if n == 3 {
      assert n as real * (p / 4.0) == 3.0 * p / 4.0;
    }
  }

  /** Splitting keeps the total exactly when all four quadrants survive or
      the leaf held nothing: a strip one cell wide keeps only half of it. */
  lemma SplitConservesIff(b: Block)
    requires b.Leaf? && b.rect.WellFormed() && b.rect.Area() > 1
    ensures Sum(Split(b)) == Sum(b) <==> |Split(b).children| == 4 || b.prob == 0.0
  {
    SplitSum(b);
    QuarterTotal(|Split(b).children|, b.prob);
  }

  /** Splitting keeps a tree valid. */
  lemma SplitKeepsValid(b: Block)
    requires b.Leaf?
    ensures Valid(b) ==> Valid(Split(b))
  {
    var r := Split(b);
    if b.rect.WellFormed() && b.rect.Area() > 1 {
      SplitTiles(b);
      forall i | 0 <= i < |r.children|
        ensures Valid(r.children[i])
      {
        assert r.children[i].rect == Rects(r.children)[i];
      }
    }
  }

  /** With non-negative probabilities, splitting never creates probability. */
  lemma SplitKeepsNonNegative(b: Block)
    requires b.Leaf?
    ensures NonNegative(b) ==> NonNegative(Split(b)) && Sum(Split(b)) <= Sum(b)
  {
    var r := Split(b);
    if NonNegative(b) && b.rect.WellFormed() && b.rect.Area() > 1 {
      SplitSum(b);
      QuarterTotal(|r.children|, b.prob);
      assert forall i :: 0 <= i < |r.children| ==> r.children[i].prob == b.prob / 4.0;
    }
  }

  lemma {:induction false} SumAllNonNegative(cs: seq<Block>)
    ensures (forall i :: 0 <= i < |cs| ==> NonNegative(cs[i])) ==> SumAll(cs) >= 0.0
    decreases cs
  {
    if |cs| > 0 {
      SumAllNonNegative(cs[..|cs| - 1]);
      var last := cs[|cs| - 1];
      if last.Node? {
        SumAllNonNegative(last.children);
      }
    }
  }

  /** `merge_block_2d`: an internal node becomes a leaf holding its subtree
      total, keeping its rectangle and vantage; a leaf is left alone. */
  function Merge(b: Block): (r: Block)
    ensures r.Leaf? && r.rect == b.rect && r.vantage == b.vantage
    ensures Sum(r) == Sum(b)
    ensures b.Leaf? ==> r == b
  {
    match b
    case Leaf(_, _, _) => b
    case Node(rect, _, v, cs) => Leaf(rect, SumAll(cs), v)
  }

  /** The default thresholds of `adaptive_split_merge_2d`. */
  const DefaultSplitThreshold: real := 1.0 / 5.0
  const DefaultMergeThreshold: real := 1.0 / 200.0

  /** `adaptive_split_merge_2d`: split a leaf whose area exceeds 1 and whose
      probability reaches `st`; adapt the children of an internal node first,
      then merge it if their new total is below `mt`. */
  function Adapt(b: Block, st: real, mt: real): (r: Block)
    ensures r.rect == b.rect
    ensures Valid(b) ==> Valid(r)
    ensures NonNegative(b) ==> NonNegative(r) && Sum(r) <= Sum(b)
    ensures b.Leaf? && b.rect.WellFormed() ==> (r.Node? <==> b.rect.Area() > 1 && b.prob >= st)
    ensures b.Node? ==> (r.Leaf? <==> SumAll(AdaptAll(b.children, st, mt)) < mt)
    // a leaf is split or returned unchanged
    ensures b.Leaf? && b.rect.Area() > 1 && b.prob >= st ==> r == Split(b)
    ensures b.Leaf? && (b.rect.Area() <= 1 || b.prob < st) ==> r == b
    // a node keeps its adapted children, or is merged into a leaf holding their total
    ensures b.Node? && r.Node? ==> r == b.(children := AdaptAll(b.children, st, mt))
    ensures b.Node? && r.Leaf? ==> r == Leaf(b.rect, SumAll(AdaptAll(b.children, st, mt)), b.vantage)
    decreases b
  {
    match b
    case Leaf(rect, p, v) =>
      if rect.Area() > 1 && p >= st then
        SplitKeepsValid(b);
        SplitKeepsNonNegative(b);
        Split(b)
      else b
    case Node(rect, p, v, cs) =>
      var cs' := AdaptAll(cs, st, mt);
      SumAllNonNegative(cs');
      if SumAll(cs') < mt then Merge(Node(rect, p, v, cs'))
      else Node(rect, p, v, cs')
  }

  /** The children adapted one by one, left to right. */
  function AdaptAll(cs: seq<Block>, st: real, mt: real): (rs: seq<Block>)
    ensures |rs| == |cs| && Rects(rs) == Rects(cs)
    ensures forall i :: 0 <= i < |cs| ==> rs[i] == Adapt(cs[i], st, mt)
    ensures (forall i :: 0 <= i < |cs| ==> Valid(cs[i])) ==> forall i :: 0 <= i < |rs| ==> Valid(rs[i])
    ensures (forall i :: 0 <= i < |cs| ==> NonNegative(cs[i])) ==>
      (forall i :: 0 <= i < |rs| ==> NonNegative(rs[i])) && SumAll(rs) <= SumAll(cs)
    decreases cs
  {
    var rs := seq(|cs|, i requires 0 <= i < |cs| => Adapt(cs[i], st, mt));
    assert Rects(rs) == Rects(cs);
    if forall i :: 0 <= i < |cs| ==> NonNegative(cs[i]) then
      SumAllBelow(rs, cs);
      rs
    else rs
  }

  /** Sums of blocks compared entry by entry. */
  lemma {:induction false} SumAllBelow(rs: seq<Block>, cs: seq<Block>)
    requires |rs| == |cs| && forall i :: 0 <= i < |cs| ==> Sum(rs[i]) <= Sum(cs[i])
    ensures SumAll(rs) <= SumAll(cs)
    decreases |cs|
  {
    if |cs| > 0 {
      var n := |cs| - 1;
      SumAllBelow(rs[..n], cs[..n]);
    }
  }
}

=== FILE: quadtree_blocks.dfy ===
/** The block tree of the adaptive quadtree: rectangles of integer cells, each
    leaf holding an exact probability (`real` stands in for `Fraction`) and a
    "vantage", the largest denominator the block is meant to resolve. */
module Blocks {
  import IntMath
  import RealSums

  /** Vantages are positive at every call site: the constructor's default is
      100, the demo starts at 50, and a refinement only ever raises one. */
  type Vantage = v: int | v >= 1 witness 1

  /** The constructor's default vantage. */
  const DefaultVantage: Vantage := 100

  /** The cells `[xMin..xMax] x [yMin..yMax]`, bounds included. */
  datatype Rect = Rect(xMin: int, xMax: int, yMin: int, yMax: int) {
    function Width(): int { xMax - xMin + 1 }
    function Height(): int { yMax - yMin + 1 }
    function Area(): int { Width() * Height() }
    /** At least one cell: the only rectangles a split ever creates. */
    predicate WellFormed() { xMin <= xMax && yMin <= yMax }
    predicate Contains(x: int, y: int) { xMin <= x <= xMax && yMin <= y <= yMax }
  }

  /** A leaf (`children is None`) or an internal node with its child list.
      Internal nodes keep a `prob` field of their own, which sums ignore. */
  datatype Block =
    | Leaf(rect: Rect, prob: real, vantage: Vantage)
    | Node(rect: Rect, prob: real, vantage: Vantage, children: seq<Block>)

  /** `refine_vantage_if_needed_2d`: the new vantage of a block holding `p`.
      It only moves when `p` is neither 0 nor 1 and lies below `1/v`; it then
      becomes the least denominator above `v` at which `p` is at least one
      grain, i.e. `max(ceil(1/p), v + 1)`. */
  function Refine(p: real, v: Vantage): (w: Vantage)
    ensures w >= v
    ensures w > v <==> p != 0.0 && p != 1.0 && p < 1.0 / v as real
    ensures w > v && p > 0.0 ==> p * w as real >= 1.0
    ensures w > v + 1 ==> p > 0.0 && p * (w as real - 1.0) < 1.0
    ensures w > v && p < 0.0 ==> w == v + 1
  {
    if p == 0.0 || p == 1.0 then v
    else if p < 1.0 / v as real then
      var c := IntMath.Ceil(1.0 / p);
      CeilOfInverse(p, c);
      if c > v + 1 then c
      else if p > 0.0 then
        ScaleMonotone(p, c as real, (v + 1) as real);
        assert p * (v + 1) as real >= 1.0;
        v + 1
      else
        assert p < 0.0;
        v + 1
    else v
  }

  /** `ceil(1/p)` is the least count of grains of size `p` reaching 1. */
  lemma CeilOfInverse(p: real, c: int)
    requires p != 0.0 && c == IntMath.Ceil(1.0 / p)
    ensures p > 0.0 ==> p * c as real >= 1.0 && p * (c as real - 1.0) < 1.0
    ensures p < 0.0 ==> c <= 0
  {
    var q := 1.0 / p;
    assert q <= c as real < q + 1.0;
    if p > 0.0 {
      InverseProduct(p);
      GrainCount(p, q, c as real);
    } else {
      InverseSign(p);
    }
  }

  lemma GrainCount(p: real, q: real, c: real)
    requires p > 0.0 && p * q == 1.0 && q <= c < q + 1.0
    ensures p * c >= 1.0 && p * (c - 1.0) < 1.0
  {
    ScaleMonotone(p, q, c);
    ScaleStrict(p, c - 1.0, q);
  }

  lemma InverseProduct(p: real)
    requires p != 0.0
    ensures p * (1.0 / p) == 1.0
  {
  }

  lemma InverseSign(p: real)
    requires p < 0.0
    ensures 1.0 / p < 0.0
  {
  }

  lemma ScaleMonotone(p: real, a: real, b: real)
    requires p > 0.0 && a <= b
    ensures p * a <= p * b
  {
    assert p * b - p * a == p * (b - a);
  }

  lemma Distribute(f: real, a: real, b: real)
    ensures f * (a + b) == f * a + f * b
  {
  }

  lemma ScaleStrict(p: real, a: real, b: real)
    requires p > 0.0 && a < b
    ensures p * a < p * b
  {
    assert p * b - p * a == p * (b - a);
  }

  /** `set_probability_2d`: store a new probability and refine the vantage. */
  function SetProbability(b: Block, p: real): (r: Block)
    ensures r.rect == b.rect && r.prob == p && r.Leaf? == b.Leaf?
    ensures r.vantage >= b.vantage
    ensures r.vantage > b.vantage <==> p != 0.0 && p != 1.0 && p < 1.0 / b.vantage as real
    ensures r.Node? ==> r.children == b.children
    ensures r.vantage == Refine(p, b.vantage)
  {
    b.(prob := p, vantage := Refine(p, b.vantage))
  }

  /** `sum_tree_2d`: a leaf's probability, or the total of the children. */
  function Sum(b: Block): real
    decreases b
  {
    match b
    case Leaf(_, p, _) => p
    case Node(_, _, _, cs) => SumAll(cs)
  }

  function SumAll(cs: seq<Block>): real
    decreases cs
  {
    if |cs| == 0 then 0.0 else SumAll(cs[..|cs| - 1]) + Sum(cs[|cs| - 1])
  }

  /** `get_leaves_2d`: the leaves in pre-order, children left to right. */
  function Leaves(b: Block): (ls: seq<Block>)
    ensures forall i :: 0 <= i < |ls| ==> ls[i].Leaf?
    decreases b
  {
    match b
    case Leaf(_, _, _) => [b]
    case Node(_, _, _, cs) => LeavesAll(cs)
  }

  function LeavesAll(cs: seq<Block>): (ls: seq<Block>)
    ensures forall i :: 0 <= i < |ls| ==> ls[i].Leaf?
    decreases cs
  {
    if |cs| == 0 then [] else LeavesAll(cs[..|cs| - 1]) + Leaves(cs[|cs| - 1])
  }

  /** The probabilities stored in a list of blocks. */
  function Probs(ls: seq<Block>): seq<real>
  {
    seq(|ls|, i requires 0 <= i < |ls| => ls[i].prob)
  }

  /** The rectangles of a list of blocks. */
  function Rects(ls: seq<Block>): seq<Rect>
  {
    seq(|ls|, i requires 0 <= i < |ls| => ls[i].rect)
  }

  /** The leaf probabilities in `get_leaves_2d` order. */
  function LeafProbs(b: Block): seq<real>
  {
    Probs(Leaves(b))
  }

  /** The tree with every leaf's probability and vantage erased: two trees
      with the same shape differ at most in what their leaves hold. */
  function Shape(b: Block): Block
    decreases b
  {
    match b
    case Leaf(rect, _, _) => Leaf(rect, 0.0, 1)
    case Node(rect, p, v, cs) => Node(rect, p, v, ShapeAll(cs))
  }

  function ShapeAll(cs: seq<Block>): seq<Block>
    decreases cs
  {
    if |cs| == 0 then [] else ShapeAll(cs[..|cs| - 1]) + [Shape(cs[|cs| - 1])]
  }

  /** Each block of `after` is the block of `before` at the same position
      with a new probability stored through `set_probability_2d`. */
  predicate Reassigned(before: seq<Block>, after: seq<Block>)
  {
    |before| == |after| &&
    forall i :: 0 <= i < |after| ==> after[i] == SetProbability(before[i], after[i].prob)
  }

  /** `scale_tree_2d` (`scale_tree_2_2d` in the copy): multiply every leaf's
      probability by `f`, refining its vantage; internal nodes are untouched. */
  function Scale(b: Block, f: real): (r: Block)
    ensures Shape(r) == Shape(b)
    decreases b
  {
    match b
    case Leaf(rect, p, v) => Leaf(rect, p * f, Refine(p * f, v))
    case Node(rect, p, v, cs) => Node(rect, p, v, ScaleAll(cs, f))
  }

  function ScaleAll(cs: seq<Block>, f: real): (rs: seq<Block>)
    ensures |rs| == |cs|
    ensures ShapeAll(rs) == ShapeAll(cs)
    decreases cs
  {
    if |cs| == 0 then []
    else
      var n := |cs| - 1;
      var front := ScaleAll(cs[..n], f);
      var rs := front + [Scale(cs[n], f)];
      assert rs[..n] == front && rs[n] == Scale(cs[n], f);
      rs
  }

  /** Scaling multiplies the total by the factor. */
  lemma ScaleTotal(b: Block, f: real)
    ensures Sum(Scale(b, f)) == f * Sum(b)
  {
    var r := Scale(b, f);
    var ps := LeafProbs(b);
    assert Sum(b) == RealSums.Sum(ps) by {
      SumIsLeafTotal(b);
    }
    assert Sum(r) == RealSums.Sum(Times(ps, f)) by {
      SumIsLeafTotal(r);
      ScaleLeafwise(b, f);
    }
    SumTimes(ps, f);
  }

  lemma {:induction false} SumTimes(ps: seq<real>, f: real)
    ensures RealSums.Sum(Times(ps, f)) == f * RealSums.Sum(ps)
    decreases |ps|
  {
    if |ps| > 0 {
      var n := |ps| - 1;
      var t := Times(ps, f);
      assert t[..n] == Times(ps[..n], f) by {
        forall i | 0 <= i < n
          ensures t[..n][i] == Times(ps[..n], f)[i]
        {
          assert ps[..n][i] == ps[i];
        }
      }
      SumTimes(ps[..n], f);
      Distribute(f, RealSums.Sum(ps[..n]), ps[n]);
    }
  }

  /** `normalize_tree_2d`: rescale by `1/total` when the total is positive and not 1. */
  function Normalize(b: Block): (r: Block)
    ensures Sum(b) > 0.0 ==> Sum(r) == 1.0
    ensures Sum(b) <= 0.0 || Sum(b) == 1.0 ==> r == b
    ensures Shape(r) == Shape(b)
    // otherwise every leaf is divided by the total, in leaf order
    ensures Sum(b) > 0.0 && Sum(b) != 1.0 ==>
      LeafProbs(r) == Times(LeafProbs(b), 1.0 / Sum(b)) && Reassigned(Leaves(b), Leaves(r))
  {
    var total := Sum(b);
    if total > 0.0 && total != 1.0 then
      ScaleTotal(b, 1.0 / total);
      ScaleLeafwise(b, 1.0 / total);
      Scale(b, 1.0 / total)
    else b
  }

  /** Scale every entry of a list of probabilities by `f`. */
  function Times(ps: seq<real>, f: real): seq<real>
  {
    seq(|ps|, i requires 0 <= i < |ps| => ps[i] * f)
  }

  lemma TimesAppend(a: seq<real>, b: seq<real>, f: real)
    ensures Times(a + b, f) == Times(a, f) + Times(b, f)
  {
    var l, r := Times(a + b, f), Times(a, f) + Times(b, f);
    assert |l| == |r|;
    forall i | 0 <= i < |l|
      ensures l[i] == r[i]
    {
      if i < |a| {
        assert r[i] == Times(a, f)[i];
      } else {
        assert r[i] == Times(b, f)[i - |a|];
      }
    }
  }

  lemma ProbsAppend(a: seq<Block>, b: seq<Block>)
    ensures Probs(a + b) == Probs(a) + Probs(b)
  {
    assert Probs(a + b) == Probs(a) + Probs(b);
  }

  lemma ReassignedAppend(a1: seq<Block>, b1: seq<Block>, a2: seq<Block>, b2: seq<Block>)
    requires Reassigned(a1, b1) && Reassigned(a2, b2)
    ensures Reassigned(a1 + a2, b1 + b2)
  {
    var a, b := a1 + a2, b1 + b2;
    forall i | 0 <= i < |b|
      ensures b[i] == SetProbability(a[i], b[i].prob)
    {
      if i < |b1| {
        assert b[i] == b1[i] && a[i] == a1[i];
      } else {
        assert b[i] == b2[i - |b1|] && a[i] == a2[i - |a1|];
      }
    }
  }

  /** The tree total is the total of the leaf probabilities in
      `get_leaves_2d` order: `sum_tree_2d` and `get_leaves_2d` agree. */
  lemma {:induction false} SumIsLeafTotal(b: Block)
    ensures Sum(b) == RealSums.Sum(LeafProbs(b))
    decreases b
  {
    match b
    case Leaf(_, p, _) =>
      assert LeafProbs(b) == [p];
      assert LeafProbs(b)[..0] == [];
    case Node(_, _, _, cs) =>
      SumAllIsLeafTotal(cs);
  }

  lemma {:induction false} SumAllIsLeafTotal(cs: seq<Block>)
    ensures SumAll(cs) == RealSums.Sum(Probs(LeavesAll(cs)))
    decreases cs
  {
    if |cs| > 0 {
      var n := |cs| - 1;
      SumAllIsLeafTotal(cs[..n]);
      SumIsLeafTotal(cs[n]);
      ProbsAppend(LeavesAll(cs[..n]), Leaves(cs[n]));
      RealSums.SumAppend(Probs(LeavesAll(cs[..n])), Probs(Leaves(cs[n])));
    }
  }

  /** What `scale_tree_2d` does leaf by leaf: every leaf probability is
      multiplied by `f` and stored through `set_probability_2d`. */
  lemma {:induction false} ScaleLeafwise(b: Block, f: real)
    ensures LeafProbs(Scale(b, f)) == Times(LeafProbs(b), f)
    ensures Reassigned(Leaves(b), Leaves(Scale(b, f)))
    decreases b
  {
    match b
    case Leaf(_, p, _) =>
      var r := Scale(b, f);
      assert r.prob == p * f && Leaves(r) == [r] && Leaves(b) == [b];
      assert Probs([r])[0] == p * f;
      assert Times(Probs([b]), f)[0] == p * f;
    case Node(_, _, _, cs) =>
      ScaleAllLeafwise(cs, f);
  }

  lemma {:induction false} ScaleAllLeafwise(cs: seq<Block>, f: real)
    ensures Probs(LeavesAll(ScaleAll(cs, f))) == Times(Probs(LeavesAll(cs)), f)
    ensures Reassigned(LeavesAll(cs), LeavesAll(ScaleAll(cs, f)))
    decreases cs
  {
    if |cs| > 0 {
      var n := |cs| - 1;
      var rs := ScaleAll(cs, f);
      ScaleAllLeafwise(cs[..n], f);
      ScaleLeafwise(cs[n], f);
      assert rs[..n] == ScaleAll(cs[..n], f) && rs[n] == Scale(cs[n], f);
      ProbsAppend(LeavesAll(cs[..n]), Leaves(cs[n]));
      ProbsAppend(LeavesAll(rs[..n]), Leaves(rs[n]));
      ReassignedAppend(LeavesAll(cs[..n]), LeavesAll(rs[..n]), Leaves(cs[n]), Leaves(rs[n]));
      TimesAppend(Probs(LeavesAll(cs[..n])), Probs(Leaves(cs[n])), f);
    }
  }

  /** Normalising twice is normalising once. */
  lemma NormalizeIdempotent(b: Block)
    ensures Normalize(Normalize(b)) == Normalize(b)
  {
  }

  /** Write back new leaf probabilities in `get_leaves_2d` order, each
      through `set_probability_2d` (the last loop of `flow_step_2d`). */
  function SetLeafProbs(b: Block, ps: seq<real>): (r: Block)
    requires |ps| == |Leaves(b)|
    ensures Shape(r) == Shape(b)
    ensures LeafProbs(r) == ps
    ensures Reassigned(Leaves(b), Leaves(r))
    decreases b
  {
    match b
    case Leaf(_, _, _) =>
      var r := SetProbability(b, ps[0]);
      assert Leaves(r) == [r];
      r
    case Node(rect, p, v, cs) => Node(rect, p, v, SetLeafProbsAll(cs, ps))
  }

  function SetLeafProbsAll(cs: seq<Block>, ps: seq<real>): (rs: seq<Block>)
    requires |ps| == |LeavesAll(cs)|
    ensures |rs| == |cs|
    ensures ShapeAll(rs) == ShapeAll(cs)
    ensures Probs(LeavesAll(rs)) == ps
    ensures Reassigned(LeavesAll(cs), LeavesAll(rs))
    decreases cs
  {
    if |cs| == 0 then []
    else
      var n := |cs| - 1;
      var k := |LeavesAll(cs[..n])|;
      var front := SetLeafProbsAll(cs[..n], ps[..k]);
      var last := SetLeafProbs(cs[n], ps[k..]);
      var rs := front + [last];
      assert rs[..n] == front && rs[n] == last;
      assert ShapeAll(rs) == ShapeAll(front) + [Shape(last)];
      ProbsAppend(LeavesAll(front), Leaves(last));
      assert ps == ps[..k] + ps[k..];
      ReassignedAppend(LeavesAll(cs[..n]), LeavesAll(front), Leaves(cs[n]), Leaves(last));
      rs
  }
}

=== FILE: quadtree_flow.dfy ===
/** Edge adjacency between leaves and the snapshot-based probability flow. */
module Flow {
  import opened Blocks
  import Adapt
  import RealSums

  /** `is_neighbor_2d`: the rectangles touch along an edge, i.e. they are
      contiguous in one axis and their ranges overlap in the other. */
  predicate IsNeighbor(a: Rect, b: Rect)
  {
    var horizTouch := a.xMax + 1 == b.xMin || b.xMax + 1 == a.xMin;
    var yOverlap := !(a.yMax < b.yMin || b.yMax < a.yMin);
    var vertTouch := a.yMax + 1 == b.yMin || b.yMax + 1 == a.yMin;
    var xOverlap := !(a.xMax < b.xMin || b.xMax < a.xMin);
    (horizTouch && yOverlap) || (vertTouch && xOverlap)
  }

  /** Two cells sharing an edge. */
  predicate CellsTouch(x: int, y: int, u: int, w: int)
  {
    ((x - u == 1 || u - x == 1) && y == w) || ((y - w == 1 || w - y == 1) && x == u)
  }

  lemma NeighborSymmetric(a: Rect, b: Rect)
    ensures IsNeighbor(a, b) <==> IsNeighbor(b, a)
  {
  }

  lemma NeighborIrreflexive(a: Rect)
    requires a.WellFormed()
    ensures !IsNeighbor(a, a)
  {
  }

  /** The geometric meaning of adjacency: two blocks with at least one cell
      each are neighbours iff they share no cell but some cell of one touches
      some cell of the other along an edge. */
  lemma NeighborMeansTouchingCells(a: Rect, b: Rect)
    requires a.WellFormed() && b.WellFormed()
    ensures IsNeighbor(a, b) <==>
      Adapt.Disjoint(a, b) &&
      exists x, y, u, w :: a.Contains(x, y) && b.Contains(u, w) && CellsTouch(x, y, u, w)
  {
    var ylo := if a.yMin < b.yMin then b.yMin else a.yMin;
    var xlo := if a.xMin < b.xMin then b.xMin else a.xMin;
    if a.xMax + 1 == b.xMin && !(a.yMax < b.yMin || b.yMax < a.yMin) {
      assert a.Contains(a.xMax, ylo) && b.Contains(b.xMin, ylo) && CellsTouch(a.xMax, ylo, b.xMin, ylo);
    } else if b.xMax + 1 == a.xMin && !(a.yMax < b.yMin || b.yMax < a.yMin) {
      assert a.Contains(a.xMin, ylo) && b.Contains(b.xMax, ylo) && CellsTouch(a.xMin, ylo, b.xMax, ylo);
    } else if a.yMax + 1 == b.yMin && !(a.xMax < b.xMin || b.xMax < a.xMin) {
      assert a.Contains(xlo, a.yMax) && b.Contains(xlo, b.yMin) && CellsTouch(xlo, a.yMax, xlo, b.yMin);
    } else if b.yMax + 1 == a.yMin && !(a.xMax < b.xMin || b.xMax < a.xMin) {
      assert a.Contains(xlo, a.yMin) && b.Contains(xlo, b.yMax) && CellsTouch(xlo, a.yMin, xlo, b.yMax);
    }
    if Adapt.Disjoint(a, b) && exists x, y, u, w :: a.Contains(x, y) && b.Contains(u, w) && CellsTouch(x, y, u, w) {
      var x, y, u, w :| a.Contains(x, y) && b.Contains(u, w) && CellsTouch(x, y, u, w);
      TouchingCellsNeighbor(a, b, x, y, u, w);
    }
  }

  /** Disjoint rectangles with touching cells touch along an edge. */
  lemma TouchingCellsNeighbor(a: Rect, b: Rect, x: int, y: int, u: int, w: int)
    requires Adapt.Disjoint(a, b) && a.Contains(x, y) && b.Contains(u, w) && CellsTouch(x, y, u, w)
    ensures IsNeighbor(a, b)
  {
  }

  /** The neighbours of block `i` among blocks `0..hi-1`, in index order. */
  function NeighborsBelow(rs: seq<Rect>, i: nat, hi: nat): seq<nat>
    requires i < |rs| && hi <= |rs|
    decreases hi
  {
    if hi == 0 then []
    else
      var front := NeighborsBelow(rs, i, hi - 1);
      if hi - 1 != i && IsNeighbor(rs[i], rs[hi - 1]) then front + [hi - 1] else front
  }

  /** The list holds exactly the neighbours below `hi`, strictly ascending. */
  lemma {:induction false} NeighborsBelowSpec(rs: seq<Rect>, i: nat, hi: nat)
    requires i < |rs| && hi <= |rs|
    ensures var ns := NeighborsBelow(rs, i, hi);
      (forall j: nat :: j in ns <==> j < hi && j != i && IsNeighbor(rs[i], rs[j])) &&
      (forall s, t :: 0 <= s < t < |ns| ==> ns[s] < ns[t])
    decreases hi
  {
    if hi > 0 {
      NeighborsBelowSpec(rs, i, hi - 1);
      BelowBound(NeighborsBelow(rs, i, hi - 1), hi - 1);
    }
  }

  lemma BelowBound(s: seq<nat>, hi: nat)
    requires forall j: nat :: j in s ==> j < hi
    ensures forall t :: 0 <= t < |s| ==> s[t] < hi
  {
    forall t | 0 <= t < |s|
      ensures s[t] < hi
    {
      assert s[t] in s;
    }
  }

  /** The neighbour lists of all blocks. */
  function NeighborMap(rs: seq<Rect>): seq<seq<nat>>
  {
    seq(|rs|, i requires 0 <= i < |rs| => NeighborsBelow(rs, i, |rs|))
  }

  /** `find_neighbors_2d`: the pairwise scan over `i < j`, appending `j` to
      list `i` and `i` to list `j`. Each list comes out ascending, without the
      block itself, and adjacency is symmetric. */
  method FindNeighbors(rs: seq<Rect>) returns (m: seq<seq<nat>>)
    ensures m == NeighborMap(rs)
    ensures forall i, j :: 0 <= i < |m| && 0 <= j < |m| ==> (j in m[i] <==> i in m[j])
    ensures forall i :: 0 <= i < |m| ==> i !in m[i]
    ensures IndicesIn(m, |rs|)
    ensures forall i, t :: 0 <= i < |m| && 0 <= t < |m[i]| ==> IsNeighbor(rs[i], rs[m[i][t]])
  {
    var n := |rs|;
    m := seq(n, k => []);
    for i := 0 to n
      invariant ScannedRows(rs, m, i)
    {
      RowStart(rs, m, i);
      for j := i + 1 to n
        invariant ScanningRow(rs, m, i, j)
      {
        ghost var before := m;
        if IsNeighbor(rs[i], rs[j]) {
          m := m[i := m[i] + [j]];
          m := m[j := m[j] + [i]];
        }
        ScanStep(rs, before, m, i, j);
      }
      RowDone(rs, m, i);
    }
    assert m == NeighborMap(rs);
    NeighborMapFacts(rs);
    forall i, t | 0 <= i < |m| && 0 <= t < |m[i]|
      ensures m[i][t] < |rs| && IsNeighbor(rs[i], rs[m[i][t]])
    {
      NeighborsBelowSpec(rs, i, |rs|);
      assert m[i][t] in m[i];
    }
  }

  /** After rows `0..i-1` of the scan: finished lists for them, and for
      every later block the neighbours found among `0..i-1`. */
  ghost predicate ScannedRows(rs: seq<Rect>, m: seq<seq<nat>>, i: nat)
  {
    i <= |rs| && |m| == |rs| &&
    (forall k :: 0 <= k < i ==> m[k] == NeighborsBelow(rs, k, |rs|)) &&
    (forall k :: i <= k < |rs| ==> m[k] == NeighborsBelow(rs, k, i))
  }

  /** Inside row `i`, with columns `i+1..j-1` done. */
  ghost predicate ScanningRow(rs: seq<Rect>, m: seq<seq<nat>>, i: nat, j: nat)
  {
    i < j <= |rs| && |m| == |rs| &&
    (forall k :: 0 <= k < i ==> m[k] == NeighborsBelow(rs, k, |rs|)) &&
    m[i] == NeighborsBelow(rs, i, j) &&
    (forall k :: i < k < j ==> m[k] == NeighborsBelow(rs, k, i + 1)) &&
    (forall k :: j <= k < |rs| ==> m[k] == NeighborsBelow(rs, k, i))
  }

  lemma RowStart(rs: seq<Rect>, m: seq<seq<nat>>, i: nat)
    requires ScannedRows(rs, m, i) && i < |rs|
    ensures ScanningRow(rs, m, i, i + 1)
  {
    NeighborsBelowNext(rs, i, i);
  }

  lemma ScanStep(rs: seq<Rect>, before: seq<seq<nat>>, m: seq<seq<nat>>, i: nat, j: nat)
    requires ScanningRow(rs, before, i, j) && j < |rs|
    requires m == if IsNeighbor(rs[i], rs[j]) then before[i := before[i] + [j]][j := before[j] + [i]] else before
    ensures ScanningRow(rs, m, i, j + 1)
  {
    NeighborsBelowNext(rs, i, j);
    NeighborsBelowNext(rs, j, i);
    NeighborSymmetric(rs[i], rs[j]);
    assert m[i] == NeighborsBelow(rs, i, j + 1);
    assert m[j] == NeighborsBelow(rs, j, i + 1);
    assert forall k :: 0 <= k < |rs| && k != i && k != j ==> m[k] == before[k];
  }

  lemma RowDone(rs: seq<Rect>, m: seq<seq<nat>>, i: nat)
    requires ScanningRow(rs, m, i, |rs|)
    ensures ScannedRows(rs, m, i + 1)
  {
  }

  /** One more candidate index for a neighbour list. */
  lemma NeighborsBelowNext(rs: seq<Rect>, k: nat, hi: nat)
    requires k < |rs| && hi < |rs|
    ensures NeighborsBelow(rs, k, hi + 1)
      == NeighborsBelow(rs, k, hi) + (if hi != k && IsNeighbor(rs[hi], rs[k]) then [hi] else [])
  {
  }

  /** The neighbour map is symmetric, has no self entries and only lists neighbours. */
  lemma NeighborMapFacts(rs: seq<Rect>)
    ensures var m := NeighborMap(rs);
      (forall i, j :: 0 <= i < |m| && 0 <= j < |m| ==> (j in m[i] <==> i in m[j])) &&
      (forall i :: 0 <= i < |m| ==> i !in m[i]) &&
      (forall i, j :: 0 <= i < |m| && j in m[i] ==> j < |m| && IsNeighbor(rs[i], rs[j]))
  {
    forall i | 0 <= i < |rs|
      ensures var ns := NeighborsBelow(rs, i, |rs|);
        forall j: nat :: j in ns <==> j < |rs| && j != i && IsNeighbor(rs[i], rs[j])
    {
      NeighborsBelowSpec(rs, i, |rs|);
    }
  }

  /** How `flow_step_2d` treats a leaf without neighbours: `'closed'` keeps
      its outflow, anything else (the default `'open'`) loses it. */
  datatype Boundary = Open | Closed

  /** What leaf `k` keeps of its own probability. */
  function Kept(ps: seq<real>, m: seq<seq<nat>>, alpha: real, boundary: Boundary, k: nat): real
    requires k < |ps| && |m| == |ps|
  {
    var outflow := ps[k] * alpha;
    (ps[k] - outflow) + (if |m[k]| == 0 && boundary == Closed then outflow else 0.0)
  }

  /** The share of leaf `i`'s outflow sent to each entry of its neighbour list. */
  function Portion(ps: seq<real>, m: seq<seq<nat>>, alpha: real, i: nat): real
    requires i < |ps| && |m| == |ps|
  {
    if |m[i]| == 0 then 0.0 else ps[i] * alpha / |m[i]| as real
  }

  /** `q` for every occurrence of `k` in `s`. */
  function Occurrences(s: seq<nat>, k: nat, q: real): real
  {
    if |s| == 0 then 0.0
    else Occurrences(s[..|s| - 1], k, q) + (if s[|s| - 1] == k then q else 0.0)
  }

  lemma OccurrencesSnoc(s: seq<nat>, x: nat, k: nat, q: real)
    ensures Occurrences(s + [x], k, q) == Occurrences(s, k, q) + (if x == k then q else 0.0)
  {
    assert (s + [x])[..|s|] == s;
  }

  /** `t` portions of `q`, added one at a time. */
  function Portions(t: nat, q: real): real
  {
    if t == 0 then 0.0 else Portions(t - 1, q) + q
  }

  lemma {:induction false} PortionsProduct(t: nat, q: real)
    ensures Portions(t, q) == t as real * q
  {
    if t > 0 {
      PortionsProduct(t - 1, q);
      assert t as real * q == (t - 1) as real * q + q;
    }
  }

  /** One more portion added to one entry adds one portion to the total. */
  lemma AddOnceSum(r: seq<real>, j: nat, q: real, base: real, t: nat)
    requires j < |r| && RealSums.Sum(r) == base + Portions(t, q)
    ensures RealSums.Sum(r[j := r[j] + q]) == base + Portions(t + 1, q)
  {
    RealSums.SumUpdate(r, j, r[j] + q);
  }

  /** What leaf `k` receives from leaves `0..upto-1`: one portion per
      occurrence of `k` in their neighbour lists. */
  function Inflow(ps: seq<real>, m: seq<seq<nat>>, alpha: real, k: nat, upto: nat): real
    requires upto <= |ps| && |m| == |ps|
  {
    if upto == 0 then 0.0
    else Inflow(ps, m, alpha, k, upto - 1) + Occurrences(m[upto - 1], k, Portion(ps, m, alpha, upto - 1))
  }

  /** The new leaf probabilities, each computed from the old ones only. */
  function FlowSpec(ps: seq<real>, m: seq<seq<nat>>, alpha: real, boundary: Boundary): seq<real>
    requires |m| == |ps|
  {
    seq(|ps|, k requires 0 <= k < |ps| => Kept(ps, m, alpha, boundary, k) + Inflow(ps, m, alpha, k, |ps|))
  }

  /** The outflow of the neighbourless leaves among `0..upto-1`. */
  function IsolatedOutflow(ps: seq<real>, m: seq<seq<nat>>, alpha: real, upto: nat): real
    requires upto <= |ps| && |m| == |ps|
  {
    if upto == 0 then 0.0
    else IsolatedOutflow(ps, m, alpha, upto - 1) + (if |m[upto - 1]| == 0 then ps[upto - 1] * alpha else 0.0)
  }

  /** Neighbour lists that only name existing leaves. */
  predicate IndicesIn(m: seq<seq<nat>>, n: nat)
  {
    forall i, t :: 0 <= i < |m| && 0 <= t < |m[i]| ==> m[i][t] < n
  }

  /** Add `portion` to `nw[j]` once for every `j` listed in `targets`. */
  method Distribute(nw: seq<real>, targets: seq<nat>, portion: real) returns (r: seq<real>)
    requires forall t :: 0 <= t < |targets| ==> targets[t] < |nw|
    ensures |r| == |nw|
    ensures forall k :: 0 <= k < |nw| ==> r[k] == nw[k] + Occurrences(targets, k, portion)
    ensures RealSums.Sum(r) == RealSums.Sum(nw) + |targets| as real * portion
  {
    r := nw;
    for t := 0 to |targets|
      invariant |r| == |nw|
      invariant forall k :: 0 <= k < |nw| ==> r[k] == nw[k] + Occurrences(targets[..t], k, portion)
      invariant RealSums.Sum(r) == RealSums.Sum(nw) + Portions(t, portion)
    {
      var j := targets[t];
      DistributeStep(nw, r, targets, t, portion);
      AddOnceSum(r, j, portion, RealSums.Sum(nw), t);
      r := r[j := r[j] + portion];
    }
    assert targets[..|targets|] == targets;
    PortionsProduct(|targets|, portion);
  }

  /** One pass of `Distribute` extends the counted prefix by one target. */
  lemma DistributeStep(nw: seq<real>, r: seq<real>, targets: seq<nat>, t: nat, q: real)
    requires t < |targets| && targets[t] < |r| == |nw|
    requires forall k :: 0 <= k < |nw| ==> r[k] == nw[k] + Occurrences(targets[..t], k, q)
    ensures var j := targets[t];
      forall k :: 0 <= k < |nw| ==> r[j := r[j] + q][k] == nw[k] + Occurrences(targets[..t + 1], k, q)
  {
    var j := targets[t];
    assert targets[..t + 1] == targets[..t] + [j];
    forall k | 0 <= k < |nw|
      ensures r[j := r[j] + q][k] == nw[k] + Occurrences(targets[..t + 1], k, q)
    {
      OccurrencesSnoc(targets[..t], j, k, q);
    }
  }

  /** The redistribution loop of `flow_step_2d` over a snapshot `ps` of the
      leaf probabilities: each leaf keeps `p - p*alpha` and sends `p*alpha`
      in equal portions to its neighbours; a leaf without neighbours keeps
      the outflow at a closed boundary and loses it at an open one. */
  method FlowValues(ps: seq<real>, m: seq<seq<nat>>, alpha: real, boundary: Boundary) returns (nw: seq<real>)
    requires |m| == |ps| && IndicesIn(m, |ps|)
    ensures nw == FlowSpec(ps, m, alpha, boundary)
    ensures boundary == Closed ==> RealSums.Sum(nw) == RealSums.Sum(ps)
    ensures boundary == Open ==> RealSums.Sum(nw) == RealSums.Sum(ps) - IsolatedOutflow(ps, m, alpha, |ps|)
  {
    nw := seq(|ps|, k => 0.0);
    RealSums.SumZeros(|ps|);
    assert ps[..0] == [];
    for i := 0 to |ps|
      invariant FlowProgress(ps, m, alpha, boundary, nw, i)
    {
      nw := FlowRow(ps, m, alpha, boundary, nw, i);
    }
    FlowDone(ps, m, alpha, boundary, nw);
  }

  /** One pass of the loop: leaf `i` keeps its share and hands out its outflow. */
  method FlowRow(ps: seq<real>, m: seq<seq<nat>>, alpha: real, boundary: Boundary, nw: seq<real>, i: nat)
    returns (r: seq<real>)
    requires FlowProgress(ps, m, alpha, boundary, nw, i) && i < |ps|
    ensures FlowProgress(ps, m, alpha, boundary, r, i + 1)
  {
    var outflow := ps[i] * alpha;
    var kept := nw[i := nw[i] + (ps[i] - outflow)];
    if |m[i]| > 0 {
      var portion := outflow / |m[i]| as real;
      assert forall t :: 0 <= t < |m[i]| ==> m[i][t] < |kept| by {
        assert IndicesIn(m, |ps|) && |kept| == |ps|;
      }
      r := Distribute(kept, m[i], portion);
      FlowRowStep(ps, m, alpha, boundary, nw, kept, r, i, outflow, portion);
    } else if boundary == Closed {
      r := kept[i := kept[i] + outflow];
      FlowRowStep(ps, m, alpha, boundary, nw, kept, r, i, outflow, 0.0);
    } else {
      r := kept;
      FlowRowStep(ps, m, alpha, boundary, nw, kept, r, i, outflow, 0.0);
    }
  }

  /** After leaves `0..i-1` of the loop: each entry holds what it keeps (if
      already visited) plus what it received, and the running total is the
      visited mass minus what an open boundary lost. */
  ghost predicate FlowProgress(ps: seq<real>, m: seq<seq<nat>>, alpha: real, boundary: Boundary, nw: seq<real>, i: nat)
  {
    i <= |ps| && |m| == |ps| && |nw| == |ps| && IndicesIn(m, |ps|) &&
    (forall k :: 0 <= k < |ps| ==>
      nw[k] == (if k < i then Kept(ps, m, alpha, boundary, k) else 0.0) + Inflow(ps, m, alpha, k, i)) &&
    RealSums.Sum(nw) == RealSums.Sum(ps[..i]) - (if boundary == Closed then 0.0 else IsolatedOutflow(ps, m, alpha, i))
  }

  lemma FlowRowStep(ps: seq<real>, m: seq<seq<nat>>, alpha: real, boundary: Boundary,
                    before: seq<real>, kept: seq<real>, nw: seq<real>, i: nat, outflow: real, portion: real)
    requires FlowProgress(ps, m, alpha, boundary, before, i) && i < |ps|
    requires outflow == ps[i] * alpha
    requires |m[i]| > 0 ==> portion == outflow / |m[i]| as real
    requires kept == before[i := before[i] + (ps[i] - outflow)]
    requires |m[i]| > 0 ==>
      |nw| == |kept| &&
      (forall k :: 0 <= k < |kept| ==> nw[k] == kept[k] + Occurrences(m[i], k, portion)) &&
      RealSums.Sum(nw) == RealSums.Sum(kept) + |m[i]| as real * portion
    requires |m[i]| == 0 && boundary == Closed ==> nw == kept[i := kept[i] + outflow]
    requires |m[i]| == 0 && boundary == Open ==> nw == kept
    ensures FlowProgress(ps, m, alpha, boundary, nw, i + 1)
  {
    FlowRowEntries(ps, m, alpha, boundary, before, kept, nw, i);
    FlowRowTotal(ps, m, alpha, boundary, before, kept, nw, i);
  }

  lemma FlowRowEntries(ps: seq<real>, m: seq<seq<nat>>, alpha: real, boundary: Boundary,
                       before: seq<real>, kept: seq<real>, nw: seq<real>, i: nat)
    requires FlowProgress(ps, m, alpha, boundary, before, i) && i < |ps|
    requires kept == before[i := before[i] + (ps[i] - ps[i] * alpha)]
    requires |m[i]| > 0 ==>
      |nw| == |kept| &&
      (forall k :: 0 <= k < |kept| ==> nw[k] == kept[k] + Occurrences(m[i], k, ps[i] * alpha / |m[i]| as real))
    requires |m[i]| == 0 && boundary == Closed ==> nw == kept[i := kept[i] + ps[i] * alpha]
    requires |m[i]| == 0 && boundary == Open ==> nw == kept
    ensures |nw| == |ps|
    ensures forall k :: 0 <= k < |ps| ==>
      nw[k] == (if k < i + 1 then Kept(ps, m, alpha, boundary, k) else 0.0) + Inflow(ps, m, alpha, k, i + 1)
  {
    var q := Portion(ps, m, alpha, i);
    forall k | 0 <= k < |ps|
      ensures nw[k] == (if k < i + 1 then Kept(ps, m, alpha, boundary, k) else 0.0) + Inflow(ps, m, alpha, k, i + 1)
    {
      assert Inflow(ps, m, alpha, k, i + 1) == Inflow(ps, m, alpha, k, i) + Occurrences(m[i], k, q);
      if |m[i]| == 0 {
        assert Occurrences(m[i], k, q) == 0.0;
      }
    }
  }

  lemma FlowRowTotal(ps: seq<real>, m: seq<seq<nat>>, alpha: real, boundary: Boundary,
                     before: seq<real>, kept: seq<real>, nw: seq<real>, i: nat)
    requires i < |ps| == |m| == |before|
    requires RealSums.Sum(before) == RealSums.Sum(ps[..i])
      - (if boundary == Closed then 0.0 else IsolatedOutflow(ps, m, alpha, i))
    requires kept == before[i := before[i] + (ps[i] - ps[i] * alpha)]
    requires |m[i]| > 0 ==>
      RealSums.Sum(nw) == RealSums.Sum(kept) + |m[i]| as real * (ps[i] * alpha / |m[i]| as real)
    requires |m[i]| == 0 && boundary == Closed ==> nw == kept[i := kept[i] + ps[i] * alpha]
    requires |m[i]| == 0 && boundary == Open ==> nw == kept
    ensures RealSums.Sum(nw) == RealSums.Sum(ps[..i + 1])
      - (if boundary == Closed then 0.0 else IsolatedOutflow(ps, m, alpha, i + 1))
  {
    var p, out := ps[i], ps[i] * alpha;
    PrefixSumNext(ps, i);
    RealSums.SumUpdate(before, i, before[i] + (p - out));
    assert kept == before[i := before[i] + (p - out)];
    assert RealSums.Sum(kept) == RealSums.Sum(before) + (p - out);
    if |m[i]| > 0 {
      var n := |m[i]| as real;
      assert n * (out / n) == out;
    } else if boundary == Closed {
      RealSums.SumUpdate(kept, i, kept[i] + out);
    }
  }

  lemma PrefixSumNext(ps: seq<real>, i: nat)
    requires i < |ps|
    ensures RealSums.Sum(ps[..i + 1]) == RealSums.Sum(ps[..i]) + ps[i]
  {
    assert ps[..i + 1][..i] == ps[..i];
  }

  lemma FlowDone(ps: seq<real>, m: seq<seq<nat>>, alpha: real, boundary: Boundary, nw: seq<real>)
    requires FlowProgress(ps, m, alpha, boundary, nw, |ps|)
    ensures nw == FlowSpec(ps, m, alpha, boundary)
    ensures boundary == Closed ==> RealSums.Sum(nw) == RealSums.Sum(ps)
    ensures boundary == Open ==> RealSums.Sum(nw) == RealSums.Sum(ps) - IsolatedOutflow(ps, m, alpha, |ps|)
  {
    assert ps[..|ps|] == ps;
  }

  /** `flow_step_2d`: gather the leaves and their neighbour lists, compute
      the new probabilities from the snapshot, and store them back through
      `set_probability_2d`. A closed boundary conserves the tree total; an
      open one loses exactly the outflow of the neighbourless leaves. */
  method FlowStep(root: Block, alpha: real, boundary: Boundary) returns (r: Block)
    ensures Shape(r) == Shape(root)
    ensures Reassigned(Leaves(root), Leaves(r))
    ensures LeafProbs(r) == FlowSpec(LeafProbs(root), NeighborMap(Rects(Leaves(root))), alpha, boundary)
    ensures boundary == Closed ==> Sum(r) == Sum(root)
    ensures boundary == Open ==>
      Sum(r) == Sum(root) - IsolatedOutflow(LeafProbs(root), NeighborMap(Rects(Leaves(root))), alpha, |Leaves(root)|)
  {
    var leaves := Leaves(root);
    var m := FindNeighbors(Rects(leaves));
    var ps := LeafProbs(root);
    assert |m| == |ps|;
    var nw := FlowValues(ps, m, alpha, boundary);
    r := SetLeafProbs(root, nw);
    SumIsLeafTotal(root);
    SumIsLeafTotal(r);
  }
}

=== FILE: raw_fractions.dfy ===
/** Fractions that are divided through by the gcd of their parts but keep the
    denominator's sign: `Grain` and `grains_*` in scripts/gauss_jordan.py,
    `Lump` and `lumps_*` in gauss_jordan.py, and the `Grain`/`Lump` classes of
    the two grains_geometry.py scripts with their `simplify` and `abs`. */
module RawFractions {
  import opened Wrappers
  import opened IntMath
  import opened Quotients
  import RealSums

  /** A numerator/denominator pair exactly as stored; nothing is normalised. */
  datatype Raw = Raw(num: int, den: int)

  /** The pairs the checking constructors accept. */
  type NonZero = f: Raw | f.den != 0 witness Raw(0, 1)

  function Value(f: NonZero): real
  {
    f.num as real / f.den as real
  }

  /** The parts share no factor above one. */
  predicate Lowest(f: Raw)
  {
    PyGcd(f.num, f.den) == 1
  }

  /** `g = gcd(abs(num), abs(den)); (num // g, den // g)`: fails with
      ZeroDivisionError when both parts are zero, since then `g == 0`. */
  function Reduce(num: int, den: int): (r: Result<Raw>)
    ensures r.Err? <==> num == 0 && den == 0
    ensures r.Err? ==> r.error == ZeroDivisionError
    ensures r.Ok? ==> Lowest(r.value)
    ensures r.Ok? ==> r.value.num * den == num * r.value.den
    ensures r.Ok? ==> (r.value.num < 0 <==> num < 0) && (r.value.num > 0 <==> num > 0)
    ensures r.Ok? ==> (r.value.den < 0 <==> den < 0) && (r.value.den > 0 <==> den > 0)
  {
    var g := PyGcd(num, den);
    if g == 0 then
      assert num == 0 && den == 0 by {
        if num != 0 || den != 0 { GcdPositive(Abs(num), Abs(den)); }
      }
      Err(ZeroDivisionError)
    else
      ReduceFacts(num, den, g);
      var p, q := FloorDiv(num, g), FloorDiv(den, g);
      ScaledCross(p, q, g);
      Ok(Raw(p, q))
  }

  /** What dividing both parts by their gcd gives. */
  lemma ReduceFacts(num: int, den: int, g: int)
    requires g == PyGcd(num, den) && g > 0
    ensures FloorDiv(num, g) == num / g && FloorDiv(den, g) == den / g
    ensures num == (num / g) * g && den == (den / g) * g
    ensures Lowest(Raw(num / g, den / g))
    ensures num / g < 0 <==> num < 0
    ensures num / g > 0 <==> num > 0
    ensures den / g < 0 <==> den < 0
    ensures den / g > 0 <==> den > 0
  {
    var a, b := Abs(num), Abs(den);
    GcdDivides(a, b);
    ExactDiv(num, g);
    ExactDiv(den, g);
    if b == 0 {
      assert g == a;
      MultipleDiv(1, a);
      assert Abs(num / g) == 1 && den / g == 0;
    } else {
      ReducedCoprime(a, b);
    }
  }

  lemma ScaledCross(p: int, q: int, g: int)
    ensures p * (q * g) == (p * g) * q
  {
  }

  /** Dividing by a positive divisor of the magnitude is exact and keeps the sign. */
  lemma ExactDiv(x: int, g: int)
    requires g > 0 && Divides(g, Abs(x))
    ensures FloorDiv(x, g) == x / g && x == (x / g) * g
    ensures Abs(x / g) == Abs(x) / g
    ensures x / g < 0 <==> x < 0
    ensures x / g > 0 <==> x > 0
  {
    var q := Abs(x) / g;
    DividesQuotient(g, Abs(x));
    MulAwayFromZero(q, g);
    if x < 0 {
      assert x == (-q) * g;
      MultipleDiv(-q, g);
    }
  }

  /** A checked constructor followed by `//` on a nonzero denominator. */
  lemma ReduceNonZero(num: int, den: int)
    requires den != 0
    ensures Reduce(num, den).Ok? && Reduce(num, den).value.den != 0
    ensures Value(Reduce(num, den).value) == num as real / den as real
  {
    var r := Reduce(num, den).value;
    SameRatio(num, den, r.num, r.den);
  }

  /** Integer fractions with equal cross products have equal values. */
  lemma SameRatio(num: int, den: int, p: int, q: int)
    requires den != 0 && q != 0 && p * den == num * q
    ensures p as real / q as real == num as real / den as real
  {
    CastProduct(p, den);
    CastProduct(num, q);
    CrossEqual(p as real, q as real, num as real, den as real);
  }

  lemma CastSum(a: int, b: int, c: int, d: int)
    requires b != 0 && d != 0
    ensures (a * d + c * b) as real / (b * d) as real == a as real / b as real + c as real / d as real
  {
    CastProduct(a, d);
    CastProduct(c, b);
    CastProduct(b, d);
    SumOfQuotients(a as real, b as real, c as real, d as real);
  }

  lemma CastDifference(a: int, b: int, c: int, d: int)
    requires b != 0 && d != 0
    ensures (a * d - c * b) as real / (b * d) as real == a as real / b as real - c as real / d as real
  {
    CastProduct(a, d);
    CastProduct(c, b);
    CastProduct(b, d);
    DifferenceOfQuotients(a as real, b as real, c as real, d as real);
  }

  lemma CastQuotient(a: int, b: int, c: int, d: int)
    requires b != 0 && c != 0 && d != 0
    ensures (a * d) as real / (b * c) as real == (a as real / b as real) / (c as real / d as real)
  {
    CastProduct(a, d);
    CastProduct(b, c);
    DivideQuotients(a as real, b as real, c as real, d as real);
  }

  lemma CastProduct(a: int, b: int)
    ensures (a * b) as real == a as real * b as real
  {
  }

  /** `grains_add`, `lumps_add`, and `__add__` of the geometry classes. */
  function Add(x: Raw, y: Raw): (r: Result<Raw>)
    ensures r.Err? ==> r.error == ZeroDivisionError && (x.den == 0 || y.den == 0)
    ensures r.Ok? ==> Lowest(r.value)
    ensures x.den != 0 && y.den != 0 ==>
      r.Ok? && r.value.den != 0 && Value(r.value) == Value(x) + Value(y)
  {
    var num, den := x.num * y.den + y.num * x.den, x.den * y.den;
    if x.den != 0 && y.den != 0 then
      ReduceNonZero(num, den);
      CastSum(x.num, x.den, y.num, y.den);
      Reduce(num, den)
    else
      Reduce(num, den)
  }

  /** `grains_sub`, `lumps_sub`, and `__sub__` of the geometry classes. */
  function Sub(x: Raw, y: Raw): (r: Result<Raw>)
    ensures r.Err? ==> r.error == ZeroDivisionError && (x.den == 0 || y.den == 0)
    ensures r.Ok? ==> Lowest(r.value)
    ensures x.den != 0 && y.den != 0 ==>
      r.Ok? && r.value.den != 0 && Value(r.value) == Value(x) - Value(y)
  {
    var num, den := x.num * y.den - y.num * x.den, x.den * y.den;
    if x.den != 0 && y.den != 0 then
      ReduceNonZero(num, den);
      CastDifference(x.num, x.den, y.num, y.den);
      Reduce(num, den)
    else
      Reduce(num, den)
  }

  /** `grains_mult`, `lumps_mult`, and `__mul__` of the geometry classes. */
  function Mul(x: Raw, y: Raw): (r: Result<Raw>)
    ensures r.Err? ==> r.error == ZeroDivisionError && (x.den == 0 || y.den == 0)
    ensures r.Ok? ==> Lowest(r.value)
    ensures x.den != 0 && y.den != 0 ==>
      r.Ok? && r.value.den != 0 && Value(r.value) == Value(x) * Value(y)
  {
    var num, den := x.num * y.num, x.den * y.den;
    if x.den != 0 && y.den != 0 then
      ReduceNonZero(num, den);
      ProductValue(x, y);
      Reduce(num, den)
    else
      Reduce(num, den)
  }

  lemma ProductValue(x: NonZero, y: NonZero)
    ensures x.den * y.den != 0
    ensures (x.num * y.num) as real / (x.den * y.den) as real == Value(x) * Value(y)
  {
    CastProduct(x.num, y.num);
    CastProduct(x.den, y.den);
    ProductOfQuotients(x.num as real, x.den as real, y.num as real, y.den as real);
  }

  /** `lumps_div`: the only check is on the computed denominator `d1 * n2`. */
  function LumpDiv(x: Raw, y: Raw): (r: Result<Raw>)
    ensures r.Err? <==> x.den == 0 || y.num == 0
    ensures r.Err? ==> r.error == ZeroDivisionError
    ensures r.Ok? ==> Lowest(r.value)
    ensures x.den != 0 && y.den != 0 && y.num != 0 ==>
      r.Ok? && r.value.den != 0 && Value(r.value) == Value(x) / Value(y)
  {
    var num, den := x.num * y.den, x.den * y.num;
    if den == 0 then
      assert x.den == 0 || y.num == 0;
      Err(ZeroDivisionError)
    else
      ReduceNonZero(num, den);
      if y.den != 0 then
        CastQuotient(x.num, x.den, y.num, y.den);
        Reduce(num, den)
      else
        Reduce(num, den)
  }

  /** `grains_div` and the geometry `__truediv__`: reject a zero divisor
      numerator first, then divide as `lumps_div` does. */
  function Div(x: NonZero, y: NonZero): (r: Result<NonZero>)
    ensures r.Err? <==> Value(y) == 0.0
    ensures r.Err? ==> r.error == ZeroDivisionError
    ensures r.Ok? ==> Lowest(r.value) && Value(r.value) == Value(x) / Value(y)
  {
    if y.num == 0 then Err(ZeroDivisionError)
    else
      assert Value(y) != 0.0;
      var q := LumpDiv(x, y).value;
      Ok(q)
  }

  /** On well-formed operands the two division checks reject the same divisors. */
  lemma DivChecksAgree(x: NonZero, y: NonZero)
    ensures LumpDiv(x, y).Err? <==> Div(x, y).Err?
    ensures Div(x, y).Ok? ==> LumpDiv(x, y) == Ok(Div(x, y).value)
  {
  }

  /** `simplify` of the geometry classes: divide both parts by `math.gcd`. */
  function Simplify(f: NonZero): (r: NonZero)
    ensures Lowest(r) && Value(r) == Value(f)
  {
    ReduceNonZero(f.num, f.den);
    Reduce(f.num, f.den).value
  }

  /** Simplifying twice gives what simplifying once gave. */
  lemma SimplifyIdempotent(f: NonZero)
    ensures Simplify(Simplify(f)) == Simplify(f)
  {
    var s := Simplify(f);
    ReduceLowest(s);
  }

  /** A pair already in lowest terms is left as it is. */
  lemma ReduceLowest(f: Raw)
    requires Lowest(f)
    ensures Reduce(f.num, f.den) == Ok(f)
  {
    assert PyGcd(f.num, f.den) == 1;
    ExactDiv(f.num, 1);
    ExactDiv(f.den, 1);
    DivByOne(f.num);
    DivByOne(f.den);
  }

  lemma DivByOne(x: int)
    ensures x / 1 == x
  {
  }

  /** `abs` of the geometry classes: both parts made non-negative. */
  function FractionAbs(f: NonZero): (r: NonZero)
    ensures r.num >= 0 && r.den > 0
    ensures Value(r) == if Value(f) < 0.0 then -Value(f) else Value(f)
  {
    var r := Raw(Abs(f.num), Abs(f.den));
    AbsQuotient(f.num, f.den);
    r
  }

  lemma AbsQuotient(n: int, d: int)
    requires d != 0
    ensures Abs(n) as real / Abs(d) as real
      == if n as real / d as real < 0.0 then -(n as real / d as real) else n as real / d as real
  {
    var a, b := n as real, d as real;
    if d < 0 {
      assert Abs(d) as real == -b;
      assert a / b == (-a) / (-b);
    }
    if n < 0 {
      assert Abs(n) as real == -a;
    }
    if (n < 0 && d > 0) || (n > 0 && d < 0) {
      assert a / b < 0.0;
    } else {
      assert a / b >= 0.0;
    }
  }

  /** `Point2D` with fraction coordinates. */
  datatype Point = Point(x: NonZero, y: NonZero)

  /** `grains_l1_distance` and `lumps_l1_distance`: `|x2 - x1| + |y2 - y1|`. */
  function L1Distance(p: Point, q: Point): (r: NonZero)
    ensures Value(r) == L1(p, q)
  {
    var dx := FractionAbs(Sub(q.x, p.x).value);
    var dy := FractionAbs(Sub(q.y, p.y).value);
    Add(dx, dy).value
  }

  function RealAbs(r: real): real
  {
    if r < 0.0 then -r else r
  }

  /** The L1 distance of the points' values. */
  function L1(p: Point, q: Point): real
  {
    RealAbs(Value(q.x) - Value(p.x)) + RealAbs(Value(q.y) - Value(p.y))
  }

  /** The distance is non-negative, zero from a point to itself, and the
      same object in either direction. */
  lemma L1DistanceProperties(p: Point, q: Point)
    ensures Value(L1Distance(p, q)) >= 0.0
    ensures Value(L1Distance(p, p)) == 0.0
    ensures L1Distance(p, q) == L1Distance(q, p)
  {
    SubSwapAbs(q.x, p.x);
    SubSwapAbs(q.y, p.y);
  }

  /** `a - b` and `b - a` reduce to the same parts up to the numerator's sign,
      so their `abs` is the same object. */
  lemma SubSwapAbs(a: NonZero, b: NonZero)
    ensures FractionAbs(Sub(a, b).value) == FractionAbs(Sub(b, a).value)
  {
    var n, d := a.num * b.den - b.num * a.den, a.den * b.den;
    assert Sub(a, b) == Reduce(n, d);
    assert Sub(b, a) == Reduce(-n, d) by {
      assert b.num * a.den - a.num * b.den == -n;
      assert b.den * a.den == d;
    }
    NegateReduce(n, d);
  }

  /** Negating the numerator before reducing only negates the reduced numerator. */
  lemma NegateReduce(n: int, d: int)
    requires d != 0
    ensures Reduce(-n, d).Ok? && Reduce(n, d).Ok?
    ensures Reduce(-n, d).value == Raw(-Reduce(n, d).value.num, Reduce(n, d).value.den)
  {
    var g := PyGcd(n, d);
    assert PyGcd(-n, d) == g;
    GcdPositive(Abs(n), Abs(d));
    ReduceParts(n, d);
    ReduceParts(-n, d);
    GcdDivides(Abs(n), Abs(d));
    NegateDiv(n, g);
  }

  lemma ReduceParts(n: int, d: int)
    requires PyGcd(n, d) > 0
    ensures Reduce(n, d) == Ok(Raw(n / PyGcd(n, d), d / PyGcd(n, d)))
  {
    ReduceFacts(n, d, PyGcd(n, d));
  }

  lemma NegateDiv(n: int, g: int)
    requires g > 0 && Divides(g, Abs(n))
    ensures (-n) / g == -(n / g)
  {
    ExactDiv(n, g);
    assert Abs(-n) == Abs(n);
    ExactDiv(-n, g);
    var p, q := n / g, (-n) / g;
    assert (p + q) * g == 0;
    MulAwayFromZero(p + q, g);
  }

  /** The edge lengths the perimeter loop visits, closing the polygon. */
  function EdgeLengths(points: seq<Point>): (es: seq<real>)
    ensures |es| == |points|
  {
    seq(|points|, i requires 0 <= i < |points| => Edge(points, i))
  }

  /** The L1 length of the edge from point `i` to the next, wrapping round. */
  function Edge(points: seq<Point>, i: int): real
    requires 0 <= i < |points|
  {
    L1(points[i], points[(i + 1) % |points|])
  }

  /** `polygon_perimeter_l1`: zero below two points, otherwise the sum of the
      `n` wrap-around edges, accumulated with the fraction `+`. */
  method PolygonPerimeter(points: seq<Point>) returns (perimeter: NonZero)
    ensures |points| < 2 ==> perimeter == Raw(0, 1)
    ensures |points| >= 2 ==> Value(perimeter) == RealSums.Sum(EdgeLengths(points))
    ensures Value(perimeter) >= 0.0
  {
    if |points| < 2 {
      return Raw(0, 1);
    }
    perimeter := Raw(0, 1);
    var n := |points|;
    ghost var es := EdgeLengths(points);
    var i := 0;
    while i < n
      invariant 0 <= i <= n
      invariant Value(perimeter) == RealSums.Sum(es[..i])
      invariant Value(perimeter) >= 0.0
    {
      var edge := L1Distance(points[i], points[(i + 1) % n]);
      PerimeterStep(points, i, perimeter);
      perimeter := Add(perimeter, edge).value;
      i := i + 1;
    }
    assert es[..n] == es;
  }

  /** One turn of the perimeter loop adds the next edge to the prefix sum. */
  lemma PerimeterStep(points: seq<Point>, i: int, perimeter: NonZero)
    requires 0 <= i < |points|
    requires Value(perimeter) == RealSums.Sum(EdgeLengths(points)[..i]) && Value(perimeter) >= 0.0
    ensures Add(perimeter, L1Distance(points[i], points[(i + 1) % |points|])).Ok?
    ensures var p := Add(perimeter, L1Distance(points[i], points[(i + 1) % |points|])).value;
      p.den != 0 && Value(p) == RealSums.Sum(EdgeLengths(points)[..i + 1]) && Value(p) >= 0.0
  {
    var edge := L1Distance(points[i], points[(i + 1) % |points|]);
    EdgeValue(points, i);
    var es := EdgeLengths(points);
    PrefixSumStep(es, i, Value(perimeter), es[i]);
    AddValues(perimeter, edge);
  }

  lemma AddValues(x: NonZero, y: NonZero)
    ensures Add(x, y).Ok? && Add(x, y).value.den != 0
    ensures Value(Add(x, y).value) == Value(x) + Value(y)
  {
  }

  lemma EdgeValue(points: seq<Point>, i: int)
    requires 0 <= i < |points|
    ensures Value(L1Distance(points[i], points[(i + 1) % |points|])) == EdgeLengths(points)[i]
    ensures EdgeLengths(points)[i] >= 0.0
  {
    assert EdgeLengths(points)[i] == Edge(points, i);
  }

  lemma PrefixSumStep(es: seq<real>, i: int, before: real, e: real)
    requires 0 <= i < |es| && before == RealSums.Sum(es[..i]) && e == es[i]
    ensures before + e == RealSums.Sum(es[..i + 1])
  {
    assert es[..i + 1] == es[..i] + [es[i]];
    RealSums.SumAppend(es[..i], [es[i]]);
  }
}

=== FILE: signals.dfy ===
/** Environment signals and pattern compatibility (scripts/signals.py): a
    pattern is compatible with an environment when every feature it needs
    is among the environment's signals, and moving an observer to a new
    environment carries each pattern's grains over only when compatible. */
module Signals {
  import opened GrainStore

  /** `dict.get(k, set())`. */
  function Lookup(m: map<string, set<string>>, k: string): set<string>
  {
    if k in m then m[k] else {}
  }

  /** `is_compatible`: the features of `x` are a subset of the signals of `e`. */
  function IsCompatible(features: map<string, set<string>>, signals: map<string, set<string>>, x: string, e: string): (b: bool)
    ensures b <==> forall f :: f in Lookup(features, x) ==> f in Lookup(signals, e)
    ensures x !in features ==> b
  {
    Lookup(features, x) <= Lookup(signals, e)
  }

  /** Compatibility survives adding signals to the environment and dropping
      features from the pattern. */
  lemma CompatibleMonotone(features: map<string, set<string>>, signals: map<string, set<string>>,
                           features': map<string, set<string>>, signals': map<string, set<string>>, x: string, e: string)
    requires Lookup(features', x) <= Lookup(features, x) && Lookup(signals, e) <= Lookup(signals', e)
    ensures IsCompatible(features, signals, x, e) ==> IsCompatible(features', signals', x, e)
  {
  }

  /** The grains pattern `x` holds under `newE` after the transition. */
  function Carried(mu: Store, features: map<string, set<string>>, signals: map<string, set<string>>,
                   a: string, oldE: string, newE: string, x: string): int
  {
    if IsCompatible(features, signals, x, newE) then Get(mu, Key(a, oldE, x)) else 0
  }

  /** `update_env_transition`: for each listed pattern, the key
      `(a, newE, x)` receives the grains of `(a, oldE, x)` when `x` is
      compatible with `newE` and zero otherwise; no other key changes. */
  method UpdateEnvTransition(mu: Store, features: map<string, set<string>>, signals: map<string, set<string>>,
                             a: string, oldE: string, newE: string, patterns: seq<string>)
    returns (mu': Store)
    ensures forall x :: x in patterns ==> Get(mu', Key(a, newE, x)) == Carried(mu, features, signals, a, oldE, newE, x)
    ensures forall o: Key :: (o.a != a || o.e != newE || o.x !in patterns) ==> Get(mu', o) == Get(mu, o)
    ensures mu'.Keys == mu.Keys + set x | x in patterns :: Key(a, newE, x)
  {
    mu' := mu;
    var i := 0;
    while i < |patterns|
      invariant 0 <= i <= |patterns|
      invariant Transferred(mu, mu', features, signals, a, oldE, newE, patterns[..i])
    {
      mu' := CarryPattern(mu, mu', features, signals, a, oldE, newE, patterns[..i], patterns[i]);
      assert patterns[..i + 1] == patterns[..i] + [patterns[i]];
      i := i + 1;
    }
    assert patterns[..i] == patterns;
  }

  /** `mu'` is `mu` after the patterns `done` have been carried over. */
  ghost predicate Transferred(mu: Store, mu': Store, features: map<string, set<string>>, signals: map<string, set<string>>,
                              a: string, oldE: string, newE: string, done: seq<string>)
  {
    && (forall x :: x in done ==> Get(mu', Key(a, newE, x)) == Carried(mu, features, signals, a, oldE, newE, x))
    && (forall o: Key :: (o.a != a || o.e != newE || o.x !in done) ==> Get(mu', o) == Get(mu, o))
    && mu'.Keys == mu.Keys + set x | x in done :: Key(a, newE, x)
  }

  /** One pass of the loop: pattern `x` carried over. */
  method CarryPattern(mu: Store, mu': Store, features: map<string, set<string>>, signals: map<string, set<string>>,
                      a: string, oldE: string, newE: string, done: seq<string>, x: string)
    returns (next: Store)
    requires Transferred(mu, mu', features, signals, a, oldE, newE, done)
    ensures Transferred(mu, next, features, signals, a, oldE, newE, done + [x])
  {
    var k := Key(a, newE, x);
    var v := Carried(mu, features, signals, a, oldE, newE, x);
    assert IsCompatible(features, signals, x, newE) ==> v == Get(mu', Key(a, oldE, x));
    if !IsCompatible(features, signals, x, newE) {
      next := mu'[k := 0];
    } else {
      next := mu'[k := Get(mu', Key(a, oldE, x))];
    }
    assert next == mu'[k := v];
    forall o: Key | o != k
      ensures Get(next, o) == Get(mu', o)
    {
    }
    KeysAppend(a, newE, done, x);
  }

  lemma KeysAppend(a: string, e: string, done: seq<string>, x: string)
    ensures (set y | y in done + [x] :: Key(a, e, y)) == (set y | y in done :: Key(a, e, y)) + {Key(a, e, x)}
  {
    var lhs := set y | y in done + [x] :: Key(a, e, y);
    var rhs := (set y | y in done :: Key(a, e, y)) + {Key(a, e, x)};
    forall o | o in lhs ensures o in rhs {
      var y :| y in done + [x] && o == Key(a, e, y);
      if y != x {
        assert y in done;
      }
    }
    forall o | o in rhs ensures o in lhs {
      if o != Key(a, e, x) {
        var y :| y in done && o == Key(a, e, y);
        assert y in done + [x];
      }
    }
  }

  /** A transition keeps a valid store valid: carried counts were already
      within capacity and the others become zero. */
  lemma TransitionKeepsValid(mu: Store, mu': Store, features: map<string, set<string>>, signals: map<string, set<string>>,
                             a: string, oldE: string, newE: string, patterns: seq<string>, capacity: int)
    requires Valid(mu, capacity) && capacity >= 0
    requires forall x :: x in patterns ==> Get(mu', Key(a, newE, x)) == Carried(mu, features, signals, a, oldE, newE, x)
    requires forall o: Key :: (o.a != a || o.e != newE || o.x !in patterns) ==> Get(mu', o) == Get(mu, o)
    requires mu'.Keys == mu.Keys + set x | x in patterns :: Key(a, newE, x)
    ensures Valid(mu', capacity)
  {
    forall k | k in mu'
      ensures 0 <= mu'[k] <= capacity
    {
      assert mu'[k] == Get(mu', k);
      if k.a == a && k.e == newE && k.x in patterns {
        var source := Key(a, oldE, k.x);
        if source in mu {
          assert 0 <= mu[source] <= capacity;
        }
      } else {
        assert k in mu;
      }
    }
  }
}

=== FILE: sqrt_search.dfy ===
/** The integer square-root searchers' shared arithmetic: `x = k / M`
    approximates `sqrt(N)`, its error is the integer `|k² − N·M²|`, a step
    moves `k` by one lump, and an expansion moves to a finer vantage `M`. */
module SqrtSearch {
  import opened IntMath

  /** `grains_error` / `lumps_error`: zero exactly when `(k/M)² = N`. */
  function GrainsError(k: int, m: int, n: int): (e: nat)
    ensures e == 0 <==> k * k == n * (m * m)
  {
    Abs(k * k - n * (m * m))
  }

  /** The integer error is `|(k/M)² − N|` scaled by `M²`, so at a fixed
      vantage a smaller error is a closer approximation. */
  lemma ErrorMeasuresDistance(k: int, m: int, n: int)
    requires m != 0
    ensures var x := k as real / m as real;
      GrainsError(k, m, n) as real == (m * m) as real * (if x * x < n as real then n as real - x * x else x * x - n as real)
  {
    var K, M, N := k as real, m as real, n as real;
    var x := K / M;
    assert x * M == K;
    assert (k * k - n * (m * m)) as real == (x * x - N) * (M * M) by {
      assert (k * k) as real == K * K == (x * M) * (x * M);
      assert (n * (m * m)) as real == N * (M * M);
    }
    assert (m * m) as real == M * M;
  }

  /** `try_step` / `grains_try_step`: `k + step`, unless that is negative,
      in which case `k` stays; the error is that of the returned `k`. */
  function TryStep(k: int, m: int, step: int, n: int): (r: (int, nat))
    ensures r.0 == (if k + step < 0 then k else k + step)
    ensures r.1 == GrainsError(r.0, m, n)
    ensures k >= 0 ==> r.0 >= 0
  {
    var nk := k + step;
    if nk < 0 then (k, GrainsError(k, m, n)) else (nk, GrainsError(nk, m, n))
  }

  /** The clamped candidate of the random-step searchers in their
      `new_k = 0` form: for `k ≥ 0` it coincides with `try_step`. */
  lemma ClampIsTryStep(k: int, m: int, step: int, n: int)
    requires k >= 0 && (step == 1 || step == -1)
    ensures (if k + step < 0 then 0 else k + step) == TryStep(k, m, step, n).0
  {
  }

  /** `min(M * factor, MAX_CAPACITY)`. */
  function ClampedCapacity(m: int, factor: int, cap: int): (r: int)
    ensures r <= cap && r <= m * factor
    ensures r == m * factor || r == cap
  {
    if m * factor > cap then cap else m * factor
  }

  /** `(k * newM + oldM // 2) // oldM`: `k` rescaled to the new vantage and
      rounded to the nearest lump, halves upward. */
  function NearestRescale(k: int, oldM: int, newM: int): (r: int)
    requires oldM > 0
    ensures -oldM <= 2 * (k * newM - r * oldM) < oldM
    ensures k >= 0 && newM >= 0 ==> r >= 0
  {
    var p := k * newM;
    var h := oldM / 2;
    var x := p + h;
    var q, rem := x / oldM, x % oldM;
    assert x == q * oldM + rem && 0 <= rem < oldM;
    assert oldM == 2 * h + oldM % 2;
    assert p - q * oldM == rem - h;
    ProductSign(k, newM);
    assert k >= 0 && newM >= 0 ==> x >= 0;
    QuotientSign(x, oldM);
    q
  }

  lemma QuotientSign(x: int, d: int)
    requires d > 0
    ensures x >= 0 ==> x / d >= 0
  {
    MulAwayFromZero(x / d, d);
  }

  lemma ProductSign(a: int, b: int)
    ensures a >= 0 && b >= 0 ==> a * b >= 0
  {
    if a >= 0 && b >= 0 {
      MulMonotone(a, 0, b);
    }
  }

  /** The rescaled fraction lies within half a new lump of the old one. */
  lemma RescaleIsNearest(k: int, oldM: int, newM: int)
    requires oldM > 0 && newM > 0
    ensures var r := NearestRescale(k, oldM, newM);
      var d := r as real / newM as real - k as real / oldM as real;
      -1.0 / (2.0 * newM as real) <= d <= 1.0 / (2.0 * newM as real)
  {
    var r := NearestRescale(k, oldM, newM);
    var R, K, O, W := r as real, k as real, oldM as real, newM as real;
    var e := (r * oldM - k * newM) as real;
    assert -O < 2.0 * e <= O;
    assert e == R * O - K * W;
    var d := R / W - K / O;
    assert d * (O * W) == e by {
      assert (R / W) * W == R;
      assert (K / O) * O == K;
      assert d * (O * W) == (R / W) * W * O - (K / O) * O * W;
    }
    Bounded(d, e, O, W);
  }

  lemma Bounded(d: real, e: real, o: real, w: real)
    requires o > 0.0 && w > 0.0 && d * (o * w) == e && -o <= 2.0 * e <= o
    ensures -1.0 / (2.0 * w) <= d <= 1.0 / (2.0 * w)
  {
    var t := o * w;
    assert t > 0.0;
    assert d == e / t;
    assert 2.0 * e / t <= o / t == 1.0 / w;
    assert -(1.0 / w) == -o / t <= 2.0 * e / t;
  }

  /** Multiplying `k` and `M` by the same factor keeps `k/M` and multiplies
      the error by the factor squared. */
  lemma ExactExpansion(k: int, m: int, n: int, f: int)
    ensures GrainsError(k * f, m * f, n) == f * f * GrainsError(k, m, n)
    ensures m != 0 && f != 0 ==> (k * f) as real / (m * f) as real == k as real / m as real
  {
    var d := k * k - n * (m * m);
    ScaledSquares(k, m, n, f);
    AbsMul(f * f, d);
    if m != 0 && f != 0 {
      ScaledRatio(k as real, m as real, f as real);
    }
  }

  lemma ScaledSquares(k: int, m: int, n: int, f: int)
    ensures (k * f) * (k * f) - n * ((m * f) * (m * f)) == (f * f) * (k * k - n * (m * m))
  {
    assert (k * f) * (k * f) == (f * f) * (k * k);
    assert (m * f) * (m * f) == (f * f) * (m * m);
    assert n * ((f * f) * (m * m)) == (f * f) * (n * (m * m));
  }

  lemma ScaledRatio(k: real, m: real, f: real)
    requires m != 0.0 && f != 0.0
    ensures (k * f) / (m * f) == k / m
  {
  }
  /** Python's `round(p / d)` on the exact quotient: the nearest integer,
      ties to the even one. */
  function RoundHalfEven(p: int, d: int): (r: int)
    requires d > 0
    ensures -d <= 2 * (p - r * d) <= d
    ensures (2 * (p - r * d) == d || 2 * (p - r * d) == -d) ==> r % 2 == 0
    ensures p >= 0 ==> r >= 0
  {
    var q, rem := p / d, p % d;
    assert p == q * d + rem && 0 <= rem < d;
    QuotientSign(p, d);
    if 2 * rem < d then q
    else if 2 * rem > d then q + 1
    else if q % 2 == 0 then q
    else q + 1
  }

  /** `int(round(k * newM / M))`: the rescaling of the deterministic and
      the root random-step searchers, on exact rationals. */
  function Rescale(k: int, oldM: int, newM: int): (r: int)
    requires oldM > 0
    ensures -oldM <= 2 * (k * newM - r * oldM) <= oldM
    ensures k >= 0 && newM >= 0 ==> r >= 0
  {
    ProductSign(k, newM);
    RoundHalfEven(k * newM, oldM)
  }

  /** Two integers that both lie within half a lump of `p / d`, one of them
      strictly, are the same integer. */
  lemma NearestUnique(p: int, d: int, r1: int, r2: int)
    requires d > 0
    requires -d < 2 * (p - r1 * d) < d
    requires -d <= 2 * (p - r2 * d) <= d
    ensures r1 == r2
  {
    assert (r2 - r1) * d == (p - r1 * d) - (p - r2 * d);
    MulAwayFromZero(r2 - r1, d);
  }

  /** The two roundings of a rescaled `k` differ only on an exact tie. */
  lemma RoundingsAgreeOffTies(k: int, oldM: int, newM: int)
    requires oldM > 0
    requires 2 * (k * newM - NearestRescale(k, oldM, newM) * oldM) != -oldM
    ensures Rescale(k, oldM, newM) == NearestRescale(k, oldM, newM)
  {
    NearestUnique(k * newM, oldM, NearestRescale(k, oldM, newM), Rescale(k, oldM, newM));
  }

  /** On a tie they do differ: `5/10` rounds to 0 half-even, to 1 half-up. */
  lemma TiesDiffer()
    ensures Rescale(1, 10, 5) == 0 && NearestRescale(1, 10, 5) == 1
  {
  }

  /** Expanding by a whole factor needs no rounding: the rescaled `k` is
      `k * factor`. */
  lemma RescaleByFactor(k: int, m: int, f: int)
    requires m > 0
    ensures Rescale(k, m, m * f) == k * f
  {
    assert k * (m * f) == (k * f) * m;
    MultipleDiv(k * f, m);
  }

  /** How a search loop stops: an exact root, no improvement at full
      capacity, or the iteration budget spent. */
  datatype Outcome = Exact | AtCapacity | Exhausted

  /** The tuple the searchers return: `(k, M, err, expansions, iterations)`. */
  datatype Search = Search(k: int, m: int, err: nat, expansions: nat, iterations: nat)
}

=== FILE: stuck_walk.dfy ===
/** `grains_random_step_sqrtN` of scripts/simplified.py and its root copy
    `lumps_random_step_sqrtN`: the step direction is drawn with
    probability `p_plus / (p_plus + p_minus)`; an improving step is kept
    and its weight raised (at most 100), a failing one lowers its weight
    (at least 1); after `STUCK_THRESHOLD` failures in a row the vantage is
    expanded, clamped at the capacity, and `k` rescaled to the nearest
    lump. The random draw `randint(0, p_total − 1)` is a parameter. */
module StuckWalk {
  import opened Wrappers
  import opened IntMath
  import opened SqrtSearch

  /** `halfEven` selects the root copy's `int(round(k * M / old_M))`; the
      scripts copy computes `(k * M + old_M // 2) // old_M`. */
  datatype Params = Params(n: int, cap: int, factor: int, allowed: int, threshold: int, halfEven: bool)

  /** The search state plus the step weights and the failure count. */
  datatype Walk = Walk(s: Search, pPlus: int, pMinus: int, stuck: nat)

  /** The starting weight of each direction and the cap on a weight. */
  const Start: int := 5
  const MaxWeight: int := 100

  /** The weights never leave `[1, 100]`. */
  predicate Fair(w: Walk)
  {
    1 <= w.pPlus <= MaxWeight && 1 <= w.pMinus <= MaxWeight
  }

  /** The weights a draw is taken against: reset to 5 and 5 when both are
      zero. */
  function Weights(w: Walk): (r: (int, int))
    ensures Fair(w) ==> r == (w.pPlus, w.pMinus)
  {
    if w.pPlus + w.pMinus == 0 then (Start, Start) else (w.pPlus, w.pMinus)
  }

  /** The reset for a zero total never fires: fair weights add up to at
      least two. */
  lemma ResetUnreachable(w: Walk)
    requires Fair(w)
    ensures w.pPlus + w.pMinus >= 2
  {
  }

  /** The rescaled `k` after expanding from `oldM` to `newM`. */
  function Rescaled(p: Params, k: int, oldM: int, newM: int): (r: int)
    requires oldM > 0
    ensures -oldM <= 2 * (k * newM - r * oldM) <= oldM
    ensures k >= 0 && newM >= 0 ==> r >= 0
  {
    if p.halfEven then Rescale(k, oldM, newM) else NearestRescale(k, oldM, newM)
  }

  /** One pass of the loop body for the draw `draw`. */
  function Iterate(p: Params, w: Walk, draw: int): (r: (Walk, Option<Outcome>))
    requires w.s.m > 0 && p.factor >= 1 && w.s.err == GrainsError(w.s.k, w.s.m, p.n)
    requires 0 <= draw < Weights(w).0 + Weights(w).1
    ensures var (t, stop) := r;
      && t.s.iterations == w.s.iterations + 1
      && t.s.err == GrainsError(t.s.k, t.s.m, p.n)
      && w.s.m <= t.s.m && (t.s.m == w.s.m || t.s.m <= p.cap)
      && stop != Some(Exhausted)
      && (w.s.k >= 0 ==> t.s.k >= 0)
      && (Fair(w) ==> Fair(t))
      && (stop != Some(AtCapacity) ==> t.stuck == 0 || t.stuck < p.threshold)
    // the step goes up exactly for the draws below the upward weight; an
    // improving step is kept and rewarded
    ensures var (t, stop) := r; var up := draw < Weights(w).0;
      var c := w.s.k + (if up then 1 else -1);
      c >= 0 && GrainsError(c, w.s.m, p.n) < w.s.err ==>
        && t.s == Search(c, w.s.m, GrainsError(c, w.s.m, p.n), w.s.expansions, w.s.iterations + 1)
        && t.stuck == 0
        && (up ==> t.pPlus == Min(Weights(w).0 + 1, MaxWeight) && t.pMinus == Weights(w).1)
        && (!up ==> t.pMinus == Min(Weights(w).1 + 1, MaxWeight) && t.pPlus == Weights(w).0)
    // a failing step below the threshold only costs weight
    ensures var (t, stop) := r; var up := draw < Weights(w).0;
      var c := Max(w.s.k + (if up then 1 else -1), 0);
      GrainsError(c, w.s.m, p.n) >= w.s.err && w.stuck + 1 < p.threshold ==>
        && t.s == w.s.(iterations := w.s.iterations + 1)
        && t.stuck == w.stuck + 1
        && (up ==> t.pPlus == Max(Weights(w).0 - 1, Min(Weights(w).0, 1)) && t.pMinus == Weights(w).1)
        && (!up ==> t.pMinus == Max(Weights(w).1 - 1, Min(Weights(w).1, 1)) && t.pPlus == Weights(w).0)
    // the threshold reached: stop at capacity, or expand and start afresh
    ensures var (t, stop) := r; var up := draw < Weights(w).0;
      var c := Max(w.s.k + (if up then 1 else -1), 0);
      stop == Some(AtCapacity) <==>
        GrainsError(c, w.s.m, p.n) >= w.s.err && w.stuck + 1 >= p.threshold && w.s.m >= p.cap
    ensures var (t, stop) := r; var up := draw < Weights(w).0;
      var c := Max(w.s.k + (if up then 1 else -1), 0);
      GrainsError(c, w.s.m, p.n) >= w.s.err && w.stuck + 1 >= p.threshold && w.s.m < p.cap ==>
        && t.s.m == ClampedCapacity(w.s.m, p.factor, p.cap)
        && t.s.k == Rescaled(p, w.s.k, w.s.m, t.s.m)
        && t.s.expansions == w.s.expansions + 1
        && t.pPlus == Start && t.pMinus == Start && t.stuck == 0
    ensures var (t, stop) := r;
      stop != Some(AtCapacity) ==> (stop == Some(Exact) <==> t.s.err == 0)
  {
    var (pPlus, pMinus) := Weights(w);
    var s := w.s;
    var it := s.iterations + 1;
    var up := draw < pPlus;
    var c := Max(s.k + (if up then 1 else -1), 0);
    var e := GrainsError(c, s.m, p.n);
    if e < s.err then
      var t := Walk(Search(c, s.m, e, s.expansions, it),
                    if up then Min(pPlus + 1, MaxWeight) else pPlus,
                    if up then pMinus else Min(pMinus + 1, MaxWeight), 0);
      (t, if e == 0 then Some(Exact) else None)
    else
      var stuck := w.stuck + 1;
      var pPlus' := if up && pPlus > 1 then pPlus - 1 else pPlus;
      var pMinus' := if !up && pMinus > 1 then pMinus - 1 else pMinus;
      if stuck < p.threshold then
        var t := Walk(s.(iterations := it), pPlus', pMinus', stuck);
        (t, if s.err == 0 then Some(Exact) else None)
      else if s.m >= p.cap then
        (Walk(s.(iterations := it), pPlus', pMinus', stuck), Some(AtCapacity))
      else
        var newM := ClampedCapacity(s.m, p.factor, p.cap);
        Grows(s.m, p.factor, p.cap);
        var newK := Rescaled(p, s.k, s.m, newM);
        var err := GrainsError(newK, newM, p.n);
        (Walk(Search(newK, newM, err, s.expansions + 1, it), Start, Start, 0),
         if err == 0 then Some(Exact) else None)
  }

  function Min(a: int, b: int): int
  {
    if a < b then a else b
  }

  function Max(a: int, b: int): int
  {
    if a < b then b else a
  }

  lemma Grows(m: int, factor: int, cap: int)
    requires 0 < m < cap && factor >= 1
    ensures m <= ClampedCapacity(m, factor, cap) <= cap
  {
    MulMonotone(m, 1, factor);
  }

  /** `grains_random_step_sqrtN` from `(INITIAL_K, INITIAL_M)`; `pick(i, t)`
      is the draw of pass `i` from `[0, t)`. */
  method Approximate(p: Params, k0: int, m0: int, pick: (nat, int) -> int)
    returns (w: Walk, outcome: Outcome)
    requires m0 > 0 && p.factor >= 1
    requires forall i: nat, t: int :: 0 < t ==> 0 <= pick(i, t) < t
    ensures w.s.err == GrainsError(w.s.k, w.s.m, p.n)
    ensures outcome == Exact ==> w.s.err == 0
    ensures outcome == AtCapacity ==> w.s.m >= p.cap && w.stuck >= p.threshold
    ensures outcome == Exhausted ==> w.s.iterations >= p.allowed
    ensures w.s.iterations <= if p.allowed > 0 then p.allowed else 0
    ensures m0 <= w.s.m && (w.s.m == m0 || w.s.m <= p.cap)
    ensures Fair(w)
    ensures k0 >= 0 ==> w.s.k >= 0
  {
    w := Walk(Search(k0, m0, GrainsError(k0, m0, p.n), 0, 0), Start, Start, 0);
    while w.s.iterations < p.allowed
      invariant w.s.err == GrainsError(w.s.k, w.s.m, p.n)
      invariant m0 <= w.s.m && (w.s.m == m0 || w.s.m <= p.cap)
      invariant w.s.iterations <= if p.allowed > 0 then p.allowed else 0
      invariant Fair(w)
      invariant k0 >= 0 ==> w.s.k >= 0
      decreases p.allowed - w.s.iterations
    {
      ResetUnreachable(w);
      var draw := pick(w.s.iterations, w.pPlus + w.pMinus);
      var (t, stop) := Iterate(p, w, draw);
      w := t;
      if stop.Some? {
        return w, stop.value;
      }
    }
    return w, Exhausted;
  }
}

=== FILE: wrappers.dfy ===
/** Error kinds raised by the modelled scripts, and the result type that carries them. */
module Wrappers {

  /** The Python exception classes the modelled code raises. */
  datatype Error = ValueError | TypeError | ZeroDivisionError | IndexError

  /** Either a value or the exception the source would have raised instead. */
  datatype Result<+T> = Ok(value: T) | Err(error: Error) {
    predicate IsFailure() {
      Err?
    }

    function PropagateFailure<U>(): Result<U>
      requires Err?
    {
      Err(error)
    }

    function Extract(): T
      requires Ok?
    {
      value
    }
  }

  /** Python's `None`-or-value return. */
  datatype Option<+T> = None | Some(value: T)
}
